=== FILE: README.md ===
# EPyT-Flow core, modelled in Dafny

This project models the data-handling core of EPyT-Flow, a Python toolbox that simulates
water distribution networks. The Dafny model covers these parts:

- the sensor configuration: which sensors exist, how raw simulator output becomes the
  readings matrix, and how a sensor is mapped to its column;
- the SCADA data object: fault columns, noise, faults, the readings cache, the
  per-kind selectors, joining, equality and column descriptions for export;
- events: leakages with their abrupt and incipient profiles, sensor faults, actuator
  events, sensor reading events and the system-event step rule;
- uncertainties: Gaussian, uniform and the three deep variants, with their pre-generated
  noise buffers, clipping, attributes and equality, plus the sensor noise that wraps them;
- the LeakDB and BattLeDIM benchmark label builders, the count-based metrics, the
  duration helper `to_seconds` and the control-environment registry.

Each core Python file has one Dafny module of its own. The mapping is:

| Python file | Dafny file |
|---|---|
| `utils.py` | `utils.dfy` |
| `metrics.py` | `metrics.dfy` |
| `gym/control_gyms.py` | `control_gyms.dfy` |
| `events/system_event.py` | `system_event.dfy` |
| `events/actuator_events.py` | `actuator_events.dfy` |
| `events/sensor_reading_event.py` | `sensor_reading_event.dfy` |
| `events/sensor_faults.py` | `sensor_faults.dfy` |
| `events/leakages.py` | `leakages.dfy` |
| `uncertainty/uncertainties.py` | `uncertainties.dfy` |
| `uncertainty/sensor_noise.py` | `sensor_noise.dfy` |
| `simulation/sensor_config.py` | `sensor_config.dfy` |
| `scada/scada_data.py` | `scada_data.dfy` |
| `scada/scada_data_export.py` | `scada_data_export.dfy` |
| `benchmarks/leakdb.py` | `leakdb.dfy`, with the shared label helpers in `labels.dfy` |
| `benchmarks/battledim.py` | `battledim.dfy` |

`common.dfy` holds the shared pieces:
- `Result` and `Option`;
- the Python exception kinds;
- `Value`, a Python scalar whose run-time type is inspected;
- `Obj`, an argument that may be of the wrong class;
- `Collect`, which gathers a sequence of results and stops at the first error.

Every function that has no computational content in Dafny is a parameter:
- randomness (`Randomness`);
- `exp`, `sqrt` and `pi` (`Transcendentals`);
- date and float parsing.

Objects whose fields the Python code updates in place are classes:
- `Leakage`;
- `Uncertainty`;
- `SensorNoise`;
- `SensorConfig`;
- `ScadaData`;
- `ScadaDataExport`;
- the `environments` registry;
- `SystemEvent`.

The other values are datatypes.

`clip` as written passes `min_value` through `np.min`, so it acts as a cap, and `max_value`
through `np.max`, so it acts as a floor; with both bounds set in order every value becomes
`max_value` (see "## Findings"). `ClipAsWritten` models that code. `Clip` is the clamp the
parameter documentation describes, and every `apply` of the model uses it.

## Model

| member | source | states |
|---|---|---|
| Utils.Component | epyt_flow/utils.py:96-116 | an omitted component adds 0 seconds; a non-int is a TypeError; an int that is not positive is a ValueError; otherwise it adds its count times the unit |
| Utils.ToSecondsSpec | epyt_flow/utils.py:94-118 | the components are checked in the order days, hours, minutes, and the first rejected one decides the error; the call succeeds exactly when all three are accepted |
| Utils.ToSeconds | epyt_flow/utils.py:76-118 | the accumulating method returns exactly `ToSecondsSpec`, errors included |
| Utils.ToSecondsSum | epyt_flow/utils.py:102-116 | whole components give 86400·days + 3600·hours + 60·minutes |
| Utils.NoComponentsIsZero | epyt_flow/utils.py:94-118 | without arguments the duration is 0 |
| Utils.ToSecondsPositive | epyt_flow/utils.py:94-118 | a successful result is never negative, and it is positive when some component is given |
| Utils.FirstBadComponentDecides | epyt_flow/utils.py:96-107 | a float number of days is a TypeError whatever follows; 0 days is a ValueError; a negative hour count beats a float minute count |
| ControlGyms.Registry.constructor | epyt_flow/gym/control_gyms.py:4 | the registry starts empty |
| ControlGyms.Registry.Register | epyt_flow/gym/control_gyms.py:7-24 | a name already taken is a ValueError, a class that is not a control environment a TypeError, and neither changes the registry; otherwise exactly the one entry is added |
| ControlGyms.Registry.Make | epyt_flow/gym/control_gyms.py:27-44 | an unknown name is a ValueError; a known one gives an instance of the registered class built with the given keywords |
| ControlGyms.Registry.MadeEnvironmentsAreControlEnvs | epyt_flow/gym/control_gyms.py:20-24 | everything `make` creates from a valid registry is a control environment |
| ControlGyms.RegisterThenMake | epyt_flow/gym/control_gyms.py:7-44 | after registering a name, `make` of that name creates the registered class and `make` of other names is unchanged |
| ControlGyms.RegisterTwice | epyt_flow/gym/control_gyms.py:18-19 | a second registration under the same name keeps the first class |
| Metrics.Count | epyt_flow/metrics.py:64-65 | the number of positions with given truth and prediction never exceeds the length |
| Metrics.Agree | epyt_flow/metrics.py:130 | the number of agreeing positions never exceeds the length |
| Metrics.Ratio | epyt_flow/metrics.py:67 | a division by zero gives NaN (None); a count over a larger count lies in [0, 1]; a count over itself is 1 |
| Metrics.TruePositiveRate | epyt_flow/metrics.py:48-67 | tp / (tp + fn) lies in [0, 1], and it is NaN exactly when there are no positives |
| Metrics.TrueNegativeRate | epyt_flow/metrics.py:70-89 | tn / (tn + fp) lies in [0, 1], and it is NaN exactly when there are no negatives |
| Metrics.CountRows | epyt_flow/metrics.py:108-109 | the number of rows passing a row test never exceeds the number of rows |
| Metrics.Precision | epyt_flow/metrics.py:92-111 | precision lies in [0, 1], and it is NaN exactly when there are neither hit rows nor rows with a false alarm |
| Metrics.Accuracy | epyt_flow/metrics.py:114-131 | accuracy lies in [0, 1], and it is NaN exactly for empty labels |
| Metrics.Rows | epyt_flow/metrics.py:108-109 | a one-dimensional label array read as an array of one-entry rows |
| Metrics.RowsOfScalars | epyt_flow/metrics.py:108-131 | on one-dimensional labels the row tests are the elementwise counts: a hit row is a true positive, a false-alarm row a false positive, a right row an agreement |
| Metrics.F1 | epyt_flow/metrics.py:134-154 | the F1-score lies in [0, 1], and it is NaN exactly when tp, fp and fn are all 0 |
| Metrics.CountSwap | epyt_flow/metrics.py:64-65 | swapping prediction and truth swaps the two values counted |
| Metrics.PerfectCounts | epyt_flow/metrics.py:64-65 | a perfect prediction makes no mistake of any kind and agrees everywhere |
| Metrics.PositiveCounted | epyt_flow/metrics.py:64 | a positive in the truth is a true positive of the perfect prediction |
| Metrics.PerfectPrediction | epyt_flow/metrics.py:48-154 | a perfect prediction with at least one positive has true positive rate, precision, accuracy and F1-score all 1 |
| Metrics.PerfectRowsRight | epyt_flow/metrics.py:114-131 | every row of a perfect prediction passes the `np.all(y[i] == y_pred[i])` test |
| Metrics.PerfectAccuracy | epyt_flow/metrics.py:114-131 | a perfect prediction of any non-empty label array, positives or not, has accuracy 1 |
| Metrics.F1Symmetric | epyt_flow/metrics.py:150-154 | the F1-score does not depend on which argument is the prediction |
| Metrics.RecallIsSwappedPrecision | epyt_flow/metrics.py:64-111 | the true positive rate of a prediction is the precision of the truth read as a prediction |
| Metrics.BinaryCountsPartition | epyt_flow/metrics.py:64-152 | with 0/1 labels, tp + tn + fp + fn is the length, and the agreements are tp + tn |
| Metrics.RatesDefined | epyt_flow/metrics.py:64-89 | with 0/1 predictions, a positive in the truth makes the true positive rate defined, and a negative makes the true negative rate defined |
| SystemEvents.InWindow | epyt_flow/simulation/events/system_event.py:44 | the chained comparison is true exactly inside [start, end); an end time of None raises TypeError, but only once the start time is reached |
| SystemEvents.StepRule | epyt_flow/simulation/events/system_event.py:34-49 | inside the window the event is applied; outside it, the event exits exactly when the flag is clear; the flag ends set exactly when it was set before or an exit happened |
| SystemEvents.ExitAtMostOnce | epyt_flow/simulation/events/system_event.py:47-49 | over any run of steps `exit` is called at most once, and never after the flag is set |
| SystemEvents.RunSteps | epyt_flow/simulation/events/system_event.py:34-49 | a run fails, with TypeError, exactly when one of its times reaches the start of a window without an end; otherwise it takes one action per time, applies the event exactly at the times inside the window, and stamps every non-idle action with its time |
| SystemEvents.AppliedExactlyInWindow | epyt_flow/simulation/events/system_event.py:44-45 | every step of a run applies the event exactly when its time lies in the window |
| SystemEvents.EarlyExitAndLateApply | epyt_flow/simulation/events/system_event.py:44-49 | a fresh event exits on a step before its window opens; an event whose flag is set still applies inside its window |
| SystemEvents.SystemEvent.constructor | epyt_flow/simulation/events/system_event.py:14-18 | no simulator handle yet, and the exit flag is clear |
| SystemEvents.SystemEvent.Init | epyt_flow/simulation/events/system_event.py:20-29 | the handle is stored and the exit flag is untouched |
| SystemEvents.SystemEvent.Step | epyt_flow/simulation/events/system_event.py:34-49 | the action taken and the new flag are those of `StepRule`; on a TypeError the flag is left as it was |
| SystemEvents.SystemEvent.Call | epyt_flow/simulation/events/system_event.py:31-32 | calling the event is one step |
| ActuatorEvents.NewPumpStateEvent | epyt_flow/simulation/events/actuator_events.py:24-66 | a state that is not an int is a TypeError; a state other than 2 or 3 is a ValueError; the pump id is required; an accepted event keeps its arguments |
| ActuatorEvents.CheckSpeed | epyt_flow/simulation/events/actuator_events.py:101-105 | a speed that is not a float is a TypeError, a speed that is not positive a ValueError |
| ActuatorEvents.NewPumpSpeedEventAsWritten | epyt_flow/simulation/events/actuator_events.py:100-110 | as written: the event object itself is passed as the pump id, so a given `pump_id` keyword collides (TypeError) and an event built without one names itself as its pump |
| ActuatorEvents.PumpSpeedEventLosesPumpId | epyt_flow/simulation/events/actuator_events.py:110 | with a valid speed, passing a pump id fails, and omitting it binds the pump id to the event |
| ActuatorEvents.NewPumpSpeedEvent | epyt_flow/simulation/events/actuator_events.py:100-121 | intended: the speed check, then the given pump id; an accepted event keeps both |
| ActuatorEvents.PumpSpeedGettersRoundTrip | epyt_flow/simulation/events/actuator_events.py:112-121 | with the intended binding the getters give back the pump id and the speed; a negative speed is a ValueError and an int speed a TypeError |
| ActuatorEvents.NewValveStateEvent | epyt_flow/simulation/events/actuator_events.py:144-155 | a state that is not an int is a TypeError; a state other than 0 or 1 is a ValueError; an accepted event keeps its arguments |
| ActuatorEvents.BooleanStates | epyt_flow/simulation/events/actuator_events.py:58-149 | Python booleans are valid valve states and invalid pump states; floats are neither |
| SensorReadingEvents.NewSensorReadingEvent | epyt_flow/simulation/events/sensor_reading_event.py:31-44 | a sensor id that is not a str, or a type that is not an int, is a TypeError; a type outside 1..8 is a ValueError; an accepted event keeps both |
| SensorReadingEvents.ValidatedTypeIsAKind | epyt_flow/simulation/events/sensor_reading_event.py:38-39 | the type code of an accepted event names one of the eight sensor kinds |
| SensorReadingEvents.Attributes | epyt_flow/simulation/events/sensor_reading_event.py:70-71 | the attributes are exactly the sensor id and the type code |
| SensorReadingEvents.AttributesRoundTrip | epyt_flow/simulation/events/sensor_reading_event.py:31-71 | the attributes of an accepted event rebuild the same event |
| SensorReadingEvents.Equals | epyt_flow/simulation/events/sensor_reading_event.py:73-79 | comparing with something that is not a sensor reading event is a TypeError; otherwise events are equal exactly when they are the same |
| SensorNoises.SensorNoise.constructor | epyt_flow/uncertainty/sensor_noise.py:18-24 | the noise stores the uncertainty it is given |
| SensorNoises.SensorNoise.GetUncertainty | epyt_flow/uncertainty/sensor_noise.py:27-29 | the property returns a fresh copy in the same state, so the caller cannot advance the stored generator |
| SensorNoises.SensorNoise.Apply | epyt_flow/uncertainty/sensor_noise.py:40-54 | intended (uncertainties.py:51-54 corrected): the result and the new generator state are those of `apply_batch` over the rows |
| SensorNoises.SensorNoise.Equals | epyt_flow/uncertainty/sensor_noise.py:34-35 | comparing with an object without an `uncertainty` is an AttributeError; noises with different bounds are unequal |
| SensorNoises.NewSensorNoise | epyt_flow/uncertainty/sensor_noise.py:18-24 | an argument that is not an uncertainty is a TypeError; otherwise a fresh noise holding it |
| SensorNoises.EqualsIgnoresState | epyt_flow/uncertainty/sensor_noise.py:34-35 | noises whose uncertainties are of the same class are equal exactly when bounds and parameters agree; the generator state never matters |
| SensorConfigs.TypeCode | epyt_flow/simulation/sensor_config.py:10-17 | every kind has a code in 1..8 |
| SensorConfigs.KindOfCode | epyt_flow/simulation/sensor_config.py:10-17 | exactly the codes 1..8 denote a kind, and the kind found has that code |
| SensorConfigs.TypeCodeRoundTrip | epyt_flow/simulation/sensor_config.py:10-17 | codes and kinds correspond one to one |
| SensorConfigs.Position | epyt_flow/simulation/sensor_config.py:582-593 | every kind has a block in the concatenation order, at the position returned |
| SensorConfigs.Sensors.With | epyt_flow/simulation/sensor_config.py:310-320 | replacing one kind's list leaves the other seven lists untouched |
| SensorConfigs.NewConfig | epyt_flow/simulation/sensor_config.py:76-160 | the constructor succeeds exactly for non-empty node and link lists, valves and pumps among the links, tanks among the nodes and every sensor placed at an element of its kind; anything else is a ValueError |
| SensorConfigs.WidthStep | epyt_flow/simulation/sensor_config.py:211-218 | each further kind adds the width of its sensor list |
| SensorConfigs.WidthMonotone | epyt_flow/simulation/sensor_config.py:211-218 | the shift of a later block is never smaller than that of an earlier one |
| SensorConfigs.BlocksTileTheRow | epyt_flow/simulation/sensor_config.py:211-218 | every block fits inside the row, blocks in reading order do not overlap, and the tank level block ends the row |
| SensorConfigs.IdMap | epyt_flow/simulation/sensor_config.py:220-237 | the id-to-column map holds exactly the listed ids, each mapped into the block [offset, offset + length) |
| SensorConfigs.IdMapDistinct | epyt_flow/simulation/sensor_config.py:220-237 | without duplicate ids the j-th sensor is mapped to offset + j |
| SensorConfigs.SensorsIdToIdx | epyt_flow/simulation/sensor_config.py:205-237 | `sensors_id_to_idx[kind]` holds exactly the kind's sensors, each mapped into the kind's block of columns, inside the row |
| SensorConfigs.RawIndices | epyt_flow/simulation/sensor_config.py:178-195 | the `list.index` lookups succeed exactly when every sensor is an element of its domain, and each index found names that element; a missing one is a ValueError |
| SensorConfigs.WellPlacedIndicesExist | epyt_flow/simulation/sensor_config.py:76-195 | a configuration that passed the constructor's checks can always compute its raw indices |
| SensorConfigs.Block | epyt_flow/simulation/sensor_config.py:582-589 | a kind's block of a row has one entry per sensor of that kind |
| SensorConfigs.ConcatEntry | epyt_flow/simulation/sensor_config.py:593 | concatenating blocks of the widths of the sensor lists gives a row of the total width, whose entry at (width of earlier blocks) + j is entry j of block p |
| SensorConfigs.RowBlocks | epyt_flow/simulation/sensor_config.py:582-589 | the eight blocks of a time step, in reading order |
| SensorConfigs.ReadingsRow | epyt_flow/simulation/sensor_config.py:582-593 | a row of the readings has one column per sensor |
| SensorConfigs.ComputeReadings | epyt_flow/simulation/sensor_config.py:551-593 | the readings have one row per time step and one column per sensor |
| SensorConfigs.RowBlocksWidths | epyt_flow/simulation/sensor_config.py:582-589 | each block has the width of its kind's sensor list |
| SensorConfigs.OrderedConcatEntry | epyt_flow/simulation/sensor_config.py:593 | entry j of kind k's block lands at (width of the kinds before k) + j of the concatenation |
| SensorConfigs.RowEntryInBlock | epyt_flow/simulation/sensor_config.py:582-593 | entry j of kind k's block sits at column (width of the kinds before k) + j of the row |
| SensorConfigs.BlockEntryIsRaw | epyt_flow/simulation/sensor_config.py:582-589 | entry j of kind k's block is the raw value of the element the j-th sensor of kind k is placed at |
| SensorConfigs.ReadingsRowEntry | epyt_flow/simulation/sensor_config.py:551-593 | the row entry of the j-th sensor of kind k is that sensor's raw value |
| SensorConfigs.ReadingsAt | epyt_flow/simulation/sensor_config.py:551-593 | each row of the readings is the concatenated row, and each block starts at the shift `__compute_indices` assigns |
| SensorConfigs.ReadingColumn | epyt_flow/simulation/sensor_config.py:551-593 | the column of the j-th sensor of kind k lies in the row and holds that sensor's raw reading at every time step |
| SensorConfigs.LookupFirst | epyt_flow/simulation/sensor_config.py:624-641 | the lookup can only fail with KeyError or ValueError |
| SensorConfigs.LookupNoneGiven | epyt_flow/simulation/sensor_config.py:624-641 | ValueError comes exactly from giving none of the keywords |
| SensorConfigs.GetIndexOfReading | epyt_flow/simulation/sensor_config.py:595-641 | `get_index_of_reading` can only fail with KeyError or ValueError |
| SensorConfigs.NoSensorGiven | epyt_flow/simulation/sensor_config.py:640-641 | "No sensor given" exactly when every keyword is None |
| SensorConfigs.IndexOfReadingSingle | epyt_flow/simulation/sensor_config.py:624-641 | with one keyword the index exists exactly for the sensors of that kind, an unknown id is a KeyError, and the index is the cached column of the id |
| SensorConfigs.IdToIdxEntry | epyt_flow/simulation/sensor_config.py:211-237 | the cached column of an id lies inside its kind's block and names the id's last occurrence in the list |
| SensorConfigs.SingleKeywordLookup | epyt_flow/simulation/sensor_config.py:624-639 | a one-keyword query reads that kind's id-to-column map, and a missing id is a KeyError |
| SensorConfigs.LastIndex | epyt_flow/simulation/sensor_config.py:220-237 | an id has a last position exactly when it is listed, and that position holds the id |
| SensorConfigs.LastIndexIsLast | epyt_flow/simulation/sensor_config.py:220-237 | no occurrence follows the last one |
| SensorConfigs.LastIndexDistinct | epyt_flow/simulation/sensor_config.py:220-237 | without duplicates the last occurrence of the j-th id is j |
| SensorConfigs.IdMapIsLastIndex | epyt_flow/simulation/sensor_config.py:220-237 | the dictionary comprehension keeps the column of the last occurrence of each id |
| SensorConfigs.IndexOfSensor | epyt_flow/simulation/sensor_config.py:624-639 | a one-keyword lookup succeeds exactly for the listed ids, with a KeyError otherwise, and returns a column inside the kind's block that holds the id |
| SensorConfigs.IndexOfSensorIsCached | epyt_flow/simulation/sensor_config.py:624-639 | the lookup agrees with the cached map of the kind |
| SensorConfigs.IndexOfDistinctId | epyt_flow/simulation/sensor_config.py:220-237 | with distinct ids the j-th sensor of a kind is found at the block start + j |
| SensorConfigs.EarlierOccurrenceUnused | epyt_flow/simulation/sensor_config.py:220-237 | no lookup of any kind ever returns the column of an earlier duplicate of an id |
| SensorConfigs.SingleKeywordQuery | epyt_flow/simulation/sensor_config.py:595-641 | the keyword query with one keyword is the one-kind lookup |
| SensorConfigs.PositionOfEntry | epyt_flow/simulation/sensor_config.py:582-593 | each kind occupies exactly one place of the reading order |
| SensorConfigs.LookupSkips | epyt_flow/simulation/sensor_config.py:624-641 | keywords that are None are skipped |
| SensorConfigs.IndexOfDistinctSensor | epyt_flow/simulation/sensor_config.py:624-641 | with distinct ids the query for the j-th sensor of kind k returns its block start + j |
| SensorConfigs.IndexedColumnHoldsRawReading | epyt_flow/simulation/sensor_config.py:551-641 | the column `get_index_of_reading` returns for a sensor holds that sensor's raw reading at every time step |
| SensorConfigs.SensorConfig.constructor | epyt_flow/simulation/sensor_config.py:70-176 | the object holds the validated configuration and its cached id-to-column maps |
| SensorConfigs.SensorConfig.SetSensors | epyt_flow/simulation/sensor_config.py:310-496 | a sensor outside the kind's domain is a ValueError and changes nothing; otherwise exactly that kind's list is replaced and the caches stay consistent |
| SensorConfigs.SensorConfig.IndexOfReading | epyt_flow/simulation/sensor_config.py:595-641 | answering from the cached maps gives the lookup over the current lists |
| SensorConfigs.SensorConfig.Equals | epyt_flow/simulation/sensor_config.py:523-538 | comparing with a foreign object is a TypeError; configurations are equal exactly when all thirteen lists agree |
| SensorConfigs.AllIdToIdx | epyt_flow/simulation/sensor_config.py:220-237 | the cache holds one map for every kind, each the kind's id-to-column map |
| SensorConfigs.EveryKindHasABlock | epyt_flow/simulation/sensor_config.py:582-593 | every kind appears in the reading order |
| SensorConfigs.CacheAgrees | epyt_flow/simulation/sensor_config.py:624-641 | reading from the cached maps answers every query as the lists do |
| ScadaDatas.ColumnOf | epyt_flow/simulation/scada/scada_data.py:388 | the column read has one entry per row, entry t being row t's entry c |
| ScadaDatas.SetColumn | epyt_flow/simulation/scada/scada_data.py:388 | writing a column keeps every row's length, replaces entry c of each row and leaves every other entry as it was |
| ScadaDatas.ColumnRoundTrip | epyt_flow/simulation/scada/scada_data.py:388 | a column written is read back unchanged, and writing back the column read changes nothing |
| ScadaDatas.ApplyFault | epyt_flow/simulation/scada/scada_data.py:387-388 | one fault succeeds exactly when its column exists (IndexError otherwise) and, when there is a row, its end time is set (TypeError otherwise); the result keeps the shape |
| ScadaDatas.ApplyFaults | epyt_flow/simulation/scada/scada_data.py:387-388 | the fault stage keeps the shape of the readings |
| ScadaDatas.FaultsTouchOnlyTheirColumns | epyt_flow/simulation/scada/scada_data.py:387-388 | a column that no fault targets leaves the fault stage unchanged |
| ScadaDatas.LateFaultChangesNothing | epyt_flow/simulation/scada/scada_data.py:387-388 | a fault whose start time lies at or after every time step leaves the readings as they were |
| ScadaDatas.FaultColumn | epyt_flow/simulation/scada/scada_data.py:205-230 | the column of a fault exists exactly when its sensor is configured for its kind, with KeyError otherwise |
| ScadaDatas.FaultQueries | epyt_flow/simulation/scada/scada_data.py:204-232 | one query per fault, in list order |
| ScadaDatas.FaultColumns | epyt_flow/simulation/scada/scada_data.py:204-232 | every fault is mapped exactly when every fault's sensor is configured, with KeyError otherwise; column i is the query result of fault i |
| ScadaDatas.FaultQueriesPrefix | epyt_flow/simulation/scada/scada_data.py:204-232 | the queries of the first i faults are the first i queries |
| ScadaDatas.FaultColumnHoldsItsSensor | epyt_flow/simulation/scada/scada_data.py:204-232 | every mapped column lies in its fault kind's block, inside the readings, and names the fault's sensor |
| ScadaDatas.NoiseKeepsWidths | epyt_flow/simulation/scada/scada_data.py:384 | a noise pass that succeeds keeps every row's length |
| ScadaDatas.GetDataSpec | epyt_flow/simulation/scada/scada_data.py:363-392 | without noise the generator state is untouched; readings are produced only from raw data holding every selected column, one row per time step |
| ScadaDatas.GetDataShape | epyt_flow/simulation/scada/scada_data.py:363-392 | the readings of `get_data` have one row per time step and one column per sensor |
| ScadaDatas.FaultStageSucceeds | epyt_flow/simulation/scada/scada_data.py:387-388 | faults with an end time, on columns that exist, never fail |
| ScadaDatas.GetDataWithoutNoiseSucceeds | epyt_flow/simulation/scada/scada_data.py:363-392 | without noise and with faults that have an end time, `get_data` succeeds exactly when the raw data hold every selected column |
| ScadaDatas.GetDataWithoutNoise | epyt_flow/simulation/scada/scada_data.py:374-392 | without noise, `get_data` is an IndexError on raw data lacking a selected column, and otherwise the fault stage applied to the computed readings |
| ScadaDatas.UnfaultedColumnHoldsRawReading | epyt_flow/simulation/scada/scada_data.py:374-392 | without noise, the column of a sensor that no fault targets holds that sensor's raw reading at every time step |
| ScadaDatas.CleanColumnHoldsRawReading | epyt_flow/simulation/scada/scada_data.py:374-382 | before noise and faults, the column of the j-th sensor of kind k holds its raw reading |
| ScadaDatas.CleanColumnSurvivesFaults | epyt_flow/simulation/scada/scada_data.py:387-388 | after the fault stage, a column that no fault targets still holds its sensor's raw reading |
| ScadaDatas.ColumnsOf | epyt_flow/simulation/scada/scada_data.py:428-429 | the column lookups fail only with KeyError and otherwise give, for each id, the column of that sensor |
| ScadaDatas.ColumnsExist | epyt_flow/simulation/scada/scada_data.py:428-429 | the lookups succeed exactly when every id is a sensor of the kind |
| ScadaDatas.Pick | epyt_flow/simulation/scada/scada_data.py:430 | fancy indexing succeeds exactly when every column is inside the array (IndexError otherwise), with one row per row and entry (t, j) the entry of column cols[j] |
| ScadaDatas.Locations | epyt_flow/simulation/scada/scada_data.py:412-423 | no sensor of the kind is a ValueError; locations that are not a list a TypeError; the call succeeds exactly for no locations (all sensors) or locations all allowed |
| ScadaDatas.SelectorPicksRequestedSensors | epyt_flow/simulation/scada/scada_data.py:394-430 | a selector checked against its own kind's sensors fails only in the location check, and column j of its result is the reading of the j-th requested sensor |
| ScadaDatas.SelectFrom | epyt_flow/simulation/scada/scada_data.py:394-430 | a failing location check is the selector's error; a success has one row per time step and, in column j, the reading of the j-th requested sensor |
| ScadaDatas.PickBlock | epyt_flow/simulation/scada/scada_data.py:430 | picking consecutive columns copies that block of every row |
| ScadaDatas.SelectorDefaultsToAllSensors | epyt_flow/simulation/scada/scada_data.py:422-430 | without locations a selector returns the whole block of its kind, in configuration order |
| ScadaDatas.TankSelectorAsWritten | epyt_flow/simulation/scada/scada_data.py:678-696 | as written, asking the tank level selector for a tank level sensor is a ValueError and for a flow sensor a KeyError; checked against the tank level sensors the first succeeds and the second is a ValueError |
| ScadaDatas.AllowedAsWritten | epyt_flow/simulation/scada/scada_data.py:678-696 | as written, the ids a selector accepts are its own kind's sensors except for tank level, where they differ unless the flow and tank level sensor lists coincide |
| ScadaDatas.ApplyFaultsStopAtError | epyt_flow/simulation/scada/scada_data.py:387-388 | once a prefix of the faults fails, the whole stage fails with the same error |
| ScadaDatas.JoinStacksRows | epyt_flow/simulation/scada/scada_data.py:344-361 | joining stacks the rows: the first object's rows come first, then the other's |
| ScadaDatas.JoinRaw | epyt_flow/simulation/scada/scada_data.py:344-361 | the joined matrix of every kind is the first object's rows followed by the other's |
| ScadaDatas.Unwrap | epyt_flow/simulation/scada/scada_data.py:93-95 | the instances of a list whose elements all are instances, in order |
| ScadaDatas.MapNextFault | epyt_flow/simulation/scada/scada_data.py:206-232 | one step of the mapping loop gives the fault's query result and extends the collected columns by it |
| ScadaDatas.MapFaults | epyt_flow/simulation/scada/scada_data.py:199-232 | the loop maps every fault exactly when `FaultColumns` succeeds and gives its columns; otherwise it stops with KeyError at the first fault whose sensor is not configured, the earlier ones mapped |
| ScadaDatas.RunFaults | epyt_flow/simulation/scada/scada_data.py:387-388 | the in-place fault loop over a column buffer computes exactly the fault stage |
| ScadaDatas.ScadaData.Store | epyt_flow/simulation/scada/scada_data.py:121-133 | the fields hold the arguments, nothing is mapped yet and nothing is cached |
| ScadaDatas.ScadaData.Init | epyt_flow/simulation/scada/scada_data.py:199-234 | the fault columns are all mapped and the cache cleared, or the first unconfigured fault's KeyError leaves the faults before it mapped and the cache as it was; nothing else changes |
| ScadaDatas.ScadaData.Create | epyt_flow/simulation/scada/scada_data.py:51-137 | a wrongly typed argument is a TypeError; a raw matrix without one row per time step a ValueError; otherwise the object is created exactly when every fault's sensor is configured (KeyError otherwise), holding the arguments with every fault mapped and no cache |
| ScadaDatas.ScadaData.GetData | epyt_flow/simulation/scada/scada_data.py:363-392 | the result and the new generator state are `GetDataSpec` of the stored state; a success is cached, a failure leaves the cache; nothing else changes |
| ScadaDatas.ScadaData.Fetch | epyt_flow/simulation/scada/scada_data.py:425-426 | cached readings, or readings just computed, are rectangular |
| ScadaDatas.ScadaData.CachedReadings | epyt_flow/simulation/scada/scada_data.py:425-426 | `get_data` runs only when nothing is cached, and the readings returned are those the cache then holds |
| ScadaDatas.ScadaData.GetDataOf | epyt_flow/simulation/scada/scada_data.py:394-658 | intended for tank levels (scada_data.py:684 corrected): a failed location check changes nothing; otherwise the selection is taken from the cached readings (computed first when there are none), with the requested sensors' columns in the requested order |
| ScadaDatas.ScadaData.ChangeSensorConfig | epyt_flow/simulation/scada/scada_data.py:276-291 | anything but a sensor configuration is a TypeError that changes nothing; otherwise the configuration is replaced and the faults remapped as by `__init` |
| ScadaDatas.ScadaData.ChangeSensorNoise | epyt_flow/simulation/scada/scada_data.py:293-308 | anything but a sensor noise is a TypeError that changes nothing; otherwise the noise is replaced and `__init` rerun |
| ScadaDatas.ScadaData.ChangeSensorFaults | epyt_flow/simulation/scada/scada_data.py:310-323 | a list with a non-fault element is a TypeError that changes nothing; otherwise the faults are replaced and remapped |
| ScadaDatas.ScadaData.Join | epyt_flow/simulation/scada/scada_data.py:325-361 | a non-SCADA object is a TypeError, a different configuration a ValueError, and both leave the data; otherwise every raw matrix and the times get the other's rows appended, while the fault columns and the cache stay as they were |
| ScadaDatas.ScadaData.Equals | epyt_flow/simulation/scada/scada_data.py:250-262 | intended (line 256 corrected): comparing with an object that is not SCADA data is an AttributeError; equal objects have the same configuration, raw data, times and number of faults |
| ScadaDatas.FaultsEqualSound | epyt_flow/simulation/scada/scada_data.py:253 | equal fault lists have the same length and pairwise the same sensor reading events |
| ScadaDatas.FaultsEqualReflexive | epyt_flow/simulation/scada/scada_data.py:253 | every fault list equals itself |
| ScadaDatas.SnapshotEqualsMeansSame | epyt_flow/simulation/scada/scada_data.py:250-262 | equal snapshots agree on the configuration, raw data, times and number of faults |
| ScadaDatas.SnapshotEqualsReflexive | epyt_flow/simulation/scada/scada_data.py:250-262 | every snapshot equals itself, with or without noise |
| ScadaDatas.SnapshotEquals | epyt_flow/simulation/scada/scada_data.py:250-262 | intended (scada_data.py:256 corrected): different configurations are unequal before anything else is read; noise on only one side is an AttributeError; fault lists of different lengths are unequal; the result is True exactly when configuration, noise, every fault pair and all data, the demands included, agree |
| ScadaDatas.NoiseEquals | epyt_flow/simulation/scada/scada_data.py:252 | two missing noises are equal; a noise against a missing one is AttributeError whichever side is missing; noises whose uncertainties have different bounds are unequal |
| ScadaDatas.FaultsEqual | epyt_flow/simulation/scada/scada_data.py:253 | fault lists of different lengths are unequal; equal lists have every pair of faults equal; an error is the error of comparing some pair |
| ScadaDatas.SnapshotEqualsAsWritten | epyt_flow/simulation/scada/scada_data.py:250-262 | as written, comparing with `b` is the intended comparison with a copy of `b` that has the first object's demand data: the other's demands never matter |
| ScadaDatas.DemandIgnoredAsWritten | epyt_flow/simulation/scada/scada_data.py:256 | as written, an object equals a copy with different demand data; the intended comparison tells them apart |
| ScadaDatas.NoiseAgainstNone | epyt_flow/simulation/scada/scada_data.py:252 | comparing a noise with None fails on either side; None equals None |
| ScadaDataExports.SameBlock | epyt_flow/simulation/scada/scada_data_export.py:61-64 | a column lies in the block of at most one kind |
| ScadaDataExports.SensorColumnsDistinct | epyt_flow/simulation/scada/scada_data_export.py:61-64 | two sensors that map to the same column are the same sensor of the same kind |
| ScadaDataExports.BlockOfColumnIn | epyt_flow/simulation/scada/scada_data_export.py:58-64 | each column below the width of the first i blocks lies in one of those blocks |
| ScadaDataExports.BlockOfColumn | epyt_flow/simulation/scada/scada_data_export.py:58-64 | every column of the readings lies in the block of some kind |
| ScadaDataExports.ColumnOwner | epyt_flow/simulation/scada/scada_data_export.py:61-64 | the column of a listed sensor belongs to no other sensor |
| ScadaDataExports.WriteStep | epyt_flow/simulation/scada/scada_data_export.py:62-64 | one write of the loop describes the sensor written at its column and keeps every description already correct |
| ScadaDataExports.WrittenKept | epyt_flow/simulation/scada/scada_data_export.py:62-64 | writing one sensor's description keeps every other sensor's |
| ScadaDataExports.DescribeKind | epyt_flow/simulation/scada/scada_data_export.py:62-64 | after the inner loop every sensor of the kind is described at its column, descriptions stay correct, and earlier ones are kept |
| ScadaDataExports.ColumnDescOf | epyt_flow/simulation/scada/scada_data_export.py:58-66 | the description has one entry per column; each sensor's column describes it, and every filled column names the sensor it belongs to |
| ScadaDataExports.DescriptionIsUnique | epyt_flow/simulation/scada/scada_data_export.py:58-66 | the description is determined by the configuration alone |
| ScadaDataExports.DistinctIdsLeaveNoGap | epyt_flow/simulation/scada/scada_data_export.py:58-66 | when no kind lists an id twice, no column is left None |
| ScadaDataExports.RepeatedIdLeavesGap | epyt_flow/simulation/scada/scada_data_export.py:58-66 | the column of an id its kind lists again further on is left None |
| ScadaDataExports.SensorNames | epyt_flow/simulation/scada/scada_data_export.py:130-131 | one name per column, the i-th being "Sensor i+1" |
| ScadaDataExports.DigitInjective | epyt_flow/simulation/scada/scada_data_export.py:130 | distinct digits render as distinct characters |
| ScadaDataExports.NatToStringInjective | epyt_flow/simulation/scada/scada_data_export.py:130 | decimal rendering is one-to-one |
| ScadaDataExports.SensorNamesDistinct | epyt_flow/simulation/scada/scada_data_export.py:130-131 | no two columns of the spreadsheet share a name |
| ScadaDataExports.SheetRows | epyt_flow/simulation/scada/scada_data_export.py:130-132 | the names can be put next to the descriptions exactly when there is a column and none is None (ValueError otherwise); row c is "Sensor c+1" with column c's kind and location |
| ScadaDataExports.SheetRowsOfDescription | epyt_flow/simulation/scada/scada_data_export.py:58-132 | with a sensor and no id repeated within a kind the spreadsheet description exists; with a repeated id it is a ValueError; each listed sensor's row names it |
| ScadaDataExports.ScadaDataExport.constructor | epyt_flow/simulation/scada/scada_data_export.py:23-27 | the exporter keeps its path and format |
| ScadaDataExports.ScadaDataExport.CreateColumnDesc | epyt_flow/simulation/scada/scada_data_export.py:40-66 | `get_data` runs first, so its error is passed on and its generator step taken and the cache kept; on success the result is the description of the configuration and the readings are cached |
| ScadaDataExports.ScadaDataExport.Export | epyt_flow/simulation/scada/scada_data_export.py:86-171 | anything but SCADA data is a TypeError before anything else; otherwise the readings are those of the first `get_data`, with the times and the configuration's description; the spreadsheet adds its description rows; the generator state is the one after both `get_data` calls (after one when the first fails), and the cache holds the readings of the last call that succeeded |
| SensorFaults.CheckParam | epyt_flow/simulation/events/sensor_faults.py:60-195 | the constant shift must be a float, the Gaussian std and the percentage coefficient a positive float, each refused with ValueError; drift and stuck-at-zero accept anything |
| SensorFaults.NewSensorFault | epyt_flow/simulation/events/sensor_faults.py:60-207 | a fault's own parameter check comes first (ValueError); the fault is created exactly when that check and the sensor reading event checks pass, keeping both |
| SensorFaults.ParameterChecks | epyt_flow/simulation/events/sensor_faults.py:129-166 | exactly positive float standard deviations and coefficients are accepted; an int is refused |
| SensorFaults.Multiplier | epyt_flow/simulation/events/sensor_faults.py:22-34 | the multiplier exists exactly when the end time is set; a missing end time is a TypeError |
| SensorFaults.MultiplierZeroUntilStart | epyt_flow/simulation/events/sensor_faults.py:22-34 | before the start time, and at the start of a non-empty window, the multiplier is 0 |
| SensorFaults.MultiplierInUnitRange | epyt_flow/simulation/events/sensor_faults.py:22-34 | for a well-ordered window the multiplier lies in [0, 1] at every time |
| SensorFaults.FaultAtMultiplierBounds | epyt_flow/simulation/events/sensor_faults.py:82-207 | multiplier 0 leaves every reading unchanged; at multiplier 1 a stuck-at-zero reads 0, a percentage fault reading·(1 + coef), a constant fault reading + shift, a drift reading + coef·(t - start) |
| SensorFaults.ApplySensorFault | epyt_flow/simulation/events/sensor_faults.py:82-207 | the faulty reading lies at fraction b of the way from the true reading to the full-strength fault of its class (reading + shift, a drift of coef per time unit since the start, reading + std·z, reading·(1 + coef), or 0): multiplier 0 leaves the reading, multiplier 1 gives the full fault |
| SensorFaults.FaultColumn | epyt_flow/simulation/events/sensor_faults.py:40-47 | the rewritten column has the length of the original |
| SensorFaults.FaultSparesEarlyRows | epyt_flow/simulation/events/sensor_faults.py:22-47 | rows before the fault starts keep their reading |
| SensorFaults.Apply | epyt_flow/simulation/events/sensor_faults.py:40-47 | the loop rewrites the array in place into `FaultColumn` of its old contents and returns the same array; without an end time it fails with TypeError before writing anything (an empty array succeeds) |
| SensorFaults.Call | epyt_flow/simulation/events/sensor_reading_event.py:85-87 | calling a fault on readings and times is `apply` on them: the same in-place rewrite into `FaultColumn`, the same returned array and the same TypeError |
| SensorFaults.OwnParam | epyt_flow/simulation/events/sensor_faults.py:69-174 | every fault class except stuck-at-zero has exactly one parameter property: "constant_shift", "coef" for drift and percentage faults, "std" for Gaussian ones, with the fault's own value |
| SensorFaults.ParamOf | epyt_flow/simulation/events/sensor_faults.py:76-180 | reading a property from another fault succeeds exactly when that fault's class has a property of that name, and gives its value; otherwise AttributeError |
| SensorFaults.FaultEquals | epyt_flow/simulation/events/sensor_faults.py:76-201 | faults with different events are unequal, and equal faults have the same event |
| SensorFaults.FaultEqualityCases | epyt_flow/simulation/events/sensor_faults.py:76-180 | faults of one class are equal exactly when their parameters are; a drift equals a percentage fault with the same coefficient; a constant fault compared with a drift fault raises AttributeError |
| Uncertainties.ClipAsWritten | epyt_flow/uncertainty/uncertainties.py:49-55 | as written: without bounds the value passes unchanged; with `max_value` the result is at least `max_value`; with only `min_value` at most `min_value`; the result is the value or one of the bounds |
| Uncertainties.ClipAsWrittenCases | epyt_flow/uncertainty/uncertainties.py:49-55 | as written: only `min_value`: min(x, min_value); only `max_value`: max(x, max_value); both: max(min(x, min_value), max_value) |
| Uncertainties.ClipAsWrittenIdempotent | epyt_flow/uncertainty/uncertainties.py:49-55 | as written, clipping twice is clipping once, for every combination of bounds |
| Uncertainties.ClipCollapsesOrdinaryRange | epyt_flow/uncertainty/uncertainties.py:49-55 | as written, with min_value < max_value every value clips to `max_value` |
| Uncertainties.Clip | epyt_flow/uncertainty/uncertainties.py:49-55 | intended (lines 51-54 corrected): the result is at least `min_value` (unless the bounds are crossed), at most `max_value`, and a value inside the bounds passes unchanged |
| Uncertainties.ClipInRange | epyt_flow/uncertainty/uncertainties.py:49-55 | intended clipping to ordered bounds lands in [min_value, max_value] |
| Uncertainties.ClipIdempotent | epyt_flow/uncertainty/uncertainties.py:49-55 | intended clipping twice is clipping once, for every combination of bounds, crossed ones included |
| Uncertainties.ClipAsWrittenDiffers | epyt_flow/uncertainty/uncertainties.py:49-55 | with ordered bounds, a value strictly between them is kept by the intended clipping and mapped to `max_value` as written |
| Uncertainties.ClipRow | epyt_flow/uncertainty/uncertainties.py:49-64 | a row of a two-dimensional batch passes unchanged without bounds; with a bound the ragged `np.min`/`np.max` list is a ValueError |
| Uncertainties.UniformDrawInRange | epyt_flow/uncertainty/uncertainties.py:166 | a uniform draw from ordered bounds lies between them |
| Uncertainties.UniformDraw | epyt_flow/uncertainty/uncertainties.py:166 | a uniform draw interpolates between its bounds: unit draw 0 gives the lower bound, 1 the upper, and equal bounds give that bound |
| Uncertainties.MulNonNegative | epyt_flow/uncertainty/uncertainties.py:166 | the product of two non-negative reals is non-negative |
| Uncertainties.PointwiseMin | epyt_flow/uncertainty/uncertainties.py:186 | every entry is at most both inputs' entries |
| Uncertainties.PointwiseMax | epyt_flow/uncertainty/uncertainties.py:187 | every entry is at least both inputs' entries |
| Uncertainties.DeepUniformBounds | epyt_flow/uncertainty/uncertainties.py:182-188 | both bound patterns have `n_samples` entries and the lower never exceeds the upper |
| Uncertainties.Generate | epyt_flow/uncertainty/uncertainties.py:112-272 | every regenerated buffer holds `n_samples` noise values |
| Uncertainties.DeepUniformValuesInBounds | epyt_flow/uncertainty/uncertainties.py:182-188 | every deep-uniform value lies between its slot's lower and upper bound |
| Uncertainties.DeepContinuation | epyt_flow/uncertainty/uncertainties.py:265-272 | a regenerated deep buffer is the pattern started from the last value of the previous one |
| Uncertainties.InitialState | epyt_flow/uncertainty/uncertainties.py:87-243 | construction leaves a valid state at cursor 0 of generation 0 |
| Uncertainties.NextNoise | epyt_flow/uncertainty/uncertainties.py:116-279 | every draw leaves a valid state |
| Uncertainties.ApplyStep | epyt_flow/uncertainty/uncertainties.py:116-123 | intended (uncertainties.py:51-54 corrected): every call of `apply` leaves a valid state |
| Uncertainties.RunBatch | epyt_flow/uncertainty/uncertainties.py:61-64 | intended (uncertainties.py:51-54 corrected): `apply_batch` returns one value per input and leaves a valid state |
| Uncertainties.RunWithinBuffer | epyt_flow/uncertainty/uncertainties.py:61-121 | intended (uncertainties.py:51-54 corrected): before the end of a buffer, k calls advance the cursor by k and the i-th output is the i-th input plus the i-th unread slot, clipped |
| Uncertainties.LastSlotRegenerates | epyt_flow/uncertainty/uncertainties.py:116-121 | intended (uncertainties.py:51-54 corrected): the call that consumes the last slot regenerates the buffer (generation + 1, cursor 0, the deep pattern continuing from the last value), and every output of the batch used the old buffer |
| Uncertainties.RegenerationBoundary | epyt_flow/uncertainty/uncertainties.py:116-121 | intended (uncertainties.py:51-54 corrected): call `n_samples` + 1 reads slot 0 of the new buffer and leaves the cursor at 1 |
| Uncertainties.ZeroGaussianIsIdentity | epyt_flow/uncertainty/uncertainties.py:112-123 | a Gaussian uncertainty of mean 0 and scale 0 without bounds returns its input, and stays so across regenerations |
| Uncertainties.ZeroWidthUniformIsIdentity | epyt_flow/uncertainty/uncertainties.py:165-168 | `UniformUncertainty(low=0, high=0)` without bounds returns its input |
| Uncertainties.UniformNoiseInRange | epyt_flow/uncertainty/uncertainties.py:165-166 | the uniform variant's noise lies in [low, high] |
| Uncertainties.Param | epyt_flow/uncertainty/uncertainties.py:96-251 | reading a parameter property the class lacks is an AttributeError |
| Uncertainties.OwnParams | epyt_flow/uncertainty/uncertainties.py:106-259 | the properties `__eq__` compares are empty exactly for the two deep random variants; each is readable with `Param` and gives its listed value, and no name repeats |
| Uncertainties.OwnParamsCoverParams | epyt_flow/uncertainty/uncertainties.py:96-259 | every property `Param` can read from a variant is one of those `__eq__` compares, with the same value |
| Uncertainties.CompareParams | epyt_flow/uncertainty/uncertainties.py:106-259 | the `and` chain is True exactly when the other variant has every compared property with the same value; an error is an AttributeError from a property the other variant lacks |
| Uncertainties.Equal | epyt_flow/uncertainty/uncertainties.py:43-259 | uncertainties with different bounds are unequal, and equal ones have the same bounds |
| Uncertainties.EqualSameClass | epyt_flow/uncertainty/uncertainties.py:43-259 | two uncertainties of the same class are equal exactly when bounds and parameters agree |
| Uncertainties.EqualAcrossClasses | epyt_flow/uncertainty/uncertainties.py:43-107 | the deep variants without parameters equal each other and anything with the same bounds; a Gaussian compared with a deep-uniform one reads a missing `mean` (AttributeError) |
| Uncertainties.Attributes | epyt_flow/uncertainty/uncertainties.py:40-255 | every class reports its bounds under `min_value` and `max_value` |
| Uncertainties.AttributesIntended | epyt_flow/uncertainty/uncertainties.py:142-157 | intended: the uniform variant reports its range under the constructor's keywords `low` and `high`; the others are unchanged |
| Uncertainties.Construct | epyt_flow/uncertainty/uncertainties.py:26-243 | intended (uncertainties.py:271-272 corrected) for DeepUncertainty, which as written always raises AttributeError: binding keywords fails with TypeError when one is not accepted by the class, and with ValueError when the Gaussian scale, given or drawn, is negative, and in no other case; a drawn scale never fails; otherwise the bounds come from `min_value`/`max_value` and the class is the one called |
| Uncertainties.GaussianOf | epyt_flow/uncertainty/uncertainties.py:87-91 | a given mean or scale is kept; a missing one is the `np.random.rand()` draw |
| Uncertainties.AttributesRoundTrip | epyt_flow/uncertainty/uncertainties.py:26-215 | rebuilding a Gaussian or deep uncertainty from its attributes gives an equal one |
| Uncertainties.UniformAttributesDoNotRoundTrip | epyt_flow/uncertainty/uncertainties.py:142-157 | as written, `UniformUncertainty(**u.get_attributes())` raises TypeError |
| Uncertainties.UniformAttributesIntendedRoundTrip | epyt_flow/uncertainty/uncertainties.py:142-157 | with the intended keys the uniform variant round-trips |
| Uncertainties.Mangle | epyt_flow/uncertainty/uncertainties.py:29-271 | a mangled name is an underscore, then the class name, then the private name |
| Uncertainties.MangleSeparatesClasses | epyt_flow/uncertainty/uncertainties.py:29-271 | the same private name mangled in two different classes gives two different attributes |
| Uncertainties.DeepInstanceAttributes | epyt_flow/uncertainty/uncertainties.py:26-271 | when a `DeepUncertainty` first generates its pattern, the bounds are set under the base class's mangled names, and neither bound exists under the `DeepUncertainty` names |
| Uncertainties.DeepConstructionFailsAsWritten | epyt_flow/uncertainty/uncertainties.py:236-272 | as written, constructing a `DeepUncertainty` raises AttributeError, since the mangled `self.__min_value` was never set |
| Uncertainties.DeepGenerateAsWritten | epyt_flow/uncertainty/uncertainties.py:265-272 | as written, the pattern generation succeeds exactly when the instance has both bounds under the `DeepUncertainty` mangled names, then with the intended buffer; otherwise AttributeError |
| Uncertainties.Uncertainty.Gaussian | epyt_flow/uncertainty/uncertainties.py:87-114 | for a scale that is absent or non-negative (a negative one is `Construct`'s ValueError), mean and scale are the given ones or a construction-time draw; the state is the first buffer, cursor 0 |
| Uncertainties.Uncertainty.Uniform | epyt_flow/uncertainty/uncertainties.py:142-147 | the range is stored and no buffer is made |
| Uncertainties.Uncertainty.Deep | epyt_flow/uncertainty/uncertainties.py:236-272 | intended: the noise bounds are stored and the first pattern is generated |
| Uncertainties.Uncertainty.DeepNoParams | epyt_flow/uncertainty/uncertainties.py:177-212 | the deep uniform or deep Gaussian class with its first buffer |
| Uncertainties.Uncertainty.Equals | epyt_flow/uncertainty/uncertainties.py:43-259 | different bounds are unequal, whatever the state |
| Uncertainties.Uncertainty.Draw | epyt_flow/uncertainty/uncertainties.py:116-279 | the value drawn and the new state are those of `NextNoise` |
| Uncertainties.Uncertainty.Apply | epyt_flow/uncertainty/uncertainties.py:116-281 | intended (uncertainties.py:51-54 corrected): the result and the new state are those of `ApplyStep` |
| Uncertainties.Uncertainty.ApplyBatch | epyt_flow/uncertainty/uncertainties.py:61-64 | intended (uncertainties.py:51-54 corrected): the array is rewritten in place into `RunBatch` of its old contents, with the matching state |
| Uncertainties.Uncertainty.ApplyRow | epyt_flow/uncertainty/uncertainties.py:61-123 | intended (uncertainties.py:51-54 corrected): one noise value is drawn per row; the row shifted by it is clipped as `ClipRow` says |
| Uncertainties.Uncertainty.ApplyBatchRows | epyt_flow/uncertainty/uncertainties.py:61-64 | intended (uncertainties.py:51-54 corrected): rows are processed in order, the result and state being `RunRows` |
| Uncertainties.Uncertainty.Copy | epyt_flow/uncertainty/sensor_noise.py:28-29 | a deep copy has the same bounds, parameters, source and state |
| Uncertainties.Shift | epyt_flow/uncertainty/uncertainties.py:117 | every entry of the row plus the same noise value |
| Uncertainties.RunRows | epyt_flow/uncertainty/uncertainties.py:61-64 | a valid state is kept, and a success has one row per row |
| Uncertainties.RunRowsStopsAtError | epyt_flow/uncertainty/uncertainties.py:61-64 | once a prefix fails, the whole batch fails the same way in the same state |
| Uncertainties.RunRowsUnbounded | epyt_flow/uncertainty/uncertainties.py:61-64 | without bounds a two-dimensional batch never fails and keeps every row's length; row t is row t of the input shifted by the noise value drawn after t earlier draws, and the batch leaves the state after one draw per row |
| Uncertainties.StateAfter | epyt_flow/uncertainty/uncertainties.py:116-279 | any number of successive draws leaves a valid noise state |
| Leakages.CheckProfile | epyt_flow/simulation/events/leakages.py:124-132 | a profile is accepted exactly when it is a numpy array of at most one dimension; TypeError for any other object, ValueError for more dimensions; an accepted profile is kept unchanged |
| Leakages.NewLeakage | epyt_flow/simulation/events/leakages.py:36-74 | ValueError unless exactly one of link and node is given; then TypeError for a non-string link, TypeError for a non-float diameter, ValueError for a non-positive one, the profile check, TypeError for a non-string node, in that order; success exactly when all pass, with the site, diameter and profile as given |
| Leakages.NodeTypeCheckedLast | epyt_flow/simulation/events/leakages.py:36-63 | a node id of the wrong type is reported only after the diameter and profile checks have passed |
| Leakages.EmitterCoefficient | epyt_flow/simulation/events/leakages.py:172-200 | a positive leak area gives a positive emitter coefficient |
| Leakages.MulPositive | epyt_flow/simulation/events/leakages.py:200 | the product of two positive factors is positive |
| Leakages.WiderLeakLosesMore | epyt_flow/simulation/events/leakages.py:152-200 | a wider leak has a leak area and an emitter coefficient at least as large |
| Leakages.LeakAreaNonNegative | epyt_flow/simulation/events/leakages.py:152-170 | a leak of no diameter has no area, and a leak of any non-negative diameter has at least that, so the area is never negative |
| Leakages.EmitterAt | epyt_flow/simulation/events/leakages.py:237-243 | without the simulator handle `init` stores, an AttributeError before anything else; otherwise the emitter value succeeds exactly when the coefficient is set and the cursor lies inside a one-dimensional profile, and is then the coefficient times that entry; a cursor past the end is an IndexError |
| Leakages.Leakage.constructor | epyt_flow/simulation/events/leakages.py:66-74 | the leak keeps its configuration, its profile as given, the cursor at 0, no simulator handle and no emitter coefficient yet |
| Leakages.Leakage.SetProfile | epyt_flow/simulation/events/leakages.py:124-132 | the setter succeeds exactly when the profile check does; a rejected profile leaves the old one in place; cursor and coefficient are untouched |
| Leakages.Leakage.Init | epyt_flow/simulation/events/leakages.py:202-229 | ValueError exactly for an unknown link, an already split link or an unknown node, with the coefficient unchanged; otherwise the coefficient is the emitter coefficient of the leak area of the diameter; the handle is stored in every case, before the checks |
| Leakages.Leakage.InitAbrupt | epyt_flow/simulation/events/leakages.py:263-277 | the base `init` first (its ValueError leaves profile and coefficient as they were); then the profile becomes the all-ones profile of the leaky time steps, or the ValueError of a negative length leaves it unchanged; the handle is stored and the cursor untouched |
| Leakages.Leakage.InitIncipient | epyt_flow/simulation/events/leakages.py:328-347 | the base `init` first (its ValueError leaves profile and coefficient as they were); then the profile becomes the ramped incipient profile, or its ValueError or IndexError leaves the profile unchanged; the handle is stored and the cursor untouched |
| Leakages.Leakage.Reset | epyt_flow/simulation/events/leakages.py:231-232 | the cursor goes back to 0 and nothing else changes |
| Leakages.Leakage.Apply | epyt_flow/simulation/events/leakages.py:237-243 | the result is the emitter value at the old cursor, an AttributeError before `init`; the cursor moves on by one exactly when that succeeds |
| Leakages.LeakyTimePoints | epyt_flow/simulation/events/leakages.py:270-273 | the number of profile entries is the ceiling of the leak window over the time step: n steps cover the window and n - 1 do not |
| Leakages.Ones | epyt_flow/simulation/events/leakages.py:275 | a profile of n ones for a non-negative n, ValueError for a negative one |
| Leakages.AbruptProfile | epyt_flow/simulation/events/leakages.py:263-277 | the abrupt profile is all ones, one entry per leaky time step; ValueError when that count is negative |
| Leakages.AbruptProfileCoversWindow | epyt_flow/simulation/events/leakages.py:263-277 | a well-ordered window always gets a profile, and its entries times the time step cover the window |
| Leakages.CheckPeak | epyt_flow/simulation/events/leakages.py:294-300 | the incipient constructor succeeds exactly when the start time is given, the peak is not before it, the end time is given and, when not None, the peak is not after it; a missing keyword is a KeyError, a peak outside the window a ValueError |
| Leakages.TruncDiv | epyt_flow/simulation/events/leakages.py:342 | Python's int of a true division by a positive divisor: the floor for a non-negative dividend, never positive for a negative one |
| Leakages.IncipientProfile | epyt_flow/simulation/events/leakages.py:328-347 | the incipient profile has one entry per leaky time step; ValueError when that count is negative |
| Leakages.RampIsLinear | epyt_flow/simulation/events/leakages.py:343-344 | ramp entry t is (t + 1)/coeff, so the last ramp entry is exactly 1 |
| Leakages.RampBounds | epyt_flow/simulation/events/leakages.py:343-344 | ramp entries lie in (0, 1] and never decrease |
| Leakages.Ramp | epyt_flow/simulation/events/leakages.py:343-344 | every ramp entry is positive, and the entries inside the ramp are at most 1 |
| Leakages.IncipientProfileShape | epyt_flow/simulation/events/leakages.py:328-347 | every entry of an incipient profile lies in (0, 1], the profile never decreases, entry t is the ramp value `Ramp(coeff, t)` before the peak step coeff, and from the end of the ramp on every entry is 1 |
| Leakages.IncipientProfileFits | epyt_flow/simulation/events/leakages.py:294-347 | a leak with an end time and a peak inside its window always gets an incipient profile |
| Leakages.OpenEndedLatePeakFails | epyt_flow/simulation/events/leakages.py:328-347 | for every open-ended leak whose peak lies a whole time step beyond the steps covering the simulation, the ramp overruns the profile: IndexError |
| Leakages.BuildIncipientProfile | epyt_flow/simulation/events/leakages.py:328-347 | the array filled in place, ones then the ramp, is exactly the incipient profile, and fails exactly when and as it does |
| LeakLabels.TimeToIdx | epyt_flow/data/benchmarks/leakdb.py:71-75 | the step of a time: the floor of t over the step, or its ceiling when rounding up, each pinned by the bracket it satisfies |
| LeakLabels.TimeToIdxOfMultiple | epyt_flow/data/benchmarks/leakdb.py:71-75 | a time that is a whole number of steps converts to that number, whichever way it rounds |
| LeakLabels.TimeToIdxBrackets | epyt_flow/data/benchmarks/battledim.py:81-82 | for start <= end, the floored start step is at most the ceiled end step, and the steps from one to the other cover [start, end] |
| LeakLabels.SliceBound | epyt_flow/data/benchmarks/leakdb.py:103 | a slice bound lands inside the array; a non-negative bound is cut at the length |
| LeakLabels.InSliceOfWindow | epyt_flow/data/benchmarks/leakdb.py:103 | for non-negative bounds, a position is in the slice exactly when it lies in the half-open window |
| LeakLabels.FillOnes | epyt_flow/data/benchmarks/leakdb.py:103 | the slice assignment keeps the length |
| LeakLabels.LabelsOf | epyt_flow/data/benchmarks/leakdb.py:85-103 | one label per row, and as many row indices as column indices |
| LeakLabels.LabelsMarkWindows | epyt_flow/data/benchmarks/battledim.py:80-83 | every label is 0 or 1, and 1 exactly when the step lies in the slice of some leak |
| LeakLabels.LocationsOfWindows | epyt_flow/data/benchmarks/battledim.py:80-88 | there is one location pair per step of each leak, and each pair is a step of some leak with that leak's column |
| LeakLabels.LocationsOfLastLeak | epyt_flow/data/benchmarks/battledim.py:84-88 | a leak's pairs follow those of the leaks before it, one per step of its window, all with its column |
| LeakLabels.AddWindow | epyt_flow/data/benchmarks/leakdb.py:92-103 | labelling one leak in place sets its slice of the array to ones and appends one (step, column) pair per step of its window |
| LeakDb.IntToString | epyt_flow/data/benchmarks/leakdb.py:90 | str of an int is never empty and for a non-negative int is its decimal digits |
| LeakDb.ScenarioLeaks | epyt_flow/data/benchmarks/leakdb.py:89-92 | a scenario has the leaks listed under its id as text, and none when it is not listed |
| LeakDb.RecordWindow | epyt_flow/data/benchmarks/leakdb.py:92-97 | a leak's window succeeds exactly when its node is among the network's nodes (ValueError otherwise) and then has its start and end step and the index of its node |
| LeakDb.RecordWindows | epyt_flow/data/benchmarks/leakdb.py:92-97 | one window result per leak, in order |
| LeakDb.ScenarioLabels | epyt_flow/data/benchmarks/leakdb.py:84-103 | the labels built in place are the labels of the scenario's leak windows, or the error of its first leak at an unknown node |
| LeakDb.UnlistedScenarioIsLeakFree | epyt_flow/data/benchmarks/leakdb.py:84-103 | a scenario not in the table has all-zero labels and no location pairs |
| LeakDb.LabelsMarkLeaks | epyt_flow/data/benchmarks/leakdb.py:84-103 | a step is labelled 1 exactly when it lies in the window of one of the scenario's leaks, and 0 otherwise |
| LeakDb.LocationsOfLeaks | epyt_flow/data/benchmarks/leakdb.py:97-101 | every location pair is a step of one of the scenario's leaks together with the index of that leak's node |
| LeakDb.ReturnedAsWritten | epyt_flow/data/benchmarks/leakdb.py:109-119 | as written the per-scenario result carries labels exactly when (X, y) is asked for and locations exactly when they are asked for, and fails when locations are asked for without (X, y) |
| LeakDb.ReturnedIntended | epyt_flow/data/benchmarks/leakdb.py:109-119 | the intended per-scenario result carries labels and locations exactly as asked |
| LeakDb.ReturnedDiffersOnlyForDataWithLocations | epyt_flow/data/benchmarks/leakdb.py:116-117 | the written choice raises TypeError for data with locations and agrees with the intended one in every other case |
| LeakDb.LeakOfRecord | epyt_flow/data/benchmarks/leakdb.py:310-324 | a record gives an incipient leak exactly for type "incipient", an abrupt one otherwise, at its node, with times scaled by the 1800-second step; it succeeds exactly when the diameter is a positive float and an incipient peak lies in the window |
| LeakDb.RecordLeaks | epyt_flow/data/benchmarks/leakdb.py:310-324 | one leak outcome per record, in order, each the leak of that record |
| LeakDb.ScenarioLeakSpecs | epyt_flow/data/benchmarks/leakdb.py:307-326 | a scenario that is not listed has no leaks; otherwise the leaks succeed exactly when every record's leak does, one leak per record in order, and a failure is the error of the first rejected record |
| LeakDb.ScaledLeakMatchesLabelWindow | epyt_flow/data/benchmarks/leakdb.py:93-95 | the label window of a record is the step window of the leak configured from it |
| LeakDb.UniformAttribute | epyt_flow/uncertainty/uncertainties.py:142-154 | a uniform uncertainty has attributes min and max holding its bounds, and AttributeError for any other name |
| LeakDb.MyUniformApplyAsWritten | epyt_flow/data/benchmarks/leakdb.py:279-283 | as written the noise reads the attribute named low and fails with that attribute's error |
| LeakDb.MyUniformApplyAlwaysFails | epyt_flow/data/benchmarks/leakdb.py:279-283 | as written every call raises AttributeError, whatever the bounds and the data |
| LeakDb.MyUniformApply | epyt_flow/data/benchmarks/leakdb.py:279-283 | the intended noise always succeeds, with z a bounded fraction of the data and the result drawn from [data - z, data + z] |
| LeakDb.MyUniformNoise | epyt_flow/data/benchmarks/leakdb.py:284-290 | the noisy value is centred on the data (unit draw 0.5 gives the data back); zero data stays zero, and a zero noise range leaves the data unchanged |
| LeakDb.MyUniformApplyInRange | epyt_flow/data/benchmarks/leakdb.py:279-290 | with 0 <= low <= high and non-negative data, the intended noise lies within high times the data of the data |
| BattLeDim.Split | epyt_flow/data/benchmarks/battledim.py:39 | splitting always gives at least one piece |
| BattLeDim.SplitPiecesLackSeparator | epyt_flow/data/benchmarks/battledim.py:39 | no piece of a split contains the separator |
| BattLeDim.SplitJoin | epyt_flow/data/benchmarks/battledim.py:39 | joining the pieces of a split with the separator gives the text back |
| BattLeDim.JoinExtendsLast | epyt_flow/data/benchmarks/battledim.py:39 | a character appended to the last piece is appended to the joined text |
| BattLeDim.Join | epyt_flow/data/benchmarks/battledim.py:39 | the joined text starts with the first piece, ends with the last, and contains the separator once there are two pieces |
| BattLeDim.Lead | epyt_flow/data/benchmarks/battledim.py:39 | the leading run of whitespace: all of it is whitespace and the character after it is not |
| BattLeDim.Trail | epyt_flow/data/benchmarks/battledim.py:39 | the trailing run of whitespace: all of it is whitespace and the character before it is not |
| BattLeDim.Strip | epyt_flow/data/benchmarks/battledim.py:39 | the stripped text is the slice after the leading whitespace, only whitespace follows it, and it neither starts nor ends with whitespace |
| BattLeDim.StripIdempotent | epyt_flow/data/benchmarks/battledim.py:39 | stripping twice gives the same as stripping once |
| BattLeDim.Each | epyt_flow/data/benchmarks/battledim.py:39 | the comprehension has one entry per piece |
| BattLeDim.EachEntries | epyt_flow/data/benchmarks/battledim.py:39 | entry i of the comprehension is the function applied to piece i |
| BattLeDim.Fields | epyt_flow/data/benchmarks/battledim.py:39 | a line has one field per comma-separated piece, at least one |
| BattLeDim.FieldsAreStripped | epyt_flow/data/benchmarks/battledim.py:39 | field i is piece i of the line, stripped |
| BattLeDim.ParseLine | epyt_flow/data/benchmarks/battledim.py:38-59 | a parsed line has six fields whose times and diameter parse; an incipient or abrupt line gives a leak at the pipe of field 0 with the parsed diameter, window and (for incipient only) peak; any other type gives the line itself |
| BattLeDim.IncipientLineChecks | epyt_flow/data/benchmarks/battledim.py:51-54 | a well-formed incipient line is accepted exactly when its peak lies in its window and its diameter is positive, and is a ValueError otherwise |
| BattLeDim.ParsedLines | epyt_flow/data/benchmarks/battledim.py:37-59 | one outcome per line, each the parse of that line |
| BattLeDim.ParseAll | epyt_flow/data/benchmarks/battledim.py:37-61 | parsing succeeds exactly when every line parses, with one entry per line in order; a failure is the error of the first line that raises |
| BattLeDim.ParseNextLine | epyt_flow/data/benchmarks/battledim.py:38-59 | one loop iteration extends the parsed prefix by the line's entry, or its error is the error of the whole configuration |
| BattLeDim.ParseLeakConfig | epyt_flow/data/benchmarks/battledim.py:35-61 | the loop returns the entries of all lines in order, or the error of the first line that raises |
| BattLeDim.LeakWindow | epyt_flow/data/benchmarks/battledim.py:80-85 | a raw line is an AttributeError; a leak's window is the floor of its start step and the ceiling of its end step with the index of its pipe among the links, and a pipe that is not listed is a ValueError |
| BattLeDim.EntryWindows | epyt_flow/data/benchmarks/battledim.py:80-85 | one window result per entry, each the window of that entry |
| BattLeDim.Windows | epyt_flow/data/benchmarks/battledim.py:78-86 | labelling succeeds exactly when every entry has a window, one per entry in order; a failure is the error of the first entry that raises |
| BattLeDim.RawLineBreaksLabels | epyt_flow/data/benchmarks/battledim.py:55-59 | a configuration line of an unknown leak type makes the labelling fail with AttributeError |
| BattLeDim.LabelEntries | epyt_flow/data/benchmarks/battledim.py:78-88 | the loop over the entries yields the labels of their windows, or the error of the first entry without a window |
| BattLeDim.CreateLabels | epyt_flow/data/benchmarks/battledim.py:64-94 | the labels are those of the windows of the parsed leaks, or the error of the first line or leak that raises |
| Common.Collect | epyt_flow/data/benchmarks/battledim.py:36-61 | a loop that collects one value per step succeeds exactly when every step does, with the steps' values in order |
| Common.CollectFirstError | epyt_flow/data/benchmarks/battledim.py:36-61 | a failed loop reports the error of its first failing step, all earlier steps having succeeded |
| Common.CollectStops | epyt_flow/data/benchmarks/battledim.py:36-61 | once a prefix of the steps fails, the whole loop fails with that error |
| Common.CollectStep | epyt_flow/data/benchmarks/battledim.py:36-61 | one more successful step extends the collected prefix; a failing step is the error of the whole loop |
| Common.FloorDiv | epyt_flow/data/benchmarks/leakdb.py:73 | math.floor of a true division by a positive divisor, pinned by q·b <= a < q·b + b |
| Common.CeilDiv | epyt_flow/data/benchmarks/leakdb.py:75 | math.ceil of a true division by a positive divisor, pinned by q·b - b < a <= q·b |
| Common.IndexOf | epyt_flow/data/benchmarks/leakdb.py:97 | list.index finds exactly the elements present, at their first occurrence; ValueError otherwise |
| Common.NatToString | epyt_flow/data/benchmarks/leakdb.py:90 | the decimal rendering of a natural is a non-empty string of digits |

## Left out

- Floating point: readings, noise and profiles are `real`, so float rounding, NaN and infinity are not modelled; a numpy division by zero that gives NaN is `None` in `Metrics`.
- numpy broadcasting and shape errors beyond those the code checks itself: matrices are `seq<seq<real>>` whose rectangular shape is an invariant.
- Aliasing: a sensor configuration is held by value inside `ScadaData`. A caller that mutates the configuration object it passed in is not modelled. For the same reason the getters that return copies need no model.
- `SensorConfigs`: the TypeErrors for sensor-list arguments that are not lists of str are not modelled, because the lists are typed `seq<string>`.
- `ScadaDatas.ScadaData`: `get_attributes`, `__str__` and the plain getters of the sensor lists are not modelled; they only return fields.
- `ScadaDatas.ScadaData.Join`: it keeps the cache as the code does, so a cached readings matrix keeps the old row count; the model states this and does not correct it.
- `ScadaDatas.ApplyFault`: numpy raises IndexError for a column outside an array even when it has no rows; the model checks the column against each row, so a matrix without rows has every column.
- `ScadaDataExports.ScadaDataExport.Export`: the file writing (`np.savez`, `savemat`, the xlsx writer) is left out; the model keeps the type guard, the readings and the column description. Each exporter calls `get_data` twice, once itself and once inside `create_column_desc`; the model makes both calls (`Export` calls `GetData`, then `CreateColumnDesc`, which calls it again).
- `ScadaDataExports.ScadaDataExport.CreateColumnDesc`: a column description holds the sensor kind itself rather than its key string, and the result is a sequence rather than an object array; the kinds are visited in block order, the insertion order of the id-to-index dictionary.
- `BattLeDim.ParseLeakConfig`: `str.splitlines` is not modelled; the configuration is given as its lines. `BattLeDim.Strip` removes ASCII whitespace only.
- `BattLeDim.Parsers`: `datetime.strptime` and `float` of a text are parameters of the model, since only their results matter here.
- `scipy.sparse.bsr_array`: the label builders return the (row, column) pairs that would be passed to it, not the sparse matrix. The ValueError `bsr_array` raises for a row index at or beyond `n_time_steps` is therefore not reached: a window that ends past the last time step still yields its pairs.
- `load_leakdb`: the scenario configuration it returns (network file, general parameters, model uncertainty) and the simulator calls are not modelled; only the leaks built from the table and `MyUniformUncertainty.apply` are.
- `load_leakdb_data`: loading each scenario's SCADA data from a file is replaced by the number of rows and the node list of that data.
- The LeakDB leak tables and the BattLeDIM configuration text are constants of the source that are not part of this model; both are parameters.
- `epyt_flow/simulation/events/event.py` (the base event with its start and end time) is not part of this model; an `Event` datatype holds the two times.
- `Metrics`: the true positive rate, true negative rate and F1-score are modelled on one-dimensional label arrays only; `f1_micro_score` and `roc_auc_score` forward to scikit-learn and are left out.
- `ControlGyms.Registry.Make`: an environment instance is a value holding its class and keyword arguments; running the environment is not modelled.
- `utils.py`: the download and zip helpers are file and network I/O and are left out.
- The `apply` and `exit` hooks of leakages and actuator events call EPANET; the model returns the value that would be set instead.
- `SensorNoises.SensorNoise`: `get_attributes` (a dictionary holding the wrapped uncertainty) and `__str__` are not modelled.
- Leakages: `get_attributes`, `__str__`, `__eq__` and the `peak_time` getter of the leak classes are not modelled. `__eq__` puts the numpy comparison of the two profiles inside a chain of `and`, which raises ValueError once that comparison is reached with profiles of more than one entry; the model has no such comparison. `get_attributes` reports the EPANET index of the leaky node under `node_id` (None before `init` and for leaks at a link), and the model does not keep that index.
- `Uncertainties.Construct`: it requires every keyword other than `min_value`, `max_value`, `mean` and `scale` to carry a number. The source also accepts None for `low`, `high`, `min_noise_value` and `max_noise_value`, stores it, and fails only when a draw uses it. Those calls are not modelled, because the class parameters are typed `real`.
- `Leakages.LeakArea`: the model proves the area non-negative and growing with the diameter. It does not prove the area strictly positive for a positive diameter.
- Randomness: every `np.random` draw and the deep-pattern helpers are values of a `Randomness` parameter, constrained only by the ranges the source promises.

## Findings

| source | as written | input that shows it | evidently intended | confidence | as-written member | corrected member |
|---|---|---|---|---|---|---|
| epyt_flow/uncertainty/uncertainties.py:265-272 | `DeepUncertainty` passes `self.__min_value` and `self.__max_value`, which name-mangle to attributes the class never sets | constructing any `DeepUncertainty`, which generates its first pattern in the constructor | pass the noise bounds `self.__min_noise_value` and `self.__max_noise_value` that the constructor stores and that nothing else reads | not executed | Uncertainties.DeepConstructionFailsAsWritten | Uncertainties.Uncertainty.Deep |
| epyt_flow/uncertainty/uncertainties.py:156-157 | `UniformUncertainty.get_attributes` reports the lower bound as `min` and the upper bound as `low` | `UniformUncertainty(**u.get_attributes())` for `low=0, high=1` | report `low` and `high`, which the constructor accepts | not executed | Uncertainties.UniformAttributesDoNotRoundTrip | Uncertainties.UniformAttributesIntendedRoundTrip |
| epyt_flow/data/benchmarks/leakdb.py:279-283 | `MyUniformUncertainty.apply` reads `self.low` and `self.high`, which `UniformUncertainty` does not define | any call, for example with `low=0, high=0.25` and data 1.0 | read the `min` and `max` properties | not executed | LeakDb.MyUniformApplyAlwaysFails | LeakDb.MyUniformApply |
| epyt_flow/data/benchmarks/leakdb.py:116-117 | `r.append(data, y_leak_locations)` passes two arguments to `list.append` | `return_X_y=False, return_leak_locations=True` | append the pair `(data, y_leak_locations)` | not executed | LeakDb.ReturnedDiffersOnlyForDataWithLocations | LeakDb.ReturnedIntended |
| epyt_flow/simulation/scada/scada_data.py:256 | `__eq__` compares its own demand data with itself | two objects that differ only in their demand readings | compare with `other.demand_data_raw` | not executed | ScadaDatas.DemandIgnoredAsWritten | ScadaDatas.SnapshotEqualsMeansSame |
| epyt_flow/simulation/scada/scada_data.py:684 | `get_data_tanks_water_level` checks the requested ids against the flow sensors | a tank level sensor `t1` that is not a flow sensor | check against the tank level sensors | not executed | ScadaDatas.TankSelectorAsWritten | ScadaDatas.SelectorPicksRequestedSensors |
| epyt_flow/uncertainty/uncertainties.py:49-55 | `clip` applies `np.min` with `min_value` and `np.max` with `max_value`, so each bound works the wrong way round | `min_value=0, max_value=1` and the value 0.5, which clips to 1 | clamp from below at `min_value` and from above at `max_value` | not executed | Uncertainties.ClipCollapsesOrdinaryRange | Uncertainties.ClipInRange |
| epyt_flow/simulation/events/actuator_events.py:109 | `PumpSpeedEvent` passes `self` positionally as the pump id | `PumpSpeedEvent(pump_speed=1.0, pump_id="p1", …)` | forward `**kwds` only | not executed | ActuatorEvents.PumpSpeedEventLosesPumpId | ActuatorEvents.NewPumpSpeedEvent |

=== FILE: actuator_events.dfy ===
/** Actuator events: while active they set a pump's status, a pump's speed or a valve's
    status in the simulator. Only their constructor checks and getters are modelled; the
    simulator calls of `apply` are not part of this model. */
module ActuatorEvents {
  import opened Common

  /** EPANET's pump and valve status codes. */
  const PumpClosed := 2
  const PumpOpen := 3
  const ValveClosed := 0
  const ValveOpen := 1

  /** A pump status event; `pumpState` is the argument exactly as passed. */
  datatype PumpStateEvent = PumpStateEvent(event: Event, pumpId: Value, pumpState: Value)

  /** `PumpStateEvent(pump_state, pump_id=…, …)`: TypeError for a state that is not an int
      (a bool counts as one), ValueError for a state other than closed (2) or open (3),
      then the pump id keyword of the base class, whose absence (None here) is a
      TypeError. The pump id itself is not checked. */
  function NewPumpStateEvent(event: Event, pumpId: Option<Value>, pumpState: Value)
    : (r: Result<PumpStateEvent>)
    ensures r.Ok? <==> IsInt(pumpState) && IntOf(pumpState) in {PumpClosed, PumpOpen} && pumpId.Some?
    ensures !IsInt(pumpState) ==> r == Err(TypeError)
    ensures IsInt(pumpState) && IntOf(pumpState) !in {PumpClosed, PumpOpen} ==> r == Err(ValueError)
    ensures r.Ok? ==> r.value.event == event && r.value.pumpId == pumpId.value &&
                      r.value.pumpState == pumpState
  {
    if !IsInt(pumpState) then Err(TypeError)
    else if !(2 <= IntOf(pumpState) <= 3) then Err(ValueError)
    else if pumpId.None? then Err(TypeError)
    else Ok(PumpStateEvent(event, pumpId.value, pumpState))
  }

  /** What the pump id of a pump speed event is bound to: a given id, or the event object
      itself. */
  datatype PumpRef = PumpName(id: Value) | TheEventItself

  /** A pump speed event. */
  datatype PumpSpeedEvent = PumpSpeedEvent(event: Event, pumpId: PumpRef, pumpSpeed: real)

  /** The speed check: TypeError for a speed that is not a float, ValueError for a speed
      that is not positive. */
  function CheckSpeed(pumpSpeed: Value): (r: Result<real>)
    ensures r.Ok? <==> pumpSpeed.Float? && pumpSpeed.f > 0.0
    ensures !pumpSpeed.Float? ==> r == Err(TypeError)
    ensures pumpSpeed.Float? && pumpSpeed.f <= 0.0 ==> r == Err(ValueError)
    ensures r.Ok? ==> r.value == pumpSpeed.f
  {
    if !pumpSpeed.Float? then Err(TypeError)
    else if pumpSpeed.f <= 0.0 then Err(ValueError)
    else Ok(pumpSpeed.f)
  }

  /** `PumpSpeedEvent(pump_speed, pump_id=…, …)` as written: after the speed check the base
      class is called with the event object itself as its positional pump id, so a pump
      id keyword is a second value for the same parameter (TypeError), and without one
      the pump id is the event. */
  function NewPumpSpeedEventAsWritten(event: Event, pumpId: Option<Value>, pumpSpeed: Value)
    : (r: Result<PumpSpeedEvent>)
    ensures CheckSpeed(pumpSpeed).Err? ==> r == Err(CheckSpeed(pumpSpeed).error)
    ensures r.Ok? <==> CheckSpeed(pumpSpeed).Ok? && pumpId.None?
    ensures r.Err? && CheckSpeed(pumpSpeed).Ok? ==> r.error == TypeError
    ensures r.Ok? ==> r.value == PumpSpeedEvent(event, TheEventItself, pumpSpeed.f)
  {
    match CheckSpeed(pumpSpeed)
    case Err(e) => Err(e)
    case Ok(speed) =>
      if pumpId.Some? then Err(TypeError)
      else Ok(PumpSpeedEvent(event, TheEventItself, speed))
  }

  /** As written, no pump speed event refers to a pump by its id: with a valid speed, the
      pump id keyword is rejected, and without it the id is the event object. */
  lemma PumpSpeedEventLosesPumpId(event: Event, id: Value, speed: real)
    requires speed > 0.0
    ensures NewPumpSpeedEventAsWritten(event, Some(id), Float(speed)) == Err(TypeError)
    ensures NewPumpSpeedEventAsWritten(event, None, Float(speed)).Ok?
    ensures NewPumpSpeedEventAsWritten(event, None, Float(speed)).value.pumpId == TheEventItself
  {
  }

  /** The evidently intended constructor: the speed check, then the given pump id, whose
      absence is a TypeError as for a pump status event. */
  function NewPumpSpeedEvent(event: Event, pumpId: Option<Value>, pumpSpeed: Value)
    : (r: Result<PumpSpeedEvent>)
    ensures CheckSpeed(pumpSpeed).Err? ==> r == Err(CheckSpeed(pumpSpeed).error)
    ensures r.Ok? <==> CheckSpeed(pumpSpeed).Ok? && pumpId.Some?
    ensures r.Ok? ==> r.value == PumpSpeedEvent(event, PumpName(pumpId.value), pumpSpeed.f)
  {
    match CheckSpeed(pumpSpeed)
    case Err(e) => Err(e)
    case Ok(speed) =>
      if pumpId.None? then Err(TypeError)
      else Ok(PumpSpeedEvent(event, PumpName(pumpId.value), speed))
  }

  /** With the intended binding, the getters give back the pump id and the speed passed. */
  lemma PumpSpeedGettersRoundTrip(event: Event, id: Value, speed: real)
    requires speed > 0.0
    ensures NewPumpSpeedEvent(event, Some(id), Float(speed)) ==
      Ok(PumpSpeedEvent(event, PumpName(id), speed))
    ensures NewPumpSpeedEvent(event, Some(id), Float(-speed)) == Err(ValueError)
    ensures NewPumpSpeedEvent(event, Some(id), Int(1)) == Err(TypeError)
  {
  }

  /** A valve status event; `valveState` is the argument exactly as passed. */
  datatype ValveStateEvent = ValveStateEvent(event: Event, valveId: Value, valveState: Value)

  /** `ValveStateEvent(valve_id, valve_state, …)`: TypeError for a state that is not an int
      (a bool counts as one), ValueError for a state other than closed (0) or open (1).
      The valve id is not checked. */
  function NewValveStateEvent(event: Event, valveId: Value, valveState: Value)
    : (r: Result<ValveStateEvent>)
    ensures r.Ok? <==> IsInt(valveState) && IntOf(valveState) in {ValveClosed, ValveOpen}
    ensures !IsInt(valveState) ==> r == Err(TypeError)
    ensures r.Err? && IsInt(valveState) ==> r.error == ValueError
    ensures r.Ok? ==> r.value == ValveStateEvent(event, valveId, valveState)
  {
    if !IsInt(valveState) then Err(TypeError)
    else if !(0 <= IntOf(valveState) <= 1) then Err(ValueError)
    else Ok(ValveStateEvent(event, valveId, valveState))
  }

  /** Python booleans are valid valve states and invalid pump states; floats are neither. */
  lemma BooleanStates(event: Event, id: Value, b: bool)
    ensures NewValveStateEvent(event, id, Bool(b)).Ok?
    ensures NewPumpStateEvent(event, Some(id), Bool(b)) == Err(ValueError)
    ensures NewPumpStateEvent(event, Some(id), Float(2.0)) == Err(TypeError)
    ensures NewValveStateEvent(event, id, Float(1.0)) == Err(TypeError)
  {
  }
}

=== FILE: battledim.dfy ===
/** The BattLeDIM benchmark's leak labels: the leak configuration text, one leak per line
    with comma-separated fields, is parsed into leaks, and the leaks into the 0/1 label
    vector over 5-minute time steps and the (time step, pipe) pairs of the leak location
    matrix. Date parsing and number parsing are given as functions; the text constants of
    the benchmark (`battledim_data.py`) are not part of this model. */
module BattLeDim {
  import opened Common
  import opened Leakages
  import opened LeakLabels

  /** The time step of the benchmark's labels, in seconds. */
  const TimeStep := 300

  // ---------------------------------------------------------------------------------------
  // Fields of a line

  /** `str.split(sep)`: the pieces between the separators, from left to right. */
  function Split(s: string, sep: char): (r: seq<string>)
    ensures |r| >= 1
    decreases |s|
  {
    if s == [] then [[]]
    else
      var init := Split(s[..|s| - 1], sep);
      var c := s[|s| - 1];
      if c == sep then init + [[]]
      else init[..|init| - 1] + [init[|init| - 1] + [c]]
  }

  /** No piece contains the separator. */
  lemma {:induction false} SplitPiecesLackSeparator(s: string, sep: char)
    ensures forall i :: 0 <= i < |Split(s, sep)| ==> sep !in Split(s, sep)[i]
    decreases |s|
  {
    if s != [] {
      var init := Split(s[..|s| - 1], sep);
      SplitPiecesLackSeparator(s[..|s| - 1], sep);
      var c := s[|s| - 1];
      if c != sep {
        var n := |init|;
        assert Split(s, sep) == init[..n - 1] + [init[n - 1] + [c]];
        assert sep !in init[n - 1] + [c];
      }
    }
  }

  /** `sep.join(pieces)`: the first piece opens the text, the last closes it, and the
      separator appears as soon as there are two pieces. */
  function Join(pieces: seq<string>, sep: char): (r: string)
    requires |pieces| >= 1
    ensures |r| >= |pieces| - 1
    ensures pieces[0] <= r
    ensures |pieces[|pieces| - 1]| <= |r| && r[|r| - |pieces[|pieces| - 1]|..] == pieces[|pieces| - 1]
    ensures |pieces| > 1 ==> sep in r
  {
    if |pieces| == 1 then pieces[0]
    else Join(pieces[..|pieces| - 1], sep) + [sep] + pieces[|pieces| - 1]
  }

  /** Joining the pieces gives the text back. */
  lemma {:induction false} SplitJoin(s: string, sep: char)
    ensures Join(Split(s, sep), sep) == s
    decreases |s|
  {
    if s != [] {
      SplitJoin(s[..|s| - 1], sep);
      SplitJoinStep(s, sep);
    }
  }

  /** One step of `SplitJoin`: the last character either opens a new piece or extends
      the last one. */
  lemma SplitJoinStep(s: string, sep: char)
    requires s != [] && Join(Split(s[..|s| - 1], sep), sep) == s[..|s| - 1]
    ensures Join(Split(s, sep), sep) == s
  {
    var t, c := s[..|s| - 1], s[|s| - 1];
    var init := Split(t, sep);
    DropLastAppend(s);
    if c == sep {
      assert Split(s, sep) == init + [[]];
      JoinAppendsEmpty(init, sep);
      assert Join(Split(s, sep), sep) == t + [sep];
    } else {
      var n := |init|;
      assert Split(s, sep) == init[..n - 1] + [init[n - 1] + [c]];
      JoinExtendsLast(init, c, sep);
      assert Join(Split(s, sep), sep) == t + [c];
    }
  }

  /** A non-empty text is its prefix followed by its last character. */
  lemma DropLastAppend(s: string)
    requires s != []
    ensures s == s[..|s| - 1] + [s[|s| - 1]]
  {
  }

  /** Appending an empty piece appends the separator to the joined text. */
  lemma JoinAppendsEmpty(pieces: seq<string>, sep: char)
    requires |pieces| >= 1
    ensures Join(pieces + [[]], sep) == Join(pieces, sep) + [sep]
  {
    var r := pieces + [[]];
    assert r[..|r| - 1] == pieces;
  }

  /** Appending a character to the last piece appends it to the joined text. */
  lemma JoinExtendsLast(pieces: seq<string>, c: char, sep: char)
    requires |pieces| >= 1
    ensures var n := |pieces|;
      Join(pieces[..n - 1] + [pieces[n - 1] + [c]], sep) == Join(pieces, sep) + [c]
  {
    var n := |pieces|;
    var r := pieces[..n - 1] + [pieces[n - 1] + [c]];
    if n > 1 {
      assert r[..n - 1] == pieces[..n - 1];
      calc {
        Join(r, sep);
        Join(pieces[..n - 1], sep) + [sep] + (pieces[n - 1] + [c]);
        (Join(pieces[..n - 1], sep) + [sep] + pieces[n - 1]) + [c];
      }
    }
  }

  /** The characters `str.strip()` removes (the ASCII ones). */
  predicate IsSpace(c: char)
  {
    // tab, line feed, vertical tab, form feed, carriage return; the four separators
    // 0x1C-0x1F and the space
    '\t' <= c <= '\r' || '\U{1C}' <= c <= ' '
  }

  /** The number of leading whitespace characters. */
  function Lead(s: string): (n: nat)
    ensures n <= |s|
    ensures forall k :: 0 <= k < n ==> IsSpace(s[k])
    ensures n < |s| ==> !IsSpace(s[n])
  {
    if s == [] || !IsSpace(s[0]) then 0 else 1 + Lead(s[1..])
  }

  /** The number of trailing whitespace characters. */
  function Trail(s: string): (n: nat)
    ensures n <= |s|
    ensures forall k :: |s| - n <= k < |s| ==> IsSpace(s[k])
    ensures n < |s| ==> !IsSpace(s[|s| - n - 1])
  {
    if s == [] || !IsSpace(s[|s| - 1]) then 0 else 1 + Trail(s[..|s| - 1])
  }

  /** `str.strip()`: the text without its leading and trailing whitespace. */
  function Strip(s: string): (r: string)
    ensures Lead(s) + |r| <= |s| && r == s[Lead(s)..Lead(s) + |r|]
    ensures forall k :: Lead(s) + |r| <= k < |s| ==> IsSpace(s[k])
    ensures |r| > 0 ==> !IsSpace(r[0]) && !IsSpace(r[|r| - 1])
  {
    var i := Lead(s);
    if i == |s| then []
    else
      var j := |s| - Trail(s);
      assert i < j;
      s[i..j]
  }

  /** Stripping twice strips nothing more. */
  lemma StripIdempotent(s: string)
    ensures Strip(Strip(s)) == Strip(s)
  {
    var r := Strip(s);
    if |r| > 0 {
      assert Lead(r) == 0;
      assert Trail(r) == 0;
    }
  }

  /** `[f(i) for i in pieces]`. */
  function Each(f: string -> string, pieces: seq<string>): (r: seq<string>)
    ensures |r| == |pieces|
    decreases |pieces|
  {
    if pieces == [] then []
    else Each(f, pieces[..|pieces| - 1]) + [f(pieces[|pieces| - 1])]
  }

  /** Each piece is mapped on its own. */
  lemma {:induction false} EachEntries(f: string -> string, pieces: seq<string>)
    ensures forall i :: 0 <= i < |pieces| ==> Each(f, pieces)[i] == f(pieces[i])
    decreases |pieces|
  {
    if pieces != [] {
      var n := |pieces| - 1;
      EachEntries(f, pieces[..n]);
      assert forall i :: 0 <= i < n ==> pieces[..n][i] == pieces[i];
    }
  }

  /** `[i.strip() for i in line.split(",")]`. */
  function Fields(line: string): (r: seq<string>)
    ensures |r| == |Split(line, ',')| >= 1
  {
    Each(Strip, Split(line, ','))
  }

  /** Field i is piece i of the line, stripped. */
  lemma FieldsAreStripped(line: string)
    ensures |Fields(line)| == |Split(line, ',')|
    ensures forall i :: 0 <= i < |Fields(line)| ==> Fields(line)[i] == Strip(Split(line, ',')[i])
  {
    EachEntries(Strip, Split(line, ','));
  }

  // ---------------------------------------------------------------------------------------
  // Parsing the leak configuration

  /** The library calls a line goes through: the seconds from the scenario's start time to
      a "%Y-%m-%d %H:%M" date (None when the text is not such a date), and `float(text)`
      (None when the text is not a number). Both raise ValueError on None. */
  datatype Parsers = Parsers(seconds: string -> Option<int>, number: string -> Option<real>)

  /** An entry of the parsed configuration: a leak, or, for a leak type other than
      "incipient" and "abrupt", the line itself (the loop variable the source appends). */
  datatype Entry = Leak(spec: LeakSpec) | RawLine(line: string)

  /** One line of `__parse_leak_config`: the pipe, start, end, diameter, type and peak
      fields, read in that order (IndexError for a missing field, ValueError for one that
      does not parse), then the leak of the type, with the checks of its constructor. */
  function ParseLine(p: Parsers, line: string): (r: Result<Entry>)
    ensures r.Ok? ==>
      && |Fields(line)| >= 6 && p.seconds(Fields(line)[1]).Some?
      && p.seconds(Fields(line)[2]).Some? && p.number(Fields(line)[3]).Some?
      && p.seconds(Fields(line)[5]).Some?
    ensures r.Ok? && r.value.Leak? ==>
      var f := Fields(line);
      r.value.spec.config.site == AtLink(f[0]) &&
      r.value.spec.config.diameter == p.number(f[3]).value &&
      r.value.spec.event == Event(p.seconds(f[1]).value, Some(p.seconds(f[2]).value)) &&
      (f[4] == "incipient" <==> r.value.spec.peak == Some(p.seconds(f[5]).value)) &&
      (f[4] == "abrupt" <==> r.value.spec.peak == None)
    ensures r.Ok? ==> (r.value.RawLine? <==> Fields(line)[4] != "incipient" && Fields(line)[4] != "abrupt")
    ensures r.Ok? && r.value.RawLine? ==> r.value.line == line
  {
    var f := Fields(line);
    if |f| < 2 then Err(IndexError)
    else if p.seconds(f[1]).None? then Err(ValueError)
    else if |f| < 3 then Err(IndexError)
    else if p.seconds(f[2]).None? then Err(ValueError)
    else if |f| < 4 then Err(IndexError)
    else if p.number(f[3]).None? then Err(ValueError)
    else if |f| < 5 then Err(IndexError)
    else if |f| < 6 then Err(IndexError)
    else if p.seconds(f[5]).None? then Err(ValueError)
    else
      var start, end := p.seconds(f[1]).value, p.seconds(f[2]).value;
      var peak := p.seconds(f[5]).value;
      var event := Event(start, Some(end));
      if f[4] == "incipient" then
        match CheckPeak(peak, Some(start), Some(Some(end)))
        case Err(e) => Err(e)
        case Ok(_) =>
          match NewLeakage(Str(f[0]), Float(p.number(f[3]).value), None, PyNone)
          case Err(e) => Err(e)
          case Ok(c) => Ok(Leak(LeakSpec(c, event, Some(peak))))
      else if f[4] == "abrupt" then
        match NewLeakage(Str(f[0]), Float(p.number(f[3]).value), None, PyNone)
        case Err(e) => Err(e)
        case Ok(c) => Ok(Leak(LeakSpec(c, event, None)))
      else Ok(RawLine(line))
  }

  /** An incipient leak is accepted exactly when its peak lies in its window and its
      diameter is positive. */
  lemma IncipientLineChecks(p: Parsers, line: string)
    requires |Fields(line)| >= 6 && Fields(line)[4] == "incipient"
    requires p.seconds(Fields(line)[1]).Some? && p.seconds(Fields(line)[2]).Some?
    requires p.number(Fields(line)[3]).Some? && p.seconds(Fields(line)[5]).Some?
    ensures ParseLine(p, line).Ok? <==>
      p.seconds(Fields(line)[1]).value <= p.seconds(Fields(line)[5]).value <=
        p.seconds(Fields(line)[2]).value &&
      p.number(Fields(line)[3]).value > 0.0
    ensures ParseLine(p, line).Err? ==> ParseLine(p, line).error == ValueError
  {
  }

  /** The outcome of each line on its own. */
  function ParsedLines(p: Parsers, lines: seq<string>): (rs: seq<Result<Entry>>)
    ensures |rs| == |lines|
    ensures forall i :: 0 <= i < |lines| ==> rs[i] == ParseLine(p, lines[i])
  {
    seq(|lines|, i requires 0 <= i < |lines| => ParseLine(p, lines[i]))
  }

  /** The entries of the lines in order, or the error of the first line that raises. */
  function ParseAll(p: Parsers, lines: seq<string>): (r: Result<seq<Entry>>)
    ensures r.Ok? <==> forall i :: 0 <= i < |lines| ==> ParseLine(p, lines[i]).Ok?
    ensures r.Ok? ==> (|r.value| == |lines| &&
      forall i :: 0 <= i < |lines| ==> ParseLine(p, lines[i]) == Ok(r.value[i]))
    ensures r.Err? ==> FirstFailure(ParsedLines(p, lines), r.error)
  {
    var rs := ParsedLines(p, lines);
    if Collect(rs).Ok? then Collect(rs)
    else
      CollectFirstError(rs);
      Collect(rs)
  }

  /** One iteration of `__parse_leak_config`'s loop: the entry of line i extends the
      entries so far, or its error is the error of the whole configuration. */
  method ParseNextLine(p: Parsers, lines: seq<string>, i: nat, leakages: seq<Entry>)
    returns (leak: Result<Entry>)
    requires i < |lines| && Collect(ParsedLines(p, lines)[..i]) == Ok(leakages)
    ensures leak.Ok? ==> Collect(ParsedLines(p, lines)[..i + 1]) == Ok(leakages + [leak.value])
    ensures leak.Err? ==> ParseAll(p, lines) == Err(leak.error)
  {
    leak := ParseLine(p, lines[i]);
    CollectStep(ParsedLines(p, lines), i, leakages);
  }

  /** `__parse_leak_config(start_time, leaks_config)` over the lines of the configuration
      (`splitlines` is not modelled): the entry of every line appended in order. */
  method ParseLeakConfig(p: Parsers, lines: seq<string>) returns (r: Result<seq<Entry>>)
    ensures r == ParseAll(p, lines)
  {
    var leakages := [];
    for i := 0 to |lines|
      invariant Collect(ParsedLines(p, lines)[..i]) == Ok(leakages)
    {
      var leak := ParseNextLine(p, lines, i, leakages);
      match leak {
        case Err(e) => return Err(e);
        case Ok(entry) => leakages := leakages + [entry];
      }
    }
    assert ParsedLines(p, lines)[..|lines|] == ParsedLines(p, lines);
    r := Ok(leakages);
  }

  // ---------------------------------------------------------------------------------------
  // Labels

  /** The label window of one entry: AttributeError for a raw line (a str has no start
      time), TypeError for a leak without an end time, the floor of the start step and the
      ceiling of the end step, then `links.index(leak.link_id)`, which raises ValueError for
      a link that is not listed and for a leak at a node (whose link id is None). */
  function LeakWindow(e: Entry, links: seq<string>): (r: Result<Window>)
    ensures e.RawLine? ==> r == Err(AttributeError)
    ensures r.Ok? ==>
      && e.Leak? && e.spec.event.end.Some? && e.spec.config.site.AtLink?
      && IndexOf(links, e.spec.config.site.link) == Ok(r.value.col)
      && r.value.start == TimeToIdx(e.spec.event.start, TimeStep, false)
      && r.value.end == TimeToIdx(e.spec.event.end.value, TimeStep, true)
    ensures e.Leak? && e.spec.event.end.Some? && r.Err? ==> r.error == ValueError
  {
    if e.RawLine? then Err(AttributeError)
    else if e.spec.event.end.None? then Err(TypeError)
    else
      var s := TimeToIdx(e.spec.event.start, TimeStep, false);
      var t := TimeToIdx(e.spec.event.end.value, TimeStep, true);
      if e.spec.config.site.AtNode? then Err(ValueError)
      else
        match IndexOf(links, e.spec.config.site.link)
        case Err(x) => Err(x)
        case Ok(col) => Ok(Window(s, t, col))
  }

  /** The window of each entry on its own. */
  function EntryWindows(es: seq<Entry>, links: seq<string>): (rs: seq<Result<Window>>)
    ensures |rs| == |es|
    ensures forall i :: 0 <= i < |es| ==> rs[i] == LeakWindow(es[i], links)
  {
    seq(|es|, i requires 0 <= i < |es| => LeakWindow(es[i], links))
  }

  /** The windows of the entries in order, or the error of the first that raises. */
  function Windows(es: seq<Entry>, links: seq<string>): (r: Result<seq<Window>>)
    ensures r.Ok? <==> forall i :: 0 <= i < |es| ==> LeakWindow(es[i], links).Ok?
    ensures r.Ok? ==> (|r.value| == |es| &&
      forall i :: 0 <= i < |es| ==> LeakWindow(es[i], links) == Ok(r.value[i]))
    ensures r.Err? ==> FirstFailure(EntryWindows(es, links), r.error)
  {
    var rs := EntryWindows(es, links);
    if Collect(rs).Ok? then Collect(rs)
    else
      CollectFirstError(rs);
      Collect(rs)
  }

  /** A configuration line of an unknown leak type makes the labelling fail with
      AttributeError once the entries before it have been labelled. */
  lemma RawLineBreaksLabels(es: seq<Entry>, links: seq<string>, line: string)
    requires Windows(es, links).Ok?
    ensures Windows(es + [RawLine(line)], links) == Err(AttributeError)
  {
    var rs := EntryWindows(es + [RawLine(line)], links);
    assert rs[..|es|] == EntryWindows(es, links);
    CollectStep(rs, |es|, Windows(es, links).value);
  }

  /** The labelling loop of `__create_labels` over parsed entries: for each leak in order
      its slice of the zero vector `y` is set to 1 and one (step, pipe index) pair is
      appended per step of its window; the first entry without a window stops it. */
  method LabelEntries(n: nat, es: seq<Entry>, links: seq<string>) returns (r: Result<Labels>)
    ensures Windows(es, links).Err? ==> r == Err(Windows(es, links).error)
    ensures Windows(es, links).Ok? ==> r == Ok(LabelsOf(n, Windows(es, links).value))
  {
    var y := new real[n](_ => 0.0);
    var rows: seq<int> := [];
    var cols: seq<nat> := [];
    ghost var rs := EntryWindows(es, links);
    ghost var ws: seq<Window> := [];
    for i := 0 to |es|
      invariant Collect(rs[..i]) == Ok(ws)
      invariant LabelsOf(n, ws) == Labels(y[..], rows, cols)
    {
      var w := LeakWindow(es[i], links);
      CollectStep(rs, i, ws);
      match w {
        case Err(e) =>
          assert Windows(es, links) == Collect(rs) == Err(e);
          return Err(e);
        case Ok(win) =>
          rows, cols := AddWindow(y, rows, cols, win);
          assert (ws + [win])[..|ws|] == ws;
          ws := ws + [win];
      }
    }
    assert rs[..|es|] == rs;
    assert Windows(es, links) == Collect(rs) == Ok(ws);
    r := Ok(Labels(y[..], rows, cols));
  }

  /** `__create_labels(n_time_steps, …, links)`: parses the configuration, then labels the
      entries. The `bsr_array` built from the pairs is not modelled; the pairs are
      returned. */
  method CreateLabels(n: nat, p: Parsers, lines: seq<string>, links: seq<string>)
    returns (r: Result<Labels>)
    ensures ParseAll(p, lines).Err? ==> r == Err(ParseAll(p, lines).error)
    ensures ParseAll(p, lines).Ok? && Windows(ParseAll(p, lines).value, links).Err? ==>
      r == Err(Windows(ParseAll(p, lines).value, links).error)
    ensures ParseAll(p, lines).Ok? && Windows(ParseAll(p, lines).value, links).Ok? ==>
      r == Ok(LabelsOf(n, Windows(ParseAll(p, lines).value, links).value))
  {
    var leakages := ParseLeakConfig(p, lines);
    if leakages.Err? {
      return Err(leakages.error);
    }
    r := LabelEntries(n, leakages.value, links);
  }
}

=== FILE: common.dfy ===
/** Shared vocabulary of the model: optional values, Python's exceptions as an error
    result, Python's dynamically typed scalar arguments, and the numeric helpers the
    source gets from Python's `math` module and numpy. */
module Common {

  datatype Option<+T> = None | Some(value: T)

  /** The exceptions the modelled code raises. */
  datatype Error = TypeError | ValueError | KeyError | IndexError | AttributeError

  /** A call that either returns a value or raises one of the exceptions above. */
  datatype Result<+T> = Ok(value: T) | Err(error: Error) {
    predicate IsFailure() { Err? }
    function PropagateFailure<U>(): Result<U>
      requires Err?
    {
      Err(error)
    }
    function Extract(): T
      requires Ok?
    {
      value
    }
  }

  /** The values of some results in order, or the error of the first that failed: what a
      loop collecting one value per step returns when a step may raise. */
  function Collect<T>(rs: seq<Result<T>>): (r: Result<seq<T>>)
    ensures r.Ok? <==> forall i :: 0 <= i < |rs| ==> rs[i].Ok?
    ensures r.Ok? ==> |r.value| == |rs| && forall i :: 0 <= i < |rs| ==> rs[i] == Ok(r.value[i])
    decreases |rs|
  {
    if rs == [] then Ok([])
    else
      match Collect(rs[..|rs| - 1])
      case Err(e) => Err(e)
      case Ok(vs) =>
        match rs[|rs| - 1]
        case Err(e) => Err(e)
        case Ok(v) => Ok(vs + [v])
  }

  /** `e` is the error of the first failing result, every earlier result having succeeded. */
  predicate FirstFailure<T>(rs: seq<Result<T>>, e: Error)
  {
    exists i :: 0 <= i < |rs| && rs[i] == Err(e) && forall k :: 0 <= k < i ==> rs[k].Ok?
  }

  /** A failed collection reports the error of the first failing result. */
  lemma {:induction false} CollectFirstError<T>(rs: seq<Result<T>>)
    requires Collect(rs).Err?
    ensures exists i ::
      && 0 <= i < |rs| && rs[i] == Err(Collect(rs).error)
      && forall k :: 0 <= k < i ==> rs[k].Ok?
    decreases |rs|
  {
    var init := rs[..|rs| - 1];
    if Collect(init).Err? {
      CollectFirstError(init);
      var i :|
        && 0 <= i < |init| && init[i] == Err(Collect(init).error)
        && forall k :: 0 <= k < i ==> init[k].Ok?;
      assert Collect(rs) == Collect(init);
      assert rs[i] == init[i];
      assert forall k :: 0 <= k < i ==> rs[k] == init[k];
    } else {
      assert forall k :: 0 <= k < |rs| - 1 ==> rs[k] == init[k];
      assert rs[|rs| - 1] == Err(Collect(rs).error);
    }
  }

  /** Once a prefix fails, the whole collection fails with the same error. */
  lemma {:induction false} CollectStops<T>(rs: seq<Result<T>>, i: nat)
    requires i <= |rs| && Collect(rs[..i]).Err?
    ensures Collect(rs) == Collect(rs[..i])
    decreases |rs| - i
  {
    if i < |rs| {
      assert rs[..i + 1][..i] == rs[..i];
      CollectStops(rs, i + 1);
    } else {
      assert rs[..i] == rs;
    }
  }

  /** One more result extends a successful collection of a prefix. */
  lemma CollectStep<T>(rs: seq<Result<T>>, i: nat, vs: seq<T>)
    requires i < |rs| && Collect(rs[..i]) == Ok(vs)
    ensures rs[i].Ok? ==> Collect(rs[..i + 1]) == Ok(vs + [rs[i].value])
    ensures rs[i].Err? ==> Collect(rs) == Err(rs[i].error)
  {
    assert rs[..i + 1][..i] == rs[..i];
    if rs[i].Err? {
      CollectStops(rs, i + 1);
    }
  }

  /** A Python scalar argument whose run-time type the source inspects with
      `isinstance`. `bool` is a subclass of `int` in Python, so `IsInt` accepts it. */
  datatype Value = PyNone | Bool(b: bool) | Int(i: int) | Float(f: real) | Str(s: string) | Other

  predicate IsInt(v: Value) { v.Int? || v.Bool? }

  /** The integer a value of Python type `int` (or `bool`) stands for. */
  function IntOf(v: Value): int
    requires IsInt(v)
  {
    if v.Int? then v.i else if v.b then 1 else 0
  }

  /** An argument that must be an instance of some class of the model: either an
      instance, or anything else (a value of a foreign type). */
  datatype Obj<+T> = Instance(obj: T) | Foreign

  /** Python's `math.floor(a / b)` and `math.ceil(a / b)` for a positive divisor
      (float rounding is not modelled). */
  function FloorDiv(a: int, b: int): (q: int)
    requires b > 0
    ensures q * b <= a < q * b + b
  {
    a / b
  }

  function CeilDiv(a: int, b: int): (q: int)
    requires b > 0
    ensures q * b - b < a <= q * b
  {
    -((-a) / b)
  }

  /** `lst.index(x)`: the position of the first occurrence, ValueError when absent. */
  function IndexOf<T(==)>(s: seq<T>, x: T): (r: Result<nat>)
    ensures r.Ok? <==> x in s
    ensures r.Ok? ==> r.value < |s| && s[r.value] == x && x !in s[..r.value]
    ensures r.Err? ==> r.error == ValueError
  {
    if |s| == 0 then Err(ValueError)
    else if s[0] == x then Ok(0)
    else
      match IndexOf(s[1..], x)
      case Ok(i) => Ok(i + 1)
      case Err(e) => Err(e)
  }

  /** Decimal rendering of a natural number, as Python's f-string does it. */
  function NatToString(n: nat): (s: string)
    ensures |s| >= 1
    ensures forall i :: 0 <= i < |s| ==> '0' <= s[i] <= '9'
  {
    if n < 10 then [Digit(n)] else NatToString(n / 10) + [Digit(n % 10)]
  }

  function Digit(d: nat): (c: char)
    requires d < 10
    ensures '0' <= c <= '9'
  {
    ['0', '1', '2', '3', '4', '5', '6', '7', '8', '9'][d]
  }

  /** `np.exp`, `np.sqrt` and `math.pi`, given as values; `Sound` states the few facts the
      model relies on. */
  datatype Transcendentals = Transcendentals(exp: real -> real, sqrt: real -> real, pi: real)

  ghost predicate Sound(m: Transcendentals)
  {
    m.exp(0.0) == 1.0 &&
    (forall x: real :: m.exp(x) > 0.0) &&
    (forall x: real, y: real :: x <= y ==> m.exp(x) <= m.exp(y)) &&
    m.pi > 0.0 &&
    (forall x: real :: x > 0.0 ==> m.sqrt(x) > 0.0)
  }

  /** The time window every event carries (the event base class, `event.py`, is not part
      of this model): a start time and an optional end time, in seconds. */
  datatype Event = Event(start: int, end: Option<int>)
}

=== FILE: control_gyms.dfy ===
/** The registry of control environments: a module-level dictionary from environment name
    to environment class, filled by `register` and read by `make`. Classes are values
    here; whether a class derives from the scenario control environment is one of its
    properties. */
module ControlGyms {
  import opened Common

  /** An environment class: its name and whether it is a subclass of
      `WaterDistributionNetworkScenarioControlEnv`. */
  datatype EnvClass = EnvClass(name: string, isControlEnv: bool)

  /** An instance created by calling a class with keyword arguments. */
  datatype Env = Env(cls: EnvClass, kwds: map<string, Value>)

  /** The `environments` dictionary. */
  class Registry {
    var environments: map<string, EnvClass>

    /** Every registered class is a control environment. */
    ghost predicate Valid()
      reads this
    {
      forall name :: name in environments ==> environments[name].isControlEnv
    }

    /** The module starts with an empty registry. */
    constructor ()
      ensures environments == map[]
      ensures Valid()
    {
      environments := map[];
    }

    /** `register(env_name, env)`: ValueError for a name already registered, TypeError for a
        class that is not a control environment, and in both cases nothing changes;
        otherwise exactly the one entry is added. */
    method Register(envName: string, env: EnvClass) returns (r: Result<()>)
      requires Valid()
      modifies this
      ensures Valid()
      ensures envName in old(environments) ==> r == Err(ValueError)
      ensures envName !in old(environments) && !env.isControlEnv ==> r == Err(TypeError)
      ensures r.Err? ==> environments == old(environments)
      ensures r.Ok? <==> envName !in old(environments) && env.isControlEnv
      ensures r.Ok? ==> environments == old(environments)[envName := env]
    {
      if envName in environments {
        return Err(ValueError);
      }
      if !env.isControlEnv {
        return Err(TypeError);
      }
      environments := environments[envName := env];
      r := Ok(());
    }

    /** `make(env_name, **kwds)`: ValueError for a name that is not registered, otherwise
        the registered class called with the keyword arguments. */
    function Make(envName: string, kwds: map<string, Value>): (r: Result<Env>)
      reads this
      ensures r.Ok? <==> envName in environments
      ensures r.Err? ==> r.error == ValueError
      ensures r.Ok? ==> r.value.cls == environments[envName] && r.value.kwds == kwds
    {
      if envName !in environments then Err(ValueError)
      else Ok(Env(environments[envName], kwds))
    }

    /** What `make` returns for each name: the environments of a valid registry are all
        control environments. */
    lemma MadeEnvironmentsAreControlEnvs(envName: string, kwds: map<string, Value>)
      requires Valid()
      ensures Make(envName, kwds).Ok? ==> Make(envName, kwds).value.cls.isControlEnv
    {
    }
  }

  /** Registering a name and then making it creates an instance of the registered class
      with the given arguments; other names are made as before. */
  method RegisterThenMake(reg: Registry, envName: string, env: EnvClass, other: string,
                          kwds: map<string, Value>)
    requires reg.Valid() && envName !in reg.environments && env.isControlEnv && other != envName
    modifies reg
    ensures reg.Make(envName, kwds) == Ok(Env(env, kwds))
    ensures reg.Make(other, kwds) == old(reg.Make(other, kwds))
  {
    var r := reg.Register(envName, env);
  }

  /** A second registration under the same name is refused and keeps the first class. */
  method RegisterTwice(reg: Registry, envName: string, first: EnvClass, second: EnvClass,
                       kwds: map<string, Value>)
    requires reg.Valid() && envName !in reg.environments && first.isControlEnv
    modifies reg
    ensures reg.Make(envName, kwds) == Ok(Env(first, kwds))
  {
    var r1 := reg.Register(envName, first);
    var r2 := reg.Register(envName, second);
    assert r2 == Err(ValueError);
  }
}

=== FILE: labels.dfy ===
/** Leak labels shared by the benchmark loaders: the time step of a time in seconds, the
    0/1 label vector written by slice assignment over each leak's window of time steps,
    and the (time step, location) pairs of every leaky step. */
module LeakLabels {
  import opened Common
  import opened Leakages

  /** A leak as a benchmark loader builds it: its validated configuration, its time window
      and, for an incipient leak, its peak time. */
  datatype LeakSpec = LeakSpec(config: LeakConfig, event: Event, peak: Option<int>)

  /** `leak_time_to_idx(t, round_up)`: `math.floor(t / step)`, or `math.ceil(t / step)`
      when rounding up. */
  function TimeToIdx(t: int, step: int, roundUp: bool): (i: int)
    requires step > 0
    ensures !roundUp ==> i * step <= t < i * step + step
    ensures roundUp ==> i * step - step < t <= i * step
  {
    if roundUp then CeilDiv(t, step) else FloorDiv(t, step)
  }

  /** A time that is a whole number of steps is converted exactly, rounding up or not. */
  lemma TimeToIdxOfMultiple(k: int, step: int, roundUp: bool)
    requires step > 0
    ensures TimeToIdx(k * step, step, roundUp) == k
  {
  }

  /** The time steps a leak covers: the floor of its start step up to the ceiling of its
      end step. */
  lemma TimeToIdxBrackets(start: int, end: int, step: int)
    requires step > 0 && start <= end
    ensures TimeToIdx(start, step, false) <= TimeToIdx(end, step, true)
    ensures TimeToIdx(start, step, false) * step <= start
    ensures end <= TimeToIdx(end, step, true) * step
  {
  }

  // ---------------------------------------------------------------------------------------
  // Slices

  /** The position a bound `a` of a slice `y[a:b]` denotes in an array of length n: a
      negative bound counts from the end, and bounds are clipped to [0, n]. */
  function SliceBound(a: int, n: nat): (b: nat)
    ensures b <= n
    ensures 0 <= a ==> b == Min(a, n)
  {
    if a < 0 then (if a + n < 0 then 0 else a + n) else if a > n then n else a
  }

  function Min(a: int, b: int): int
  {
    if a <= b then a else b
  }

  /** Position i lies in the slice `[a:b]` of an array of length n. */
  predicate InSlice(i: nat, a: int, b: int, n: nat)
  {
    SliceBound(a, n) <= i < SliceBound(b, n)
  }

  /** For non-negative bounds the slice is the plain window [a, b) cut at the length; a
      negative end bound counts from the end of the array. */
  lemma InSliceOfWindow(i: nat, a: int, b: int, n: nat)
    requires 0 <= a && 0 <= b && i < n
    ensures InSlice(i, a, b, n) <==> a <= i < b
  {
  }

  /** `y[a:b] = 1`: ones inside the slice, everything else kept. */
  function FillOnes(y: seq<real>, a: int, b: int): (r: seq<real>)
    ensures |r| == |y|
  {
    seq(|y|, i requires 0 <= i < |y| => if InSlice(i, a, b, |y|) then 1.0 else y[i])
  }

  // ---------------------------------------------------------------------------------------
  // Labels

  /** The label window of one leak: its first and end time step and the column of its
      location. */
  datatype Window = Window(start: int, end: int, col: nat)

  /** What the labelling returns: the 0/1 vector over time steps, and the rows and columns
      of the leak location matrix. */
  datatype Labels = Labels(y: seq<real>, rows: seq<int>, cols: seq<nat>)

  /** `range(end - start)`, empty when end <= start. */
  function Steps(w: Window): nat
  {
    if w.end <= w.start then 0 else w.end - w.start
  }

  /** The labels of some windows, taken in order: zeros, then for each window the slice
      of the vector set to 1 and one location pair per step of the window. */
  function LabelsOf(n: nat, ws: seq<Window>): (l: Labels)
    ensures |l.y| == n && |l.rows| == |l.cols|
    decreases |ws|
  {
    if ws == [] then Labels(seq(n, _ => 0.0), [], [])
    else
      var l := LabelsOf(n, ws[..|ws| - 1]);
      var w := ws[|ws| - 1];
      Labels(FillOnes(l.y, w.start, w.end),
             l.rows + seq(Steps(w), t => w.start + t),
             l.cols + seq(Steps(w), _ => w.col))
  }

  /** Position i is covered by one of the windows' slices. */
  predicate Covered(i: nat, ws: seq<Window>, n: nat)
  {
    exists j :: 0 <= j < |ws| && InSlice(i, ws[j].start, ws[j].end, n)
  }

  /** Every label is 0 or 1, and it is 1 exactly when the step lies in the slice of some
      leak's window. */
  lemma {:induction false} LabelsMarkWindows(n: nat, ws: seq<Window>, i: nat)
    requires i < n
    ensures LabelsOf(n, ws).y[i] == 1.0 || LabelsOf(n, ws).y[i] == 0.0
    ensures LabelsOf(n, ws).y[i] == 1.0 <==> Covered(i, ws, n)
    decreases |ws|
  {
    if ws != [] {
      var init := ws[..|ws| - 1];
      var w := ws[|ws| - 1];
      LabelsMarkWindows(n, init, i);
      if Covered(i, init, n) {
        var j :| 0 <= j < |init| && InSlice(i, init[j].start, init[j].end, n);
        assert ws[j] == init[j];
      }
      if Covered(i, ws, n) && !InSlice(i, w.start, w.end, n) {
        var j :| 0 <= j < |ws| && InSlice(i, ws[j].start, ws[j].end, n);
        assert j < |init| && init[j] == ws[j];
      }
    }
  }

  /** The total number of leaky steps of some windows. */
  function TotalSteps(ws: seq<Window>): nat
  {
    if ws == [] then 0 else TotalSteps(ws[..|ws| - 1]) + Steps(ws[|ws| - 1])
  }

  /** Each window contributes exactly its number of steps to the location pairs, and every
      pair lies in the window of some leak, at that leak's column. */
  lemma {:induction false} LocationsOfWindows(n: nat, ws: seq<Window>, p: nat)
    ensures |LabelsOf(n, ws).rows| == TotalSteps(ws)
    ensures p < TotalSteps(ws) ==>
      exists j :: 0 <= j < |ws| && ws[j].start <= LabelsOf(n, ws).rows[p] < ws[j].end &&
                                  LabelsOf(n, ws).cols[p] == ws[j].col
    decreases |ws|
  {
    if ws != [] {
      var init := ws[..|ws| - 1];
      var w := ws[|ws| - 1];
      var l := LabelsOf(n, init);
      LocationsOfWindows(n, init, p);
      if p < TotalSteps(ws) {
        var l' := LabelsOf(n, ws);
        if p < |l.rows| {
          var j :| 0 <= j < |init| && init[j].start <= l.rows[p] < init[j].end && l.cols[p] == init[j].col;
          assert l'.rows[p] == l.rows[p] && l'.cols[p] == l.cols[p] && ws[j] == init[j];
        } else {
          assert l'.rows[p] == w.start + (p - |l.rows|) && l'.cols[p] == w.col;
          assert ws[|ws| - 1] == w;
        }
      }
    }
  }

  /** A leak's pairs follow the pairs of the leaks before it: one per step of its window,
      rows ascending from its start step. */
  lemma LocationsOfLastLeak(n: nat, ws: seq<Window>, t: nat)
    requires ws != [] && t < Steps(ws[|ws| - 1])
    ensures var before := LabelsOf(n, ws[..|ws| - 1]);
      var w := ws[|ws| - 1];
      |before.rows| + t < |LabelsOf(n, ws).rows| &&
      LabelsOf(n, ws).rows[..|before.rows|] == before.rows &&
      LabelsOf(n, ws).rows[|before.rows| + t] == w.start + t &&
      LabelsOf(n, ws).cols[|before.rows| + t] == w.col
  {
  }

  /** The labelling of one leak on top of the labels so far: the slice assignment on the
      array `y`, then one location pair per step. */
  method AddWindow(y: array<real>, rows: seq<int>, cols: seq<nat>, w: Window)
    returns (rows': seq<int>, cols': seq<nat>)
    modifies y
    ensures y[..] == FillOnes(old(y[..]), w.start, w.end)
    ensures rows' == rows + seq(Steps(w), t => w.start + t)
    ensures cols' == cols + seq(Steps(w), _ => w.col)
  {
    var lo, hi := SliceBound(w.start, y.Length), SliceBound(w.end, y.Length);
    forall i | lo <= i < hi {
      y[i] := 1.0;
    }
    assert y[..] == FillOnes(old(y[..]), w.start, w.end);
    rows', cols' := rows, cols;
    for t := 0 to Steps(w)
      invariant rows' == rows + seq(t, u => w.start + u)
      invariant cols' == cols + seq(t, _ => w.col)
    {
      rows' := rows' + [w.start + t];
      cols' := cols' + [w.col];
    }
  }
}

=== FILE: leakages.dfy ===
/** Leakages: a leak placed at a link or a node, with a diameter and a time profile. While
    the leak is active, every simulation step sets the leaky node's emitter coefficient to
    the leak's coefficient scaled by the next profile entry; a cursor walks the profile. */
module Leakages {
  import opened Common

  /** Where the leak sits. */
  datatype Site = AtLink(link: string) | AtNode(node: string)

  /** A profile argument as the caller passed it: something that is not a numpy array, or
      an array with its number of dimensions and its entries in order. */
  datatype ProfileArg = NotAnArray | NdArray(ndim: nat, values: seq<real>)

  /** A validated leak: its site, its diameter and its profile (None when not given). */
  datatype LeakConfig = LeakConfig(site: Site, diameter: real, profile: Option<ProfileArg>)

  /** The profile check of the constructor and of the `profile` setter: TypeError for
      anything that is not an array, ValueError for an array of more than one dimension. */
  function CheckProfile(p: ProfileArg): (r: Result<ProfileArg>)
    ensures r.Ok? <==> p.NdArray? && p.ndim <= 1
    ensures p.NotAnArray? ==> r == Err(TypeError)
    ensures p.NdArray? && p.ndim > 1 ==> r == Err(ValueError)
    ensures r.Ok? ==> r.value == p
  {
    if p.NotAnArray? then Err(TypeError)
    else if p.ndim > 1 then Err(ValueError)
    else Ok(p)
  }

  /** `Leakage(link_id, diameter, profile, node_id)`. In order: ValueError unless exactly
      one of the link and the node id is given, TypeError for a link id that is not a str,
      TypeError for a diameter that is not a float, ValueError for a diameter that is not
      positive, the profile check, TypeError for a node id that is not a str. */
  function NewLeakage(linkId: Value, diameter: Value, profile: Option<ProfileArg>, nodeId: Value)
    : (r: Result<LeakConfig>)
    ensures linkId.PyNone? == nodeId.PyNone? ==> r == Err(ValueError)
    ensures r.Ok? <==>
      ((linkId.Str? && nodeId.PyNone?) || (linkId.PyNone? && nodeId.Str?)) &&
      diameter.Float? && diameter.f > 0.0 &&
      (profile.Some? ==> CheckProfile(profile.value).Ok?)
    ensures r.Ok? ==> r.value == LeakConfig(if linkId.Str? then AtLink(linkId.s) else AtNode(nodeId.s),
                                            diameter.f, profile)
    ensures linkId.PyNone? != nodeId.PyNone? && !linkId.PyNone? && !linkId.Str? ==> r == Err(TypeError)
    ensures linkId.PyNone? != nodeId.PyNone? && (linkId.PyNone? || linkId.Str?) && !diameter.Float? ==>
      r == Err(TypeError)
  {
    if !linkId.PyNone? && !nodeId.PyNone? then Err(ValueError)
    else if linkId.PyNone? && nodeId.PyNone? then Err(ValueError)
    else if !linkId.PyNone? && !linkId.Str? then Err(TypeError)
    else if !diameter.Float? then Err(TypeError)
    else if diameter.f <= 0.0 then Err(ValueError)
    else if profile.Some? && CheckProfile(profile.value).Err? then Err(CheckProfile(profile.value).error)
    else if !nodeId.PyNone? && !nodeId.Str? then Err(TypeError)
    else Ok(LeakConfig(if linkId.Str? then AtLink(linkId.s) else AtNode(nodeId.s), diameter.f, profile))
  }

  /** A node id of the wrong type is only reported after the diameter and the profile
      have been accepted. */
  lemma NodeTypeCheckedLast(d: real, p: ProfileArg)
    requires d > 0.0 && CheckProfile(p).Err?
    ensures NewLeakage(PyNone, Float(d), Some(p), Int(3)) == Err(CheckProfile(p).error)
    ensures NewLeakage(PyNone, Float(d), None, Int(3)) == Err(TypeError)
    ensures NewLeakage(PyNone, Float(-d), None, Int(3)) == Err(ValueError)
  {
  }

  /** `compute_leak_area(diameter)`: the area of a circle of that diameter, times the unit
      factor 100. */
  function LeakArea(m: Transcendentals, diameter: real): real
  {
    (m.pi * ((diameter / 2.0) * (diameter / 2.0))) * 100.0
  }

  /** A leak of no diameter has no area, and the area grows with the diameter from there,
      so it is never negative. */
  lemma LeakAreaNonNegative(m: Transcendentals, diameter: real)
    requires Sound(m) && diameter >= 0.0
    ensures LeakArea(m, 0.0) == 0.0
    ensures LeakArea(m, 0.0) <= LeakArea(m, diameter)
  {
  }

  /** `compute_leak_emitter_coefficient(area)`: discharge coefficient 0.75 times the area
      times sqrt(2 g) with g = 9.8. */
  function EmitterCoefficient(m: Transcendentals, area: real): (c: real)
    ensures Sound(m) && area > 0.0 ==> c > 0.0
  {
    MulPositive(area, m.sqrt(2.0 * 9.8));
    0.75 * area * m.sqrt(2.0 * 9.8)
  }

  lemma MulPositive(x: real, y: real)
    ensures x > 0.0 && y > 0.0 ==> x * y > 0.0
  {
  }

  /** A wider leak has a larger area and a larger emitter coefficient. */
  lemma WiderLeakLosesMore(m: Transcendentals, d1: real, d2: real)
    requires Sound(m) && 0.0 < d1 <= d2
    ensures LeakArea(m, d1) <= LeakArea(m, d2)
    ensures EmitterCoefficient(m, LeakArea(m, d1)) <= EmitterCoefficient(m, LeakArea(m, d2))
  {
    var h1, h2 := d1 / 2.0, d2 / 2.0;
    assert h1 * h1 <= h1 * h2 <= h2 * h2;
    assert m.pi * (h1 * h1) <= m.pi * (h2 * h2);
    var s := m.sqrt(2.0 * 9.8);
    assert s > 0.0;
    assert LeakArea(m, d1) * s <= LeakArea(m, d2) * s;
  }

  /** The emitter value one `apply` sets: `leak_emitter_coef * profile[idx]`. The method
      is looked up on the simulator handle before its arguments are evaluated, so without
      a handle (`init` never called) it is an AttributeError. Then the profile is indexed:
      TypeError without a profile, IndexError for a 0-dimensional profile or a cursor past
      its end; then TypeError when `init` failed before setting the coefficient. */
  function EmitterAt(apiSet: bool, coef: Option<real>, profile: Option<ProfileArg>, idx: nat)
    : (r: Result<real>)
    ensures !apiSet ==> r == Err(AttributeError)
    ensures r.Ok? <==> apiSet && coef.Some? && profile.Some? && profile.value.NdArray? &&
                       profile.value.ndim == 1 && idx < |profile.value.values|
    ensures r.Ok? ==> r.value == coef.value * profile.value.values[idx]
    ensures (apiSet && profile.Some? && profile.value.NdArray? && profile.value.ndim == 1 &&
             idx >= |profile.value.values|) ==> r == Err(IndexError)
  {
    if !apiSet then Err(AttributeError)
    else if profile.None? || profile.value.NotAnArray? then Err(TypeError)
    else if profile.value.ndim != 1 || idx >= |profile.value.values| then Err(IndexError)
    else if coef.None? then Err(TypeError)
    else Ok(coef.value * profile.value.values[idx])
  }

  /** Whether `init` refuses the leak's site: a link the network does not have, a link
      that already carries a leak node, or a node the network does not have. */
  predicate SiteRejected(site: Site, linkIds: seq<string>, nodeIds: seq<string>)
  {
    match site
    case AtLink(l) => l !in linkIds || "leak_node_" + l in nodeIds
    case AtNode(n) => n !in nodeIds
  }

  class Leakage {
    const config: LeakConfig
    const event: Event
    var profile: Option<ProfileArg>
    var idx: nat
    var emitterCoef: Option<real>
    /** Whether `init` has stored the simulator handle (`_epanet_api` is not None). */
    var initialised: bool

    /** The leak after the constructor checks: its profile as given, the cursor at 0, no
        simulator handle and no emitter coefficient yet. */
    constructor (c: LeakConfig, e: Event)
      ensures config == c && event == e
      ensures profile == c.profile && idx == 0 && emitterCoef == None && !initialised
    {
      config := c;
      event := e;
      profile := c.profile;
      idx := 0;
      emitterCoef := None;
      initialised := false;
    }

    /** The `profile` setter: validates before assigning, so a rejected profile leaves the
        leak unchanged. */
    method SetProfile(p: ProfileArg) returns (r: Result<()>)
      modifies this
      ensures r.Ok? <==> CheckProfile(p).Ok?
      ensures r.Err? ==> r.error == CheckProfile(p).error && profile == old(profile)
      ensures r.Ok? ==> profile == Some(p)
      ensures idx == old(idx) && emitterCoef == old(emitterCoef) && initialised == old(initialised)
    {
      var checked := CheckProfile(p);
      if checked.Err? {
        return Err(checked.error);
      }
      profile := Some(p);
      r := Ok(());
    }

    /** `init(epanet_api)`: the base class stores the handle first; then ValueError for a
        link or node the network does not have, or for a link that already carries a leak
        node; otherwise the emitter coefficient of the leak's area. The pipe split and the
        node index lookup happen in the simulator. */
    method Init(m: Transcendentals, linkIds: seq<string>, nodeIds: seq<string>) returns (r: Result<()>)
      modifies this
      ensures r.Err? <==> SiteRejected(config.site, linkIds, nodeIds)
      ensures r.Err? ==> r.error == ValueError && emitterCoef == old(emitterCoef)
      ensures r.Ok? ==> emitterCoef == Some(EmitterCoefficient(m, LeakArea(m, config.diameter)))
      ensures initialised && profile == old(profile) && idx == old(idx)
    {
      initialised := true;
      match config.site {
        case AtLink(l) =>
          if l !in linkIds || "leak_node_" + l in nodeIds {
            return Err(ValueError);
          }
        case AtNode(n) =>
          if n !in nodeIds {
            return Err(ValueError);
          }
      }
      emitterCoef := Some(EmitterCoefficient(m, LeakArea(m, config.diameter)));
      r := Ok(());
    }

    /** `AbruptLeakage.init(epanet_api)`: the base `init`, then a profile of ones, one
        per leaky time step, assigned through the `profile` setter. A failed base `init`
        leaves the profile as it was, and so does the ValueError of a negative length. */
    method InitAbrupt(m: Transcendentals, linkIds: seq<string>, nodeIds: seq<string>,
                      duration: int, timeStep: int) returns (r: Result<()>)
      requires timeStep > 0
      modifies this
      ensures SiteRejected(config.site, linkIds, nodeIds) ==>
        r == Err(ValueError) && emitterCoef == old(emitterCoef)
      ensures !SiteRejected(config.site, linkIds, nodeIds) ==>
        emitterCoef == Some(EmitterCoefficient(m, LeakArea(m, config.diameter))) &&
        (r.Ok? <==> AbruptProfile(event, duration, timeStep).Ok?)
      ensures r.Err? ==> r.error == ValueError && profile == old(profile)
      ensures r.Ok? ==> profile == Some(NdArray(1, AbruptProfile(event, duration, timeStep).value))
      ensures initialised && idx == old(idx)
    {
      r := Init(m, linkIds, nodeIds);
      if r.Err? {
        return;
      }
      var ones := AbruptProfile(event, duration, timeStep);
      if ones.Err? {
        return Err(ones.error);
      }
      r := SetProfile(NdArray(1, ones.value));
    }

    /** `IncipientLeakage.init(epanet_api)`: the base `init`, then the ramped profile built
        in place, assigned through the `profile` setter. A failed base `init` leaves the
        profile as it was, and so do the ValueError of a negative length and the
        IndexError of a ramp longer than the profile. */
    method InitIncipient(m: Transcendentals, linkIds: seq<string>, nodeIds: seq<string>,
                         peak: int, duration: int, timeStep: int) returns (r: Result<()>)
      requires timeStep > 0
      modifies this
      ensures SiteRejected(config.site, linkIds, nodeIds) ==>
        r == Err(ValueError) && emitterCoef == old(emitterCoef)
      ensures !SiteRejected(config.site, linkIds, nodeIds) ==>
        emitterCoef == Some(EmitterCoefficient(m, LeakArea(m, config.diameter))) &&
        (r.Ok? <==> IncipientProfile(event, peak, duration, timeStep).Ok?) &&
        (r.Err? ==> r.error == IncipientProfile(event, peak, duration, timeStep).error)
      ensures r.Err? ==> profile == old(profile)
      ensures r.Ok? ==>
        profile == Some(NdArray(1, IncipientProfile(event, peak, duration, timeStep).value))
      ensures initialised && idx == old(idx)
    {
      r := Init(m, linkIds, nodeIds);
      if r.Err? {
        return;
      }
      var built := BuildIncipientProfile(event, peak, duration, timeStep);
      if built.Err? {
        return Err(built.error);
      }
      r := SetProfile(NdArray(1, built.value[..]));
    }

    /** `reset()`: the cursor goes back to the first profile entry. */
    method Reset()
      modifies this
      ensures idx == 0 && profile == old(profile) && emitterCoef == old(emitterCoef)
      ensures initialised == old(initialised)
    {
      idx := 0;
    }

    /** `apply(cur_time)`: the emitter value for the current profile entry; the cursor
        advances by exactly one, and only when no error is raised. */
    method Apply(t: int) returns (r: Result<real>)
      modifies this
      ensures r == EmitterAt(initialised, emitterCoef, profile, old(idx))
      ensures idx == if r.Ok? then old(idx) + 1 else old(idx)
      ensures profile == old(profile) && emitterCoef == old(emitterCoef)
      ensures initialised == old(initialised)
    {
      r := EmitterAt(initialised, emitterCoef, profile, idx);
      if r.Ok? {
        idx := idx + 1;
      }
    }
  }

  /** The number of profile entries `init` allocates: ceil((end - start) / time_step), or
      up to the simulation duration for an open-ended leak. */
  function LeakyTimePoints(e: Event, duration: int, timeStep: int): (n: int)
    requires timeStep > 0
    ensures var last := if e.end.Some? then e.end.value else duration;
      n * timeStep - timeStep < last - e.start <= n * timeStep
  {
    CeilDiv((if e.end.Some? then e.end.value else duration) - e.start, timeStep)
  }

  /** `np.ones(n)`: ValueError for a negative length. */
  function Ones(n: int): (r: Result<seq<real>>)
    ensures r.Ok? <==> n >= 0
    ensures r.Err? ==> r.error == ValueError
    ensures r.Ok? ==> |r.value| == n && forall i :: 0 <= i < |r.value| ==> r.value[i] == 1.0
  {
    if n < 0 then Err(ValueError) else Ok(seq(n, _ => 1.0))
  }

  /** `AbruptLeakage.init`: the profile is all ones, one per leaky time step. */
  function AbruptProfile(e: Event, duration: int, timeStep: int): (r: Result<seq<real>>)
    requires timeStep > 0
    ensures r.Ok? <==> LeakyTimePoints(e, duration, timeStep) >= 0
    ensures r.Err? ==> r.error == ValueError
    ensures r.Ok? ==> |r.value| == LeakyTimePoints(e, duration, timeStep) &&
                      forall i :: 0 <= i < |r.value| ==> r.value[i] == 1.0
  {
    Ones(LeakyTimePoints(e, duration, timeStep))
  }

  /** An abrupt leak whose window is well ordered gets a profile of ones covering it. */
  lemma AbruptProfileCoversWindow(e: Event, duration: int, timeStep: int)
    requires timeStep > 0
    requires e.end.Some? ==> e.start <= e.end.value
    requires e.end.None? ==> e.start <= duration
    ensures AbruptProfile(e, duration, timeStep).Ok?
    ensures |AbruptProfile(e, duration, timeStep).value| * timeStep >=
      (if e.end.Some? then e.end.value else duration) - e.start
  {
    var n := LeakyTimePoints(e, duration, timeStep);
    assert n * timeStep > -timeStep;
  }

  /** `IncipientLeakage(link_id, diameter, peak_time, start_time=…, end_time=…)`: the peak
      time must lie in the window. The keyword arguments are read directly, so a missing
      start or end time raises KeyError (None for `start` or `end` here means the keyword
      was not passed). The end is only read once the start check has passed. */
  function CheckPeak(peak: int, start: Option<int>, end: Option<Option<int>>): (r: Result<()>)
    ensures start.None? ==> r == Err(KeyError)
    ensures start.Some? && peak < start.value ==> r == Err(ValueError)
    ensures start.Some? && peak >= start.value && end.None? ==> r == Err(KeyError)
    ensures r.Ok? <==> start.Some? && start.value <= peak && end.Some? &&
                       (end.value.Some? ==> peak <= end.value.value)
    ensures r.Err? && start.Some? && end.Some? ==> r.error == ValueError
  {
    if start.None? then Err(KeyError)
    else if peak < start.value then Err(ValueError)
    else if end.None? then Err(KeyError)
    else if end.value.Some? && peak > end.value.value then Err(ValueError)
    else Ok(())
  }

  /** Python's `int(a / b)` for a positive divisor: the quotient truncated toward zero. */
  function TruncDiv(a: int, b: int): (q: int)
    requires b > 0
    ensures a >= 0 ==> q * b <= a < q * b + b
    ensures a < 0 ==> q <= 0
  {
    if a >= 0 then a / b else -((-a) / b)
  }

  /** Entry t of the rising part of an incipient profile, as the source writes it:
      1/coeff + t/coeff. */
  function Ramp(coeff: nat, t: nat): (v: real)
    requires coeff > 0
    ensures v > 0.0
    ensures t + 1 <= coeff ==> v <= 1.0
  {
    var k := 1.0 / coeff as real;
    assert k * (coeff as real) == 1.0;
    assert k + k * (t as real) == k * (t as real + 1.0);
    assert t + 1 <= coeff ==> k * (t as real + 1.0) <= k * (coeff as real);
    k + k * (t as real)
  }

  /** The profile `IncipientLeakage.init` returns: ones, with the first `coeff` entries
      replaced by the ramp; ValueError for a negative length and IndexError when the ramp
      is longer than the profile. */
  function IncipientProfile(e: Event, peak: int, duration: int, timeStep: int): (r: Result<seq<real>>)
    requires timeStep > 0
    ensures r.Ok? ==> |r.value| == LeakyTimePoints(e, duration, timeStep)
    ensures LeakyTimePoints(e, duration, timeStep) < 0 ==> r == Err(ValueError)
  {
    var n := LeakyTimePoints(e, duration, timeStep);
    var coeff := TruncDiv(peak - e.start, timeStep);
    if n < 0 then Err(ValueError)
    else if coeff > n then Err(IndexError)
    else Ok(seq(n, i requires 0 <= i < n => if i < coeff then Ramp(coeff, i) else 1.0))
  }

  /** The ramp rises in equal steps of 1/coeff from 1/coeff and reaches 1 at its last
      entry. */
  lemma RampIsLinear(coeff: nat, t: nat)
    requires coeff > 0
    ensures Ramp(coeff, t) == (t as real + 1.0) / coeff as real
    ensures t + 1 == coeff ==> Ramp(coeff, t) == 1.0
  {
    var k := 1.0 / coeff as real;
    assert Ramp(coeff, t) == k * (t as real + 1.0);
  }

  /** The ramp stays in (0, 1] and rises. */
  lemma RampBounds(coeff: nat, i: nat, j: nat)
    requires i <= j < coeff
    ensures 0.0 < Ramp(coeff, i) <= 1.0
    ensures Ramp(coeff, i) <= Ramp(coeff, j)
  {
    var c := coeff as real;
    RampIsLinear(coeff, i);
    RampIsLinear(coeff, j);
    assert 0.0 < (i as real + 1.0) / c;
    assert (i as real + 1.0) / c <= c / c;
    assert (i as real + 1.0) / c <= (j as real + 1.0) / c;
  }

  /** Every entry of an incipient profile lies in (0, 1], the profile never decreases, it
      follows the ramp up to the peak's time step and it is 1 from there on. */
  lemma IncipientProfileShape(e: Event, peak: int, duration: int, timeStep: int, i: nat, j: nat)
    requires timeStep > 0
    requires IncipientProfile(e, peak, duration, timeStep).Ok?
    requires i <= j < |IncipientProfile(e, peak, duration, timeStep).value|
    ensures var p := IncipientProfile(e, peak, duration, timeStep).value;
      0.0 < p[i] <= 1.0 && p[i] <= p[j]
    ensures var p := IncipientProfile(e, peak, duration, timeStep).value;
      var coeff := TruncDiv(peak - e.start, timeStep);
      j + 1 >= coeff ==> p[j] == 1.0
    ensures var p := IncipientProfile(e, peak, duration, timeStep).value;
      var coeff := TruncDiv(peak - e.start, timeStep);
      (i < coeff ==> p[i] == Ramp(coeff, i)) && (j < coeff ==> p[j] == Ramp(coeff, j))
  {
    var coeff := TruncDiv(peak - e.start, timeStep);
    if i < coeff {
      RampBounds(coeff, i, if j < coeff then j else i);
    }
    if j < coeff {
      RampIsLinear(coeff, j);
    }
  }

  /** An incipient leak with an end time and its peak inside the window never raises in
      `init`: the ramp fits within the profile. */
  lemma IncipientProfileFits(e: Event, peak: int, duration: int, timeStep: int)
    requires timeStep > 0
    requires e.end.Some? && e.start <= peak <= e.end.value
    ensures IncipientProfile(e, peak, duration, timeStep).Ok?
  {
    var coeff := TruncDiv(peak - e.start, timeStep);
    var n := LeakyTimePoints(e, duration, timeStep);
    assert coeff * timeStep <= peak - e.start <= e.end.value - e.start <= n * timeStep;
  }

  /** An open-ended incipient leak whose peak lies a whole time step beyond the k steps
      that cover the simulation raises IndexError while filling the ramp: the ramp is
      longer than the profile. */
  lemma OpenEndedLatePeakFails(e: Event, peak: int, duration: int, timeStep: int, k: nat)
    requires timeStep > 0 && e.end.None? && e.start <= duration
    requires duration - e.start <= k * timeStep && (k + 1) * timeStep <= peak - e.start
    ensures IncipientProfile(e, peak, duration, timeStep) == Err(IndexError)
  {
    var n := LeakyTimePoints(e, duration, timeStep);
    var coeff := TruncDiv(peak - e.start, timeStep);
    assert (k + 1) * timeStep == k * timeStep + timeStep;
    assert (coeff + 1) * timeStep == coeff * timeStep + timeStep;
    CancelFactor(n, k + 1, timeStep);
    CancelFactor(k + 1, coeff + 1, timeStep);
  }

  /** A positive factor can be cancelled from a strict inequality. */
  lemma CancelFactor(a: int, b: int, c: int)
    requires c > 0 && a * c < b * c
    ensures a < b
  {
  }

  /** `IncipientLeakage.init` fills the profile in place: ones first, then the ramp entry
      by entry. */
  method BuildIncipientProfile(e: Event, peak: int, duration: int, timeStep: int)
    returns (r: Result<array<real>>)
    requires timeStep > 0
    ensures r.Ok? ==> fresh(r.value)
    ensures r.Ok? <==> IncipientProfile(e, peak, duration, timeStep).Ok?
    ensures r.Ok? ==> r.value[..] == IncipientProfile(e, peak, duration, timeStep).value
    ensures r.Err? ==> r.error == IncipientProfile(e, peak, duration, timeStep).error
  {
    var n := LeakyTimePoints(e, duration, timeStep);
    if n < 0 {
      return Err(ValueError);
    }
    var profile := new real[n](_ => 1.0);
    var coeff := TruncDiv(peak - e.start, timeStep);
    if coeff > 0 {
      var t := 0;
      while t < coeff
        invariant 0 <= t <= coeff && t <= n
        invariant forall i :: 0 <= i < n ==> profile[i] == if i < t then Ramp(coeff, i) else 1.0
      {
        if t >= n {
          return Err(IndexError);
        }
        profile[t] := (1.0 / coeff as real) + (1.0 / coeff as real) * (t as real);
        t := t + 1;
      }
    }
    r := Ok(profile);
  }
}

=== FILE: leakdb.dfy ===
/** The LeakDB benchmark: the leak labels of a scenario, built from its leak records
    (times counted in 30-minute hydraulic steps), the leaks of a scenario's configuration,
    whose times are scaled to seconds, and the uniform model uncertainty of the benchmark.
    The JSON tables of leaks, the stored SCADA files and the `bsr_array` built from the
    location pairs are not part of this model: the records, the row count of the data and
    the pairs stand for them. */
module LeakDb {
  import opened Common
  import opened Leakages
  import opened LeakLabels
  import U = Uncertainties

  /** `hydraulic_time_step`: 30 minutes, in seconds; also the divisor of `leak_time_to_idx`. */
  const HydraulicTimeStep := 1800

  /** One leak of the benchmark's tables: its node, its type, its diameter as stored, and its
      start, end and peak time in hydraulic steps. */
  datatype LeakRecord = LeakRecord(nodeId: string, leakType: string, diameter: Value,
                                   start: int, end: int, peak: int)

  /** The leak table: scenario id, as text, to the leaks of that scenario. */
  type LeaksInfo = map<string, seq<LeakRecord>>

  /** `str(i)` for an int. */
  function IntToString(i: int): (s: string)
    ensures |s| >= 1
    ensures i >= 0 ==> s == NatToString(i)
  {
    if i < 0 then "-" + NatToString(-i) else NatToString(i)
  }

  /** The leaks of a scenario: those listed under `str(s_id)`, none when it is not listed. */
  function ScenarioLeaks(info: LeaksInfo, sId: int): (recs: seq<LeakRecord>)
    ensures IntToString(sId) !in info ==> recs == []
    ensures IntToString(sId) in info ==> recs == info[IntToString(sId)]
  {
    if IntToString(sId) in info then info[IntToString(sId)] else []
  }

  // ---------------------------------------------------------------------------------------
  // Labels of `load_leakdb_data`

  /** The label window of one leak: the floor of its scaled start time and the ceiling of
      its scaled end time, over 1800 seconds, then `nodes.index(node_id)`, which raises
      ValueError for a node that is not listed. Since the times were scaled by the same
      step, the window is exactly the leak's start and end step. */
  function RecordWindow(rec: LeakRecord, nodes: seq<string>): (r: Result<Window>)
    ensures r.Ok? <==> rec.nodeId in nodes
    ensures r.Err? ==> r.error == ValueError
    ensures r.Ok? ==> r.value.start == rec.start && r.value.end == rec.end
    ensures r.Ok? ==> IndexOf(nodes, rec.nodeId) == Ok(r.value.col)
  {
    var s := TimeToIdx(rec.start * HydraulicTimeStep, HydraulicTimeStep, false);
    var e := TimeToIdx(rec.end * HydraulicTimeStep, HydraulicTimeStep, true);
    TimeToIdxOfMultiple(rec.start, HydraulicTimeStep, false);
    TimeToIdxOfMultiple(rec.end, HydraulicTimeStep, true);
    match IndexOf(nodes, rec.nodeId)
    case Err(x) => Err(x)
    case Ok(col) => Ok(Window(s, e, col))
  }

  /** The window of each leak on its own. */
  function RecordWindows(recs: seq<LeakRecord>, nodes: seq<string>): (rs: seq<Result<Window>>)
    ensures |rs| == |recs|
    ensures forall i :: 0 <= i < |recs| ==> rs[i] == RecordWindow(recs[i], nodes)
  {
    seq(|recs|, i requires 0 <= i < |recs| => RecordWindow(recs[i], nodes))
  }

  /** The labels of one scenario in `load_leakdb_data`: `y` has one zero per row of the
      scenario's data, then for each of its leaks in order the location pairs of its steps
      are appended and its slice of `y` set to 1. A leak at an unlisted node raises
      ValueError. */
  method ScenarioLabels(nRows: nat, info: LeaksInfo, sId: int, nodes: seq<string>)
    returns (r: Result<Labels>)
    ensures Collect(RecordWindows(ScenarioLeaks(info, sId), nodes)).Err? ==>
      r == Err(Collect(RecordWindows(ScenarioLeaks(info, sId), nodes)).error)
    ensures Collect(RecordWindows(ScenarioLeaks(info, sId), nodes)).Ok? ==>
      r == Ok(LabelsOf(nRows, Collect(RecordWindows(ScenarioLeaks(info, sId), nodes)).value))
  {
    var y := new real[nRows](_ => 0.0);
    var rows: seq<int> := [];
    var cols: seq<nat> := [];
    assert LabelsOf(nRows, []).y == y[..];
    if IntToString(sId) in info {
      var leaks := info[IntToString(sId)];
      ghost var rs := RecordWindows(ScenarioLeaks(info, sId), nodes);
      ghost var ws: seq<Window> := [];
      for i := 0 to |leaks|
        invariant Collect(rs[..i]) == Ok(ws)
        invariant LabelsOf(nRows, ws) == Labels(y[..], rows, cols)
      {
        var w := RecordWindow(leaks[i], nodes);
        CollectStep(rs, i, ws);
        if w.Err? {
          return Err(w.error);
        }
        rows, cols := AddWindow(y, rows, cols, w.value);
        assert (ws + [w.value])[..|ws|] == ws;
        ws := ws + [w.value];
      }
      assert rs[..|leaks|] == rs;
    } else {
      assert RecordWindows(ScenarioLeaks(info, sId), nodes) == [];
    }
    r := Ok(Labels(y[..], rows, cols));
  }

  /** A scenario without leaks is labelled with zeros only and has no location pairs. */
  lemma UnlistedScenarioIsLeakFree(nRows: nat, info: LeaksInfo, sId: int, nodes: seq<string>)
    requires IntToString(sId) !in info
    ensures Collect(RecordWindows(ScenarioLeaks(info, sId), nodes)) == Ok([])
    ensures forall i :: 0 <= i < nRows ==> LabelsOf(nRows, []).y[i] == 0.0
    ensures LabelsOf(nRows, []).rows == []
  {
  }

  /** A leak occurs at step i exactly when i lies in the [start, end) steps of one of the
      scenario's leaks; every label is 0 or 1. */
  lemma LabelsMarkLeaks(nRows: nat, recs: seq<LeakRecord>, nodes: seq<string>, i: nat)
    requires Collect(RecordWindows(recs, nodes)).Ok? && i < nRows
    requires forall j :: 0 <= j < |recs| ==> 0 <= recs[j].start && 0 <= recs[j].end
    ensures var y := LabelsOf(nRows, Collect(RecordWindows(recs, nodes)).value).y;
      && (y[i] == 0.0 || y[i] == 1.0)
      && (y[i] == 1.0 <==> exists j :: 0 <= j < |recs| && recs[j].start <= i < recs[j].end)
  {
    var ws := Collect(RecordWindows(recs, nodes)).value;
    LabelsMarkWindows(nRows, ws, i);
    if Covered(i, ws, nRows) {
      var j :| 0 <= j < |ws| && InSlice(i, ws[j].start, ws[j].end, nRows);
      InSliceOfWindow(i, ws[j].start, ws[j].end, nRows);
    }
    if exists j :: 0 <= j < |recs| && recs[j].start <= i < recs[j].end {
      var j :| 0 <= j < |recs| && recs[j].start <= i < recs[j].end;
      InSliceOfWindow(i, ws[j].start, ws[j].end, nRows);
    }
  }

  /** Every location pair is a step of one of the scenario's leaks together with the index
      of that leak's node; there is one pair per step of each leak. */
  lemma LocationsOfLeaks(nRows: nat, recs: seq<LeakRecord>, nodes: seq<string>, p: nat)
    requires Collect(RecordWindows(recs, nodes)).Ok?
    ensures var l := LabelsOf(nRows, Collect(RecordWindows(recs, nodes)).value);
      p < |l.rows| ==>
        exists j ::
          && 0 <= j < |recs| && recs[j].start <= l.rows[p] < recs[j].end
          && IndexOf(nodes, recs[j].nodeId) == Ok(l.cols[p])
  {
    var ws := Collect(RecordWindows(recs, nodes)).value;
    LocationsOfWindows(nRows, ws, p);
  }

  // ---------------------------------------------------------------------------------------
  // What `load_leakdb_data` returns per scenario

  /** The tuple appended per scenario: the data or (X, y), with or without the locations. */
  datatype Returned = Data | DataAndLocations | XAndY | XYAndLocations
  {
    predicate HasLabels() { this == XAndY || this == XYAndLocations }
    predicate HasLocations() { this == DataAndLocations || this == XYAndLocations }
  }

  /** The choice as written: with the locations but without `return_X_y`, `r.append` is
      called with two arguments, which raises TypeError. */
  function ReturnedAsWritten(returnXy: bool, returnLocations: bool): (r: Result<Returned>)
    ensures r.Ok? <==> returnXy || !returnLocations
    ensures r.Ok? ==> r.value.HasLabels() == returnXy && r.value.HasLocations() == returnLocations
  {
    if returnXy then Ok(if returnLocations then XYAndLocations else XAndY)
    else if returnLocations then Err(TypeError)
    else Ok(Data)
  }

  /** The evidently intended choice: the pair (data, locations) is appended. */
  function ReturnedIntended(returnXy: bool, returnLocations: bool): (r: Returned)
    ensures r.HasLabels() == returnXy && r.HasLocations() == returnLocations
  {
    if returnXy then (if returnLocations then XYAndLocations else XAndY)
    else if returnLocations then DataAndLocations
    else Data
  }

  /** The written choice agrees with the intended one except for data with locations,
      which it cannot return. */
  lemma ReturnedDiffersOnlyForDataWithLocations(returnXy: bool, returnLocations: bool)
    ensures !returnXy && returnLocations ==> ReturnedAsWritten(returnXy, returnLocations) == Err(TypeError)
    ensures returnXy || !returnLocations ==>
      ReturnedAsWritten(returnXy, returnLocations) == Ok(ReturnedIntended(returnXy, returnLocations))
  {
  }

  // ---------------------------------------------------------------------------------------
  // Leaks of `load_leakdb`

  /** The leak of a record in `load_leakdb`: for type "incipient" an incipient leak at the
      node, for any other type an abrupt one, with start, end and peak time scaled from
      hydraulic steps to seconds. The constructor checks apply: the peak must lie in the
      window, the diameter must be a positive float. */
  function LeakOfRecord(rec: LeakRecord): (r: Result<LeakSpec>)
    ensures r.Ok? ==> r.value.config.site == AtNode(rec.nodeId)
    ensures r.Ok? ==>
      r.value.event == Event(rec.start * HydraulicTimeStep, Some(rec.end * HydraulicTimeStep))
    ensures r.Ok? ==> (r.value.peak.Some? <==> rec.leakType == "incipient")
    ensures r.Ok? && r.value.peak.Some? ==> r.value.peak.value == rec.peak * HydraulicTimeStep
    ensures r.Ok? <==>
      && rec.diameter.Float? && rec.diameter.f > 0.0
      && (rec.leakType == "incipient" ==> rec.start <= rec.peak <= rec.end)
  {
    var start, end := rec.start * HydraulicTimeStep, rec.end * HydraulicTimeStep;
    var event := Event(start, Some(end));
    if rec.leakType == "incipient" then
      var peak := rec.peak * HydraulicTimeStep;
      match CheckPeak(peak, Some(start), Some(Some(end)))
      case Err(e) => Err(e)
      case Ok(_) =>
        match NewLeakage(PyNone, rec.diameter, None, Str(rec.nodeId))
        case Err(e) => Err(e)
        case Ok(c) => Ok(LeakSpec(c, event, Some(peak)))
    else
      match NewLeakage(PyNone, rec.diameter, None, Str(rec.nodeId))
      case Err(e) => Err(e)
      case Ok(c) => Ok(LeakSpec(c, event, None))
  }

  /** The result of `LeakOfRecord` for each record, in order. */
  function RecordLeaks(recs: seq<LeakRecord>): (rs: seq<Result<LeakSpec>>)
    ensures |rs| == |recs| && forall i :: 0 <= i < |recs| ==> rs[i] == LeakOfRecord(recs[i])
  {
    seq(|recs|, i requires 0 <= i < |recs| => LeakOfRecord(recs[i]))
  }

  /** The leaks of one scenario (`leaks_data`): the leaks of its records, in order, or the
      error of the first record whose leak is rejected. */
  function ScenarioLeakSpecs(info: LeaksInfo, sId: int): (r: Result<seq<LeakSpec>>)
    ensures IntToString(sId) !in info ==> r == Ok([])
    ensures r.Ok? <==> forall i :: 0 <= i < |ScenarioLeaks(info, sId)| ==>
                         LeakOfRecord(ScenarioLeaks(info, sId)[i]).Ok?
    ensures r.Ok? ==> (|r.value| == |ScenarioLeaks(info, sId)| &&
      forall i :: 0 <= i < |r.value| ==> LeakOfRecord(ScenarioLeaks(info, sId)[i]) == Ok(r.value[i]))
    ensures r.Err? ==> FirstFailure(RecordLeaks(ScenarioLeaks(info, sId)), r.error)
  {
    var recs := ScenarioLeaks(info, sId);
    var rs := RecordLeaks(recs);
    if Collect(rs).Ok? then Collect(rs)
    else
      CollectFirstError(rs);
      Collect(rs)
  }

  /** Scaling keeps the leak's window aligned with the hydraulic steps: the labels of a
      scenario's records cover exactly the steps during which its configured leaks are
      active. */
  lemma ScaledLeakMatchesLabelWindow(rec: LeakRecord, nodes: seq<string>)
    requires LeakOfRecord(rec).Ok? && RecordWindow(rec, nodes).Ok?
    ensures var e := LeakOfRecord(rec).value.event;
      && RecordWindow(rec, nodes).value.start == TimeToIdx(e.start, HydraulicTimeStep, false)
      && RecordWindow(rec, nodes).value.end == TimeToIdx(e.end.value, HydraulicTimeStep, true)
  {
    TimeToIdxOfMultiple(rec.start, HydraulicTimeStep, false);
    TimeToIdxOfMultiple(rec.end, HydraulicTimeStep, true);
  }

  // ---------------------------------------------------------------------------------------
  // `MyUniformUncertainty`

  /** The attributes of a `UniformUncertainty` that the model knows: its `min` and `max`
      properties. Any other name, `low` and `high` among them, raises AttributeError (the
      constructor's keywords are stored under name-mangled private attributes). */
  function UniformAttribute(low: real, high: real, name: string): (r: Result<real>)
    ensures r.Ok? <==> name == "min" || name == "max"
    ensures name == "min" ==> r == Ok(low)
    ensures name == "max" ==> r == Ok(high)
    ensures r.Err? ==> r.error == AttributeError
  {
    if name == "min" then Ok(low) else if name == "max" then Ok(high) else Err(AttributeError)
  }

  /** The noise of `MyUniformUncertainty.apply` for bounds read from attributes: z is the
      data times a draw from [lo, hi], and the result a draw from [data - z, data + z]; u1
      and u2 are the two unit draws. The draw is centred on the data, and zero data or a
      zero noise range leave the data unchanged. */
  function MyUniformNoise(lo: real, hi: real, data: real, u1: real, u2: real): (r: real)
    ensures u2 == 0.5 ==> r == data
    ensures data == 0.0 ==> r == 0.0
    ensures lo == 0.0 && hi == 0.0 ==> r == data
  {
    var z := data * U.UniformDraw(lo, hi, u1);
    U.UniformDraw(data - z, data + z, u2)
  }

  /** `MyUniformUncertainty.apply(data)` as written: it reads `self.low` and `self.high`. */
  function MyUniformApplyAsWritten(low: real, high: real, data: real, u1: real, u2: real)
    : (r: Result<real>)
    ensures UniformAttribute(low, high, "low").Err? ==>
      r == Err(UniformAttribute(low, high, "low").error)
    ensures r.Ok? ==>
      && UniformAttribute(low, high, "low").Ok? && UniformAttribute(low, high, "high").Ok?
      && r.value == MyUniformNoise(UniformAttribute(low, high, "low").value,
                                   UniformAttribute(low, high, "high").value, data, u1, u2)
  {
    match UniformAttribute(low, high, "low")
    case Err(e) => Err(e)
    case Ok(lo) =>
      match UniformAttribute(low, high, "high")
      case Err(e) => Err(e)
      case Ok(hi) => Ok(MyUniformNoise(lo, hi, data, u1, u2))
  }

  /** As written, every call raises AttributeError, whatever the bounds and the data. */
  lemma MyUniformApplyAlwaysFails(low: real, high: real, data: real, u1: real, u2: real)
    ensures MyUniformApplyAsWritten(low, high, data, u1, u2) == Err(AttributeError)
  {
  }

  /** The evidently intended `apply`: the bounds read through the `min` and `max`
      properties. */
  function MyUniformApply(low: real, high: real, data: real, u1: real, u2: real): (r: Result<real>)
    ensures r == Ok(MyUniformNoise(low, high, data, u1, u2))
  {
    match UniformAttribute(low, high, "min")
    case Err(e) => Err(e)
    case Ok(lo) =>
      match UniformAttribute(low, high, "max")
      case Err(e) => Err(e)
      case Ok(hi) => Ok(MyUniformNoise(lo, hi, data, u1, u2))
  }

  /** The intended `apply` perturbs a non-negative value by at most `high` times itself:
      with 0 <= low <= high (the benchmark uses 0 and 0.25) the result lies in
      [data - high·data, data + high·data]. */
  lemma MyUniformApplyInRange(low: real, high: real, data: real, u1: real, u2: real)
    requires 0.0 <= low <= high && 0.0 <= data
    requires 0.0 <= u1 < 1.0 && 0.0 <= u2 < 1.0
    ensures MyUniformApply(low, high, data, u1, u2).Ok?
    ensures var r := MyUniformApply(low, high, data, u1, u2).value;
      data - high * data <= r <= data + high * data
  {
    var c := U.UniformDraw(low, high, u1);
    U.UniformDrawInRange(low, high, u1);
    var z := data * c;
    U.MulNonNegative(data, c);
    U.MulNonNegative(data, high - c);
    assert data * (high - c) == data * high - z;
    assert high * data - z >= 0.0;
    U.UniformDrawInRange(data - z, data + z, u2);
    var r := U.UniformDraw(data - z, data + z, u2);
    assert MyUniformApply(low, high, data, u1, u2).value == r;
    assert data - high * data <= data - z <= r <= data + z <= data + high * data;
  }
}

=== FILE: metrics.dfy ===
/** Count-based metrics of a binary classification: each counts the positions where the
    ground truth and the prediction take given values, then divides once. A division by
    zero gives NaN in numpy; here it is None. The elementwise metrics take one-dimensional
    arrays of ints of the same length; precision and accuracy test whole rows. */
module Metrics {
  import opened Common

  /** The number of positions i with y[i] == a and pred[i] == b: the `np.sum` of the mask
      `(y == a) & (y_pred == b)`. */
  function Count(pred: seq<int>, y: seq<int>, a: int, b: int): (n: nat)
    requires |pred| == |y|
    ensures n <= |y|
    decreases |y|
  {
    if y == [] then 0
    else
      var k := |y| - 1;
      Count(pred[..k], y[..k], a, b) + (if y[k] == a && pred[k] == b then 1 else 0)
  }

  /** The number of positions where prediction and ground truth agree. */
  function Agree(pred: seq<int>, y: seq<int>): (n: nat)
    requires |pred| == |y|
    ensures n <= |y|
    decreases |y|
  {
    if y == [] then 0
    else
      var k := |y| - 1;
      Agree(pred[..k], y[..k]) + (if y[k] == pred[k] then 1 else 0)
  }

  /** `num / den`, None (NaN) when the denominator is 0. */
  function Ratio(num: nat, den: nat): (r: Option<real>)
    ensures r.None? <==> den == 0
    ensures r.Some? && num <= den ==> 0.0 <= r.value <= 1.0
    ensures r.Some? && num == den ==> r.value == 1.0
  {
    if den == 0 then None
    else
      var d := den as real;
      var q := (num as real) / d;
      assert num == den ==> q == d / d;
      Some(q)
  }

  /** `true_positive_rate`: tp / (tp + fn). */
  function TruePositiveRate(pred: seq<int>, y: seq<int>): (r: Option<real>)
    requires |pred| == |y|
    ensures r.Some? ==> 0.0 <= r.value <= 1.0
    ensures r.None? <==> Count(pred, y, 1, 1) + Count(pred, y, 1, 0) == 0
  {
    Ratio(Count(pred, y, 1, 1), Count(pred, y, 1, 1) + Count(pred, y, 1, 0))
  }

  /** `true_negative_rate`: tn / (tn + fp). */
  function TrueNegativeRate(pred: seq<int>, y: seq<int>): (r: Option<real>)
    requires |pred| == |y|
    ensures r.Some? ==> 0.0 <= r.value <= 1.0
    ensures r.None? <==> Count(pred, y, 0, 0) + Count(pred, y, 0, 1) == 0
  {
    Ratio(Count(pred, y, 0, 0), Count(pred, y, 0, 0) + Count(pred, y, 0, 1))
  }

  /** A label array of rows: each row is compared as a whole. */
  predicate SameShape(pred: seq<seq<int>>, y: seq<seq<int>>)
  {
    |pred| == |y| && forall i :: 0 <= i < |y| ==> |pred[i]| == |y[i]|
  }

  /** The three tests a row of `precision_score` and `accuracy_score` is put to. */
  datatype RowTest =
    | Hit         // `np.all((y[i] == 1) & (y_pred[i] == 1))`
    | FalseAlarm  // `np.any((y[i] == 0) & (y_pred[i] == 1))`
    | Right       // `np.all(y[i] == y_pred[i])`

  predicate RowPasses(test: RowTest, p: seq<int>, t: seq<int>)
    requires |p| == |t|
  {
    match test
    case Hit => forall j :: 0 <= j < |t| ==> t[j] == 1 && p[j] == 1
    case FalseAlarm => exists j :: 0 <= j < |t| && t[j] == 0 && p[j] == 1
    case Right => forall j :: 0 <= j < |t| ==> t[j] == p[j]
  }

  /** The number of rows that pass a test: the `np.sum` of the list of row tests. */
  function CountRows(pred: seq<seq<int>>, y: seq<seq<int>>, test: RowTest): (n: nat)
    requires SameShape(pred, y)
    ensures n <= |y|
    decreases |y|
  {
    if y == [] then 0
    else
      var k := |y| - 1;
      CountRows(pred[..k], y[..k], test) + (if RowPasses(test, pred[k], y[k]) then 1 else 0)
  }

  /** `precision_score`: the rows predicted positive and all positive, over those plus the
      rows with any false alarm. */
  function Precision(pred: seq<seq<int>>, y: seq<seq<int>>): (r: Option<real>)
    requires SameShape(pred, y)
    ensures r.Some? ==> 0.0 <= r.value <= 1.0
    ensures r.None? <==> CountRows(pred, y, Hit) + CountRows(pred, y, FalseAlarm) == 0
  {
    var tp, fp := CountRows(pred, y, Hit), CountRows(pred, y, FalseAlarm);
    Ratio(tp, tp + fp)
  }

  /** `accuracy_score`: the fraction of rows predicted right in every entry. */
  function Accuracy(pred: seq<seq<int>>, y: seq<seq<int>>): (r: Option<real>)
    requires SameShape(pred, y)
    ensures r.None? <==> y == []
    ensures r.Some? ==> 0.0 <= r.value <= 1.0
  {
    Ratio(CountRows(pred, y, Right), |y|)
  }

  /** A one-dimensional label array as an array of one-entry rows. */
  function Rows(xs: seq<int>): (r: seq<seq<int>>)
    ensures |r| == |xs| && forall i :: 0 <= i < |xs| ==> r[i] == [xs[i]]
  {
    seq(|xs|, i requires 0 <= i < |xs| => [xs[i]])
  }

  /** On one-dimensional labels the row tests are the elementwise counts: a hit is a true
      positive, a false alarm a false positive, a right row an agreement. */
  lemma {:induction false} RowsOfScalars(pred: seq<int>, y: seq<int>)
    requires |pred| == |y|
    ensures SameShape(Rows(pred), Rows(y))
    ensures CountRows(Rows(pred), Rows(y), Hit) == Count(pred, y, 1, 1)
    ensures CountRows(Rows(pred), Rows(y), FalseAlarm) == Count(pred, y, 0, 1)
    ensures CountRows(Rows(pred), Rows(y), Right) == Agree(pred, y)
    decreases |y|
  {
    if y != [] {
      var k := |y| - 1;
      assert Rows(pred)[..k] == Rows(pred[..k]);
      assert Rows(y)[..k] == Rows(y[..k]);
      RowsOfScalars(pred[..k], y[..k]);
      var p, t := [pred[k]], [y[k]];
      assert p[0] == pred[k] && t[0] == y[k];
      assert RowPasses(Hit, p, t) <==> y[k] == 1 && pred[k] == 1;
      assert RowPasses(FalseAlarm, p, t) <==> y[k] == 0 && pred[k] == 1;
      assert RowPasses(Right, p, t) <==> y[k] == pred[k];
    }
  }

  /** `f1_score`: 2tp / (2tp + fp + fn). */
  function F1(pred: seq<int>, y: seq<int>): (r: Option<real>)
    requires |pred| == |y|
    ensures r.Some? ==> 0.0 <= r.value <= 1.0
    ensures r.None? <==> Count(pred, y, 1, 1) + Count(pred, y, 0, 1) + Count(pred, y, 1, 0) == 0
  {
    var tp, fp, fn := Count(pred, y, 1, 1), Count(pred, y, 0, 1), Count(pred, y, 1, 0);
    Ratio(2 * tp, 2 * tp + fp + fn)
  }

  // ---------------------------------------------------------------------------------------
  // Properties

  /** Swapping prediction and ground truth swaps the roles of a and b. */
  lemma {:induction false} CountSwap(pred: seq<int>, y: seq<int>, a: int, b: int)
    requires |pred| == |y|
    ensures Count(pred, y, a, b) == Count(y, pred, b, a)
    decreases |y|
  {
    if y != [] {
      var k := |y| - 1;
      CountSwap(pred[..k], y[..k], a, b);
    }
  }

  /** A perfect prediction makes no mistakes of either kind and is right everywhere. */
  lemma {:induction false} PerfectCounts(y: seq<int>, a: int, b: int)
    requires a != b
    ensures Count(y, y, a, b) == 0
    ensures Agree(y, y) == |y|
    decreases |y|
  {
    if y != [] {
      PerfectCounts(y[..|y| - 1], a, b);
    }
  }

  /** Some position holds a positive that is counted when the prediction is right. */
  lemma {:induction false} PositiveCounted(y: seq<int>, i: nat)
    requires i < |y| && y[i] == 1
    ensures Count(y, y, 1, 1) > 0
    decreases |y|
  {
    var k := |y| - 1;
    if i < k {
      PositiveCounted(y[..k], i);
    }
  }

  /** A perfect prediction of labels with at least one positive has a true positive rate,
      a precision, an accuracy and an F1-score of 1 (for the accuracy the positive is not
      needed: see `PerfectAccuracy`). */
  lemma PerfectPrediction(y: seq<int>, i: nat)
    requires i < |y| && y[i] == 1
    ensures TruePositiveRate(y, y) == Some(1.0)
    ensures F1(y, y) == Some(1.0)
    ensures SameShape(Rows(y), Rows(y))
    ensures Precision(Rows(y), Rows(y)) == Some(1.0)
    ensures Accuracy(Rows(y), Rows(y)) == Some(1.0)
  {
    RowsOfScalars(y, y);
    PerfectCounts(y, 1, 0);
    PerfectCounts(y, 0, 1);
    PositiveCounted(y, i);
  }

  /** Every row of a perfect prediction is right. */
  lemma {:induction false} PerfectRowsRight(y: seq<seq<int>>)
    ensures SameShape(y, y)
    ensures CountRows(y, y, Right) == |y|
    decreases |y|
  {
    if y != [] {
      PerfectRowsRight(y[..|y| - 1]);
    }
  }

  /** A perfect prediction of any non-empty label array, one- or two-dimensional, has
      accuracy 1. */
  lemma PerfectAccuracy(y: seq<seq<int>>)
    requires |y| > 0
    ensures SameShape(y, y)
    ensures Accuracy(y, y) == Some(1.0)
  {
    PerfectRowsRight(y);
  }

  /** The F1-score does not depend on which argument is the prediction: swapping them
      only exchanges fp and fn. */
  lemma F1Symmetric(pred: seq<int>, y: seq<int>)
    requires |pred| == |y|
    ensures F1(pred, y) == F1(y, pred)
  {
    CountSwap(pred, y, 1, 1);
    CountSwap(pred, y, 0, 1);
    CountSwap(pred, y, 1, 0);
  }

  /** The true positive rate of the prediction is the precision of the ground truth read
      as a prediction of it, and the other way round. */
  lemma RecallIsSwappedPrecision(pred: seq<int>, y: seq<int>)
    requires |pred| == |y|
    ensures SameShape(Rows(y), Rows(pred))
    ensures TruePositiveRate(pred, y) == Precision(Rows(y), Rows(pred))
  {
    RowsOfScalars(y, pred);
    CountSwap(pred, y, 1, 1);
    CountSwap(pred, y, 1, 0);
  }

  /** For 0/1 labels, the four counts split the positions, and the right ones are tp + tn. */
  lemma {:induction false} BinaryCountsPartition(pred: seq<int>, y: seq<int>)
    requires |pred| == |y|
    requires forall i :: 0 <= i < |y| ==> y[i] in {0, 1} && pred[i] in {0, 1}
    ensures Count(pred, y, 1, 1) + Count(pred, y, 0, 0) + Count(pred, y, 0, 1) +
            Count(pred, y, 1, 0) == |y|
    ensures Agree(pred, y) == Count(pred, y, 1, 1) + Count(pred, y, 0, 0)
    decreases |y|
  {
    if y != [] {
      var k := |y| - 1;
      BinaryCountsPartition(pred[..k], y[..k]);
    }
  }

  /** With 0/1 labels and a positive in the ground truth the true positive rate is
      defined; with a negative, the true negative rate is. */
  lemma {:induction false} RatesDefined(pred: seq<int>, y: seq<int>, i: nat)
    requires |pred| == |y| && i < |y|
    requires forall j :: 0 <= j < |y| ==> pred[j] in {0, 1}
    ensures y[i] == 1 ==> TruePositiveRate(pred, y).Some?
    ensures y[i] == 0 ==> TrueNegativeRate(pred, y).Some?
    decreases |y|
  {
    var k := |y| - 1;
    if i < k {
      RatesDefined(pred[..k], y[..k], i);
    }
  }
}

=== FILE: scada_data.dfy ===
/** SCADA data: the raw simulation results of one run together with the sensor
    configuration, the sensor noise and the sensor faults that turn them into the final
    sensor readings. The final readings are computed on demand and cached. */
module ScadaDatas {
  import opened Common
  import opened SensorConfigs
  import U = Uncertainties
  import N = SensorNoises
  import F = SensorFaults

  type Matrix = seq<seq<real>>

  /** Every row has `w` columns. */
  predicate Rect(rows: Matrix, w: nat)
  {
    forall t :: 0 <= t < |rows| ==> |rows[t]| == w
  }

  /** Every row has a column c. */
  predicate HasColumn(rows: Matrix, c: nat)
  {
    forall t :: 0 <= t < |rows| ==> c < |rows[t]|
  }

  /** `rows[:, c]`. */
  function ColumnOf(rows: Matrix, c: nat): (col: seq<real>)
    requires HasColumn(rows, c)
    ensures |col| == |rows| && forall t :: 0 <= t < |rows| ==> col[t] == rows[t][c]
  {
    seq(|rows|, t requires 0 <= t < |rows| => rows[t][c])
  }

  /** `rows[:, c] = col`. */
  function SetColumn(rows: Matrix, c: nat, col: seq<real>): (r: Matrix)
    requires HasColumn(rows, c) && |col| == |rows|
    ensures |r| == |rows| && forall t :: 0 <= t < |rows| ==> |r[t]| == |rows[t]|
    ensures forall t, i :: 0 <= t < |rows| && 0 <= i < |rows[t]| ==>
      r[t][i] == if i == c then col[t] else rows[t][i]
  {
    seq(|rows|, t requires 0 <= t < |rows| => rows[t][c := col[t]])
  }

  /** Writing a column and reading it back are inverse: the column read is the one
      written, and writing back the column just read changes nothing. */
  lemma ColumnRoundTrip(rows: Matrix, c: nat, col: seq<real>)
    requires HasColumn(rows, c) && |col| == |rows|
    ensures HasColumn(SetColumn(rows, c, col), c)
    ensures ColumnOf(SetColumn(rows, c, col), c) == col
    ensures SetColumn(rows, c, ColumnOf(rows, c)) == rows
  {
    var r := SetColumn(rows, c, ColumnOf(rows, c));
    forall t | 0 <= t < |rows| ensures r[t] == rows[t] {
      assert |r[t]| == |rows[t]|;
    }
  }

  // ---------------------------------------------------------------------------------------
  // The fault stage

  /** One fault applied to its column: `rows[:, c] = f.apply(rows[:, c], times)`.
      IndexError for a column the rows do not have, TypeError from a fault without an end
      time (when there is a row to rewrite). */
  function ApplyFault(m: Transcendentals, f: F.SensorFault, c: nat, rows: Matrix, times: seq<int>,
                      z: nat -> real): (r: Result<Matrix>)
    requires |rows| <= |times|
    ensures r.Ok? ==> |r.value| == |rows| && forall t :: 0 <= t < |rows| ==> |r.value[t]| == |rows[t]|
    ensures r.Ok? <==> HasColumn(rows, c) && (f.base.event.end.Some? || |rows| == 0)
  {
    if !HasColumn(rows, c) then Err(IndexError)
    else if f.base.event.end.None? then (if |rows| == 0 then Ok(rows) else Err(TypeError))
    else Ok(SetColumn(rows, c, F.FaultColumn(m, f, ColumnOf(rows, c), times, z)))
  }

  /** The faults applied in list order, fault i to column cols[i] with its own normal draws
      z(i); the first error stops the stage. */
  function ApplyFaults(m: Transcendentals, faults: seq<F.SensorFault>, cols: seq<nat>, rows: Matrix,
                       times: seq<int>, z: nat -> nat -> real): (r: Result<Matrix>)
    requires |cols| == |faults| && |rows| <= |times|
    ensures r.Ok? ==> |r.value| == |rows| && forall t :: 0 <= t < |rows| ==> |r.value[t]| == |rows[t]|
    decreases |faults|
  {
    if faults == [] then Ok(rows)
    else
      var n := |faults| - 1;
      match ApplyFaults(m, faults[..n], cols[..n], rows, times, z)
      case Err(e) => Err(e)
      case Ok(rs) => ApplyFault(m, faults[n], cols[n], rs, times, z(n))
  }

  /** A fault rewrites only its own column: every other column passes through the fault
      stage unchanged, whatever the faults do. */
  lemma {:induction false} FaultsTouchOnlyTheirColumns(m: Transcendentals, faults: seq<F.SensorFault>,
                                                       cols: seq<nat>, rows: Matrix, times: seq<int>,
                                                       z: nat -> nat -> real, t: nat, i: nat)
    requires |cols| == |faults| && |rows| <= |times|
    requires ApplyFaults(m, faults, cols, rows, times, z).Ok?
    requires t < |rows| && i < |rows[t]| && i !in cols
    ensures ApplyFaults(m, faults, cols, rows, times, z).value[t][i] == rows[t][i]
    decreases |faults|
  {
    if faults != [] {
      var n := |faults| - 1;
      assert cols == cols[..n] + [cols[n]];
      FaultsTouchOnlyTheirColumns(m, faults[..n], cols[..n], rows, times, z, t, i);
    }
  }

  /** A fault whose window lies after the last time step leaves its column as it was:
      faults only act from their start time on. */
  lemma LateFaultChangesNothing(m: Transcendentals, f: F.SensorFault, c: nat, rows: Matrix,
                                times: seq<int>, z: nat -> real)
    requires Sound(m) && f.base.event.end.Some? && f.base.event.start < f.base.event.end.value
    requires |rows| <= |times| && HasColumn(rows, c)
    requires forall t :: 0 <= t < |rows| ==> times[t] <= f.base.event.start
    ensures ApplyFault(m, f, c, rows, times, z) == Ok(rows)
  {
    var col := ColumnOf(rows, c);
    forall t | 0 <= t < |rows| ensures F.FaultColumn(m, f, col, times, z)[t] == col[t] {
      F.FaultSparesEarlyRows(m, f, col, times, z, t);
    }
    assert F.FaultColumn(m, f, col, times, z) == col;
    ColumnRoundTrip(rows, c, col);
  }

  // ---------------------------------------------------------------------------------------
  // The fault columns

  /** Every fault targets one of the eight kinds of sensor (the fault constructor checks
      the type code). */
  predicate FaultsTyped(faults: seq<F.SensorFault>)
  {
    forall i :: 0 <= i < |faults| ==> 1 <= faults[i].base.sensorType <= 8
  }

  /** The kind a fault's type code names. */
  function FaultKindOf(f: F.SensorFault): SensorKind
    requires 1 <= f.base.sensorType <= 8
  {
    KindOfCode(f.base.sensorType).value
  }

  /** The fault's sensor is one of the configured sensors of its kind. */
  predicate Configured(s: Sensors, f: F.SensorFault)
    requires 1 <= f.base.sensorType <= 8
  {
    f.base.sensorId in s.Of(FaultKindOf(f))
  }

  /** The column of one fault: the one-keyword query of its kind for its sensor. */
  function FaultColumn(s: Sensors, f: F.SensorFault): (r: Result<nat>)
    requires 1 <= f.base.sensorType <= 8
    ensures r.Ok? <==> Configured(s, f)
    ensures r.Err? ==> r.error == KeyError
  {
    IndexOfSensor(s, FaultKindOf(f), f.base.sensorId)
  }

  /** The query of every fault, in order. */
  function FaultQueries(s: Sensors, faults: seq<F.SensorFault>): (rs: seq<Result<nat>>)
    requires FaultsTyped(faults)
    ensures |rs| == |faults| && forall i :: 0 <= i < |faults| ==> rs[i] == FaultColumn(s, faults[i])
  {
    seq(|faults|, i requires 0 <= i < |faults| => FaultColumn(s, faults[i]))
  }

  /** The column of each fault, in order, as `__init` computes it with the one-keyword
      query of the fault's kind; the first fault whose sensor is not configured raises
      KeyError. So the mapping succeeds exactly when every fault's sensor is configured,
      and then fault i gets the column the query gives for its sensor. */
  function FaultColumns(s: Sensors, faults: seq<F.SensorFault>): (r: Result<seq<nat>>)
    requires FaultsTyped(faults)
    ensures r.Ok? <==> forall i :: 0 <= i < |faults| ==> Configured(s, faults[i])
    ensures r.Ok? ==> (|r.value| == |faults| &&
      forall i :: 0 <= i < |faults| ==> FaultColumn(s, faults[i]) == Ok(r.value[i]))
    ensures r.Err? ==> r.error == KeyError
  {
    var rs := FaultQueries(s, faults);
    if Collect(rs).Ok? then Collect(rs)
    else
      CollectFirstError(rs);
      Collect(rs)
  }

  /** The queries of a prefix of the faults are a prefix of the queries. */
  lemma FaultQueriesPrefix(s: Sensors, faults: seq<F.SensorFault>, i: nat)
    requires FaultsTyped(faults) && i <= |faults|
    ensures FaultsTyped(faults[..i]) && FaultQueries(s, faults[..i]) == FaultQueries(s, faults)[..i]
  {
    assert forall j :: 0 <= j < i ==> faults[..i][j] == faults[j];
  }

  /** The column of fault i lies in the block of the fault's kind, inside the readings
      array, and belongs to the fault's sensor. */
  lemma FaultColumnHoldsItsSensor(s: Sensors, faults: seq<F.SensorFault>, i: nat)
    requires FaultsTyped(faults) && FaultColumns(s, faults).Ok? && i < |faults|
    ensures var k := FaultKindOf(faults[i]);
      var c := FaultColumns(s, faults).value[i];
      BlockStart(s, k) <= c < BlockStart(s, k) + |s.Of(k)| && c < NumColumns(s) &&
      s.Of(k)[c - BlockStart(s, k)] == faults[i].base.sensorId
  {
    var k := FaultKindOf(faults[i]);
    var cs := FaultColumns(s, faults).value;
    assert FaultColumn(s, faults[i]) == Ok(cs[i]);
    var r := IndexOfSensor(s, k, faults[i].base.sensorId);
    assert r == Ok(cs[i]);
    assert BlockStart(s, k) <= cs[i] < BlockStart(s, k) + |s.Of(k)|;
    BlocksTileTheRow(s, k, k);
  }

  // ---------------------------------------------------------------------------------------
  // The noise stage and the whole pipeline

  /** A noise pass that succeeds keeps every row's length (an unbounded noise adds one
      value to the whole row; a bounded one fails on the first row). */
  lemma {:induction false} NoiseKeepsWidths(v: U.Variant, rnd: U.Randomness, b: U.Bounds,
                                            s: U.NoiseState, rows: Matrix)
    requires U.WellFormed(rnd) && U.ValidState(v, s)
    requires U.RunRows(v, rnd, b, s, rows).1.Ok?
    ensures forall t :: 0 <= t < |rows| ==> |U.RunRows(v, rnd, b, s, rows).1.value[t]| == |rows[t]|
    decreases |rows|
  {
    if rows != [] {
      var n := |rows| - 1;
      var (sp, done) := U.RunRows(v, rnd, b, s, rows[..n]);
      NoiseKeepsWidths(v, rnd, b, s, rows[..n]);
      assert forall t :: 0 <= t < n ==> rows[..n][t] == rows[t];
    }
  }

  /** What the noise stage of `get_data` does: nothing without sensor noise, the batch of
      the noise's uncertainty otherwise. */
  datatype NoiseSpec = NoNoise | Noise(variant: U.Variant, rnd: U.Randomness, bounds: U.Bounds)
  {
    ghost predicate Fits(s: U.NoiseState)
    {
      Noise? ==> U.WellFormed(rnd) && U.ValidState(variant, s)
    }
  }

  /** Every raw matrix has `rows` rows: what the constructor checks. */
  predicate RowCounts(raw: Raw, rows: nat)
  {
    forall k :: |raw.Of(k)| == rows
  }

  /** `get_data` as a function of the stored state: the readings selected from the raw
      data (IndexError when a raw array lacks a selected column), then the noise, then the
      faults in list order. Yields the new noise state and the readings. */
  function GetDataSpec(m: Transcendentals, c: Config, raw: Raw, times: seq<int>, ns: NoiseSpec,
                       s: U.NoiseState, faults: seq<F.SensorFault>, cols: seq<nat>,
                       z: nat -> nat -> real): (r: (U.NoiseState, Result<Matrix>))
    requires WellPlaced(c) && RowCounts(raw, |times|) && ns.Fits(s) && |cols| == |faults|
    ensures ns.NoNoise? ==> r.0 == s
    ensures r.1.Ok? ==> Shaped(c, raw, |times|) && |r.1.value| == |times|
  {
    if !Shaped(c, raw, |times|) then (s, Err(IndexError))
    else
      var clean := ComputeReadings(c, raw, |times|);
      var (s', noisy) := match ns
        case NoNoise => (s, Ok(clean))
        case Noise(v, rnd, b) => U.RunRows(v, rnd, b, s, clean);
      match noisy
      case Err(e) => (s', Err(e))
      case Ok(rows) => (s', ApplyFaults(m, faults, cols, rows, times, z))
  }

  /** The readings `get_data` returns have one row per time step and one column per
      configured sensor. */
  lemma GetDataShape(m: Transcendentals, c: Config, raw: Raw, times: seq<int>, ns: NoiseSpec,
                     s: U.NoiseState, faults: seq<F.SensorFault>, cols: seq<nat>,
                     z: nat -> nat -> real)
    requires WellPlaced(c) && RowCounts(raw, |times|) && ns.Fits(s) && |cols| == |faults|
    requires GetDataSpec(m, c, raw, times, ns, s, faults, cols, z).1.Ok?
    ensures Rect(GetDataSpec(m, c, raw, times, ns, s, faults, cols, z).1.value, NumColumns(c.sensors))
  {
    var clean := ComputeReadings(c, raw, |times|);
    if ns.Noise? {
      NoiseKeepsWidths(ns.variant, ns.rnd, ns.bounds, s, clean);
    }
  }

  /** Faults whose end time is set never fail on columns that exist. */
  lemma {:induction false} FaultStageSucceeds(m: Transcendentals, faults: seq<F.SensorFault>,
                                              cols: seq<nat>, rows: Matrix, times: seq<int>,
                                              z: nat -> nat -> real, w: nat)
    requires |cols| == |faults| && |rows| <= |times| && Rect(rows, w)
    requires forall i :: 0 <= i < |faults| ==> faults[i].base.event.end.Some? && cols[i] < w
    ensures ApplyFaults(m, faults, cols, rows, times, z).Ok?
    decreases |faults|
  {
    if faults != [] {
      var n := |faults| - 1;
      FaultStageSucceeds(m, faults[..n], cols[..n], rows, times, z, w);
    }
  }

  /** Without noise and with faults whose end time is set, `get_data` succeeds exactly
      when every raw array holds the columns its sensors select. */
  lemma GetDataWithoutNoiseSucceeds(m: Transcendentals, c: Config, raw: Raw, times: seq<int>,
                                    s: U.NoiseState, faults: seq<F.SensorFault>,
                                    cols: seq<nat>, z: nat -> nat -> real)
    requires WellPlaced(c) && RowCounts(raw, |times|) && |cols| == |faults|
    requires forall i :: 0 <= i < |faults| ==>
      faults[i].base.event.end.Some? && cols[i] < NumColumns(c.sensors)
    ensures GetDataSpec(m, c, raw, times, NoNoise, s, faults, cols, z).1.Ok? <==>
      Shaped(c, raw, |times|)
  {
    if Shaped(c, raw, |times|) {
      FaultStageSucceeds(m, faults, cols, ComputeReadings(c, raw, |times|), times, z,
                         NumColumns(c.sensors));
    }
  }

  /** Without noise, `get_data` is the fault stage applied to the selected raw readings. */
  lemma GetDataWithoutNoise(m: Transcendentals, c: Config, raw: Raw, times: seq<int>,
                            s: U.NoiseState, faults: seq<F.SensorFault>, cols: seq<nat>,
                            z: nat -> nat -> real)
    requires WellPlaced(c) && RowCounts(raw, |times|) && |cols| == |faults|
    ensures !Shaped(c, raw, |times|) ==>
      GetDataSpec(m, c, raw, times, NoNoise, s, faults, cols, z) == (s, Err(IndexError))
    ensures Shaped(c, raw, |times|) ==>
      GetDataSpec(m, c, raw, times, NoNoise, s, faults, cols, z) ==
      (s, ApplyFaults(m, faults, cols, ComputeReadings(c, raw, |times|), times, z))
  {
  }

  /** Column BlockStart(k) + j of row t of r holds the raw reading of the j-th sensor of
      kind k. */
  predicate HoldsRawReading(c: Config, raw: Raw, r: Matrix, k: SensorKind, j: nat, t: nat)
  {
    var idx := RawIndices(Domain(c.net, k), c.sensors.Of(k));
    var i := BlockStart(c.sensors, k) + j;
    idx.Ok? && j < |idx.value| && t < |raw.Of(k)| && idx.value[j] < |raw.Of(k)[t]| &&
    t < |r| && i < |r[t]| && r[t][i] == raw.Of(k)[t][idx.value[j]]
  }

  /** The fault stage keeps the raw reading in every column no fault targets. */
  lemma CleanColumnSurvivesFaults(m: Transcendentals, c: Config, raw: Raw, times: seq<int>,
                                  faults: seq<F.SensorFault>, cols: seq<nat>,
                                  z: nat -> nat -> real, k: SensorKind, j: nat, t: nat)
    requires WellPlaced(c) && Shaped(c, raw, |times|) && |cols| == |faults|
    requires ApplyFaults(m, faults, cols, ComputeReadings(c, raw, |times|), times, z).Ok?
    requires t < |times| && j < |c.sensors.Of(k)| && BlockStart(c.sensors, k) + j !in cols
    ensures HoldsRawReading(c, raw,
      ApplyFaults(m, faults, cols, ComputeReadings(c, raw, |times|), times, z).value, k, j, t)
  {
    var clean := ComputeReadings(c, raw, |times|);
    var i := BlockStart(c.sensors, k) + j;
    CleanColumnHoldsRawReading(c, raw, |times|, k, j, t);
    FaultsTouchOnlyTheirColumns(m, faults, cols, clean, times, z, t, i);
    var out := ApplyFaults(m, faults, cols, clean, times, z).value;
    assert |out| == |clean| && |out[t]| == |clean[t]| && out[t][i] == clean[t][i];
  }

  /** Before the faults, the column of the j-th sensor of kind k holds its raw reading. */
  lemma CleanColumnHoldsRawReading(c: Config, raw: Raw, rows: nat, k: SensorKind, j: nat, t: nat)
    requires WellPlaced(c) && Shaped(c, raw, rows) && t < rows && j < |c.sensors.Of(k)|
    ensures HoldsRawReading(c, raw, ComputeReadings(c, raw, rows), k, j, t)
  {
    ReadingColumn(c, raw, rows, k, j, t);
  }

  /** Without noise, the column of a sensor that no fault targets holds that sensor's raw
      reading at every time step. */
  lemma UnfaultedColumnHoldsRawReading(m: Transcendentals, c: Config, raw: Raw, times: seq<int>,
                                       s: U.NoiseState, faults: seq<F.SensorFault>,
                                       cols: seq<nat>, z: nat -> nat -> real, k: SensorKind,
                                       j: nat, t: nat)
    requires WellPlaced(c) && RowCounts(raw, |times|) && |cols| == |faults|
    requires GetDataSpec(m, c, raw, times, NoNoise, s, faults, cols, z).1.Ok?
    requires t < |times| && j < |c.sensors.Of(k)| && BlockStart(c.sensors, k) + j !in cols
    ensures HoldsRawReading(c, raw, GetDataSpec(m, c, raw, times, NoNoise, s, faults, cols, z).1.value,
                            k, j, t)
  {
    GetDataWithoutNoise(m, c, raw, times, s, faults, cols, z);
    CleanColumnSurvivesFaults(m, c, raw, times, faults, cols, z, k, j, t);
  }

  // ---------------------------------------------------------------------------------------
  // The per-kind selectors

  /** The readings stored by the last `get_data`, with the number of columns of the array
      (an array without rows still has a column count). */
  datatype Readings = Readings(rows: Matrix, width: nat)

  /** `[get_index_of_reading(<kind>=id) for id in ids]`: KeyError at the first id that is
      not a sensor of the kind. */
  function ColumnsOf(s: Sensors, k: SensorKind, ids: seq<string>): (r: Result<seq<nat>>)
    ensures r.Err? ==> r.error == KeyError
    ensures r.Ok? ==> |r.value| == |ids| && forall j :: 0 <= j < |ids| ==>
      IndexOfSensor(s, k, ids[j]) == Ok(r.value[j])
    decreases |ids|
  {
    if ids == [] then Ok([])
    else
      var n := |ids| - 1;
      match ColumnsOf(s, k, ids[..n])
      case Err(e) => Err(e)
      case Ok(cs) =>
        match IndexOfSensor(s, k, ids[n])
        case Err(e) => Err(e)
        case Ok(c) =>
          assert forall j :: 0 <= j < n ==> ids[..n][j] == ids[j];
          Ok(cs + [c])
  }

  /** The columns exist exactly when every id is a sensor of the kind. */
  lemma {:induction false} ColumnsExist(s: Sensors, k: SensorKind, ids: seq<string>)
    ensures ColumnsOf(s, k, ids).Ok? <==> SubsetOf(ids, s.Of(k))
    decreases |ids|
  {
    if ids != [] {
      var n := |ids| - 1;
      ColumnsExist(s, k, ids[..n]);
      assert forall j :: 0 <= j < n ==> ids[..n][j] == ids[j];
      assert SubsetOf(ids, s.Of(k)) <==> SubsetOf(ids[..n], s.Of(k)) && ids[n] in s.Of(k);
    }
  }

  /** `readings[:, cols]`: IndexError when a column is outside the array. */
  function Pick(rd: Readings, cols: seq<nat>): (r: Result<Matrix>)
    requires Rect(rd.rows, rd.width)
    ensures r.Ok? <==> forall j :: 0 <= j < |cols| ==> cols[j] < rd.width
    ensures r.Err? ==> r.error == IndexError
    ensures r.Ok? ==> Rect(r.value, |cols|) && |r.value| == |rd.rows|
    ensures r.Ok? ==>
      forall t, j :: 0 <= t < |rd.rows| && 0 <= j < |cols| ==> r.value[t][j] == rd.rows[t][cols[j]]
  {
    if exists j :: 0 <= j < |cols| && cols[j] >= rd.width then Err(IndexError)
    else Ok(seq(|rd.rows|, t requires 0 <= t < |rd.rows| =>
                seq(|cols|, j requires 0 <= j < |cols| => rd.rows[t][cols[j]])))
  }

  /** The location check of a selector: ValueError when no sensor of the kind is set,
      TypeError for locations that are not a list, ValueError for a location outside
      `allowed`; no locations means all sensors of the kind. */
  function Locations(configured: seq<string>, allowed: seq<string>,
                     locations: Option<Obj<seq<string>>>): (r: Result<seq<string>>)
    ensures configured == [] ==> r == Err(ValueError)
    ensures r.Ok? <==> (configured != [] &&
      (locations.None? || (locations.value.Instance? && SubsetOf(locations.value.obj, allowed))))
    ensures r.Ok? ==> r.value == if locations.None? then configured else locations.value.obj
    ensures r.Err? && configured != [] && locations.Some? && locations.value.Foreign? ==>
      r.error == TypeError
  {
    if configured == [] then Err(ValueError)
    else
      match locations
      case None => Ok(configured)
      case Some(Foreign) => Err(TypeError)
      case Some(Instance(ids)) => if SubsetOf(ids, allowed) then Ok(ids) else Err(ValueError)
  }

  /** The ids a selector accepts, as written: the tank level selector checks the requested
      ids against the flow sensors. */
  function AllowedAsWritten(s: Sensors, k: SensorKind): (r: seq<string>)
    ensures r == s.Of(k) <==> k != TankLevel || s.Of(Flow) == s.Of(TankLevel)
  {
    if k == TankLevel then s.Of(Flow) else s.Of(k)
  }

  /** A selector on stored readings: the location check against `allowed`, the column of
      every requested id, then those columns in the requested order. */
  function SelectFrom(s: Sensors, k: SensorKind, allowed: seq<string>,
                      locations: Option<Obj<seq<string>>>, rd: Readings): (r: Result<Matrix>)
    requires Rect(rd.rows, rd.width)
    ensures Locations(s.Of(k), allowed, locations).Err? ==>
      r == Err(Locations(s.Of(k), allowed, locations).error)
    ensures r.Ok? ==> Locations(s.Of(k), allowed, locations).Ok?
    ensures r.Ok? ==> (var ids := Locations(s.Of(k), allowed, locations).value;
      Rect(r.value, |ids|) && |r.value| == |rd.rows| &&
      forall t, j :: 0 <= t < |rd.rows| && 0 <= j < |ids| ==>
        IndexOfSensor(s, k, ids[j]).Ok? && IndexOfSensor(s, k, ids[j]).value < rd.width &&
        r.value[t][j] == rd.rows[t][IndexOfSensor(s, k, ids[j]).value])
  {
    match Locations(s.Of(k), allowed, locations)
    case Err(e) => Err(e)
    case Ok(ids) =>
      match ColumnsOf(s, k, ids)
      case Err(e) => Err(e)
      case Ok(cols) => Pick(rd, cols)
  }

  /** A selector checks the requested ids against its own kind's sensors: on readings of
      the configured width, it fails only in the location check, and column j of its
      result is the reading of the j-th requested sensor. */
  lemma SelectorPicksRequestedSensors(s: Sensors, k: SensorKind, locations: Option<Obj<seq<string>>>,
                                      rd: Readings)
    requires Rect(rd.rows, rd.width) && rd.width == NumColumns(s)
    ensures var r := SelectFrom(s, k, s.Of(k), locations, rd);
      r.Err? <==> Locations(s.Of(k), s.Of(k), locations).Err?
    ensures var r := SelectFrom(s, k, s.Of(k), locations, rd);
      var ids := Locations(s.Of(k), s.Of(k), locations);
      r.Ok? ==> |r.value| == |rd.rows| && forall t, j :: 0 <= t < |rd.rows| && 0 <= j < |ids.value| ==>
        IndexOfSensor(s, k, ids.value[j]).Ok? && j < |r.value[t]| &&
        r.value[t][j] == rd.rows[t][IndexOfSensor(s, k, ids.value[j]).value]
  {
    var ids := Locations(s.Of(k), s.Of(k), locations);
    if ids.Ok? {
      ColumnsExist(s, k, ids.value);
      var cols := ColumnsOf(s, k, ids.value);
      BlocksTileTheRow(s, k, k);
      assert forall j :: 0 <= j < |ids.value| ==> cols.value[j] < rd.width;
      assert Pick(rd, cols.value).Ok?;
      assert SelectFrom(s, k, s.Of(k), locations, rd) == Pick(rd, cols.value);
    }
  }

  /** A selection that succeeded with the columns base, ..., base + n - 1 of every row. */
  predicate PicksBlock(r: Result<Matrix>, rd: Readings, base: nat, n: nat)
  {
    r.Ok? && Rect(r.value, n) && |r.value| == |rd.rows| &&
    forall t, j :: 0 <= t < |rd.rows| && 0 <= j < n ==>
      base + j < |rd.rows[t]| && r.value[t][j] == rd.rows[t][base + j]
  }

  /** Picking a run of consecutive columns base, base + 1, ... copies that block of each row. */
  lemma PickBlock(rd: Readings, cols: seq<nat>, base: nat)
    requires Rect(rd.rows, rd.width) && base + |cols| <= rd.width
    requires forall j :: 0 <= j < |cols| ==> cols[j] == base + j
    ensures PicksBlock(Pick(rd, cols), rd, base, |cols|)
  {
  }

  /** Without locations a selector returns the columns of all sensors of its kind, in
      configuration order (ids of the kind being distinct). */
  lemma SelectorDefaultsToAllSensors(s: Sensors, k: SensorKind, rd: Readings)
    requires Rect(rd.rows, rd.width) && rd.width == NumColumns(s) && s.Of(k) != []
    requires forall a, b :: 0 <= a < b < |s.Of(k)| ==> s.Of(k)[a] != s.Of(k)[b]
    ensures PicksBlock(SelectFrom(s, k, s.Of(k), None, rd), rd, BlockStart(s, k), |s.Of(k)|)
  {
    var ids := s.Of(k);
    var base := BlockStart(s, k);
    assert Locations(ids, ids, None) == Ok(ids);
    ColumnsExist(s, k, ids);
    var cols := ColumnsOf(s, k, ids).value;
    forall j | 0 <= j < |cols| ensures cols[j] == base + j {
      IndexOfDistinctId(s, k, j);
    }
    BlocksTileTheRow(s, k, k);
    PickBlock(rd, cols, base);
    assert SelectFrom(s, k, ids, None, rd) == Pick(rd, cols);
  }

  /** As written, the tank level selector rejects a tank level sensor that is not also a
      flow sensor, and lets a flow sensor through to the index lookup, which raises
      KeyError; checked against the tank level sensors, the same requests give the tank's
      readings and a ValueError. */
  lemma TankSelectorAsWritten(rd: Readings)
    requires Rect(rd.rows, rd.width)
    requires rd.width == NumColumns(NoSensors.(flow := ["p1"], tankLevel := ["t1"]))
    ensures var s := NoSensors.(flow := ["p1"], tankLevel := ["t1"]);
      SelectFrom(s, TankLevel, AllowedAsWritten(s, TankLevel), Some(Instance(["t1"])), rd) == Err(ValueError) &&
      SelectFrom(s, TankLevel, AllowedAsWritten(s, TankLevel), Some(Instance(["p1"])), rd) == Err(KeyError) &&
      SelectFrom(s, TankLevel, s.Of(TankLevel), Some(Instance(["t1"])), rd).Ok? &&
      SelectFrom(s, TankLevel, s.Of(TankLevel), Some(Instance(["p1"])), rd) == Err(ValueError)
  {
    var s := NoSensors.(flow := ["p1"], tankLevel := ["t1"]);
    assert "p1" != "t1";
    SelectorPicksRequestedSensors(s, TankLevel, Some(Instance(["t1"])), rd);
  }

  // ---------------------------------------------------------------------------------------
  // Stopping at the first failing fault

  /** Once a prefix of the fault stage fails, the whole stage fails the same way. */
  lemma {:induction false} ApplyFaultsStopAtError(m: Transcendentals, faults: seq<F.SensorFault>,
                                                  cols: seq<nat>, rows: Matrix, times: seq<int>,
                                                  z: nat -> nat -> real, k: nat)
    requires |cols| == |faults| && |rows| <= |times| && k <= |faults|
    requires ApplyFaults(m, faults[..k], cols[..k], rows, times, z).Err?
    ensures ApplyFaults(m, faults, cols, rows, times, z) ==
      ApplyFaults(m, faults[..k], cols[..k], rows, times, z)
    decreases |faults| - k
  {
    if k < |faults| {
      assert faults[..k + 1][..k] == faults[..k];
      assert cols[..k + 1][..k] == cols[..k];
      ApplyFaultsStopAtError(m, faults, cols, rows, times, z, k + 1);
    } else {
      assert faults[..k] == faults && cols[..k] == cols;
    }
  }

  // ---------------------------------------------------------------------------------------
  // The SCADA data object

  /** The noise stage of an optional sensor noise. */
  function NoiseSpecOf(noise: Option<N.SensorNoise>): NoiseSpec
  {
    if noise.None? then NoNoise
    else Noise(noise.value.uncertainty.variant, noise.value.uncertainty.rnd,
               noise.value.uncertainty.bounds)
  }

  /** The generator state of an optional sensor noise (a placeholder without one). */
  function NoiseStateOf(noise: Option<N.SensorNoise>): U.NoiseState
    reads if noise.Some? then {noise.value.uncertainty} else {}
  {
    if noise.None? then U.NoiseState([], 0, 0) else noise.value.uncertainty.State()
  }

  /** `np.concatenate((a, b), axis=0)` for the raw matrix of every kind. */
  function JoinRaw(a: Raw, b: Raw): (r: Raw)
    ensures forall k :: r.Of(k) == a.Of(k) + b.Of(k)
  {
    Raw(a.pressures + b.pressures, a.flows + b.flows, a.demands + b.demands,
        a.nodesQuality + b.nodesQuality, a.linksQuality + b.linksQuality,
        a.pumpsState + b.pumpsState, a.valvesState + b.valvesState, a.tanksLevel + b.tanksLevel)
  }

  /** Joining stacks the rows of every kind: the first object's rows come first, then the
      other's, so the row counts add up. */
  lemma JoinStacksRows(a: Raw, b: Raw, n: nat, n': nat, k: SensorKind)
    requires RowCounts(a, n) && RowCounts(b, n')
    ensures RowCounts(JoinRaw(a, b), n + n')
    ensures JoinRaw(a, b).Of(k)[..n] == a.Of(k) && JoinRaw(a, b).Of(k)[n..] == b.Of(k)
  {
    forall k' ensures |JoinRaw(a, b).Of(k')| == n + n' {
      assert |a.Of(k')| == n && |b.Of(k')| == n';
    }
    assert JoinRaw(a, b).Of(k) == a.Of(k) + b.Of(k);
  }

  /** The raw matrices in the parameter order of the constructor. */
  function RawOf(arrays: seq<Matrix>): Raw
    requires |arrays| == 8
  {
    Raw(arrays[0], arrays[1], arrays[2], arrays[3], arrays[4], arrays[5], arrays[6], arrays[7])
  }

  /** Every element of a list is an instance of the expected class. */
  predicate AllInstances<T>(xs: seq<Obj<T>>)
  {
    forall i :: 0 <= i < |xs| ==> xs[i].Instance?
  }

  /** The instances of such a list. */
  function Unwrap<T>(xs: seq<Obj<T>>): (ys: seq<T>)
    requires AllInstances(xs)
    ensures |ys| == |xs| && forall i :: 0 <= i < |xs| ==> xs[i] == Instance(ys[i])
  {
    seq(|xs|, i requires 0 <= i < |xs| => xs[i].obj)
  }

  /** A list of validated faults: each names one of the eight kinds. */
  predicate TypedObjects(fs: seq<Obj<F.SensorFault>>)
  {
    forall i :: 0 <= i < |fs| ==> fs[i].Instance? ==> 1 <= fs[i].obj.base.sensorType <= 8
  }

  /** Python's `isinstance` checks of the constructor, in its order: the configuration,
      the eight raw arrays, the time vector, the fault list and its elements, and the
      noise, which may be None. */
  predicate ArgumentsTyped(config: Obj<SensorConfig>, arrays: seq<Obj<Matrix>>,
                           time: Obj<seq<int>>, faults: Obj<seq<Obj<F.SensorFault>>>,
                           noise: Option<Obj<N.SensorNoise>>)
  {
    config.Instance? && AllInstances(arrays) && time.Instance? && faults.Instance? &&
    AllInstances(faults.obj) && (noise.Some? ==> noise.value.Instance?)
  }

  /** One step of the loop of `__init`: the one-keyword query for fault i, which extends
      the columns mapped so far when it succeeds. */
  method MapNextFault(s: Sensors, faults: seq<F.SensorFault>, i: nat, cols: seq<nat>)
    returns (q: Result<nat>)
    requires FaultsTyped(faults) && i < |faults|
    requires Collect(FaultQueries(s, faults)[..i]) == Ok(cols)
    ensures q == FaultColumn(s, faults[i])
    ensures q.Ok? ==> Collect(FaultQueries(s, faults)[..i + 1]) == Ok(cols + [q.value])
  {
    var k := FaultKindOf(faults[i]);
    var id := faults[i].base.sensorId;
    q := GetIndexOfReading(s, map[k := id]);
    SingleKeywordQuery(s, k, id);
    CollectStep(FaultQueries(s, faults), i, cols);
  }

  /** The loop of `__init`: each fault's column by the one-keyword query of its kind,
      stopping with KeyError at the first fault whose sensor is not configured (the
      columns mapped before it are kept). */
  method MapFaults(s: Sensors, faults: seq<F.SensorFault>) returns (cols: seq<nat>, r: Result<()>)
    requires FaultsTyped(faults)
    ensures r.Ok? <==> FaultColumns(s, faults).Ok?
    ensures r.Ok? ==> cols == FaultColumns(s, faults).value
    ensures r.Err? ==> r.error == KeyError && |cols| < |faults|
    ensures r.Err? ==> FaultColumns(s, faults[..|cols|]) == Ok(cols) && !Configured(s, faults[|cols|])
  {
    ghost var rs := FaultQueries(s, faults);
    cols := [];
    var i := 0;
    while i < |faults|
      invariant i <= |faults| && |cols| == i
      invariant Collect(rs[..i]) == Ok(cols)
    {
      var q := MapNextFault(s, faults, i, cols);
      match q {
        case Err(e) =>
          FaultQueriesPrefix(s, faults, i);
          return cols, Err(e);
        case Ok(c) =>
          cols := cols + [c];
          i := i + 1;
      }
    }
    assert rs[..i] == rs;
    r := Ok(());
  }

  /** The fault loop of `get_data`: for each fault, its column copied out, rewritten in
      place by the fault's `apply` and written back. */
  method RunFaults(m: Transcendentals, faults: seq<F.SensorFault>, cols: seq<nat>, rows: Matrix,
                   times: seq<int>, z: nat -> nat -> real) returns (r: Result<Matrix>)
    requires |cols| == |faults| && |rows| <= |times|
    ensures r == ApplyFaults(m, faults, cols, rows, times, z)
  {
    var cur := rows;
    for i := 0 to |cols|
      invariant |cur| == |rows|
      invariant ApplyFaults(m, faults[..i], cols[..i], rows, times, z) == Ok(cur)
    {
      assert faults[..i + 1][..i] == faults[..i] && cols[..i + 1][..i] == cols[..i];
      if !HasColumn(cur, cols[i]) {
        ApplyFaultsStopAtError(m, faults, cols, rows, times, z, i + 1);
        return Err(IndexError);
      }
      var before := ColumnOf(cur, cols[i]);
      var col := new real[|before|](t requires 0 <= t < |before| => before[t]);
      assert col[..] == before;
      var fr := F.Apply(m, faults[i], col, times, z(i));
      if fr.Err? {
        ApplyFaultsStopAtError(m, faults, cols, rows, times, z, i + 1);
        return Err(fr.error);
      }
      cur := SetColumn(cur, cols[i], col[..]);
    }
    assert faults[..|cols|] == faults && cols[..|cols|] == cols;
    r := Ok(cur);
  }

  /** A `ScadaData` object. The sensor configuration is held as a value; the sensor noise
      is the object the caller passed. `faultCols` is what `__init` mapped: the columns of
      the first |faultCols| faults (all of them unless a KeyError stopped the mapping).
      `cache` holds the readings of the last `get_data`. */
  class ScadaData {
    var config: Config
    var noise: Option<N.SensorNoise>
    var faults: seq<F.SensorFault>
    var raw: Raw
    var time: seq<int>
    var faultCols: seq<nat>
    var cache: Option<Readings>

    /** The objects of the sensor noise. */
    ghost function NoiseRepr(): set<object>
      reads this
    {
      if noise.Some? then {noise.value, noise.value.uncertainty} else {}
    }

    /** What the constructor checked, kept by every operation: a valid configuration,
        one row of every raw matrix per time step, validated faults and noise, and a
        cache of rectangular readings. */
    ghost predicate Stored()
      reads this, NoiseRepr()
    {
      WellPlaced(config) && RowCounts(raw, |time|) && FaultsTyped(faults) &&
      (noise.Some? ==> noise.value.Valid()) &&
      (cache.Some? ==> Rect(cache.value.rows, cache.value.width))
    }

    ghost predicate Valid()
      reads this, NoiseRepr()
    {
      Stored() && |faultCols| <= |faults| &&
      FaultColumns(config.sensors, faults[..|faultCols|]) == Ok(faultCols)
    }

    /** The outcome of `__init`: the fault columns are all mapped and the cache cleared, or
        the first fault whose sensor is not configured raised KeyError, with the faults
        before it mapped and the cache left as it was. */
    ghost predicate Mapped(r: Result<()>, oldCache: Option<Readings>)
      reads this
    {
      FaultsTyped(faults) &&
      (r.Ok? <==> FaultColumns(config.sensors, faults).Ok?) &&
      (r.Ok? ==> faultCols == FaultColumns(config.sensors, faults).value && cache == None) &&
      (r.Err? ==> r.error == KeyError && cache == oldCache && |faultCols| < |faults| &&
                  !Configured(config.sensors, faults[|faultCols|]))
    }

    /** The fields as the constructor stores them, before `__init`. */
    constructor Store(config: Config, noise: Option<N.SensorNoise>, faults: seq<F.SensorFault>,
                      raw: Raw, time: seq<int>)
      requires WellPlaced(config) && RowCounts(raw, |time|) && FaultsTyped(faults)
      requires noise.Some? ==> noise.value.Valid()
      ensures Valid()
      ensures this.config == config && this.noise == noise && this.faults == faults
      ensures this.raw == raw && this.time == time && faultCols == [] && cache == None
    {
      this.config := config;
      this.noise := noise;
      this.faults := faults;
      this.raw := raw;
      this.time := time;
      faultCols := [];
      cache := None;
    }

    /** `__init`: the column of every fault, in order, from the one-keyword query of the
        fault's kind; the cache is cleared once every fault is mapped. */
    method Init() returns (r: Result<()>)
      requires Stored()
      modifies this
      ensures Valid() && Mapped(r, old(cache))
      ensures config == old(config) && noise == old(noise) && faults == old(faults)
      ensures raw == old(raw) && time == old(time)
    {
      var cols;
      cols, r := MapFaults(config.sensors, faults);
      faultCols := cols;
      if r.Ok? {
        assert faults[..|faultCols|] == faults;
        cache := None;
      }
    }

    /** `ScadaData(...)`: TypeError when an argument has the wrong class, ValueError
        ("Shape mismatch detected") when a raw matrix does not have one row per time step,
        then the fault mapping of `__init`, whose KeyError the constructor passes on. */
    static method Create(config: Obj<SensorConfig>, arrays: seq<Obj<Matrix>>, time: Obj<seq<int>>,
                         faults: Obj<seq<Obj<F.SensorFault>>>, noise: Option<Obj<N.SensorNoise>>)
      returns (r: Result<ScadaData>)
      requires |arrays| == 8
      requires config.Instance? ==> config.obj.Valid()
      requires faults.Instance? ==> TypedObjects(faults.obj)
      requires noise.Some? && noise.value.Instance? ==> noise.value.obj.Valid()
      ensures !ArgumentsTyped(config, arrays, time, faults, noise) ==> r == Err(TypeError)
      ensures ArgumentsTyped(config, arrays, time, faults, noise) ==>
        (!RowCounts(RawOf(Unwrap(arrays)), |time.obj|) ==> r == Err(ValueError))
      ensures ArgumentsTyped(config, arrays, time, faults, noise) ==>
        (RowCounts(RawOf(Unwrap(arrays)), |time.obj|) ==>
          FaultsTyped(Unwrap(faults.obj)) &&
          (r.Ok? <==> FaultColumns(config.obj.sensors, Unwrap(faults.obj)).Ok?) &&
          (r.Err? ==> r.error == KeyError))
      ensures r.Ok? ==>
        fresh(r.value) && r.value.Valid() && r.value.Mapped(Ok(()), None) &&
        r.value.config == config.obj.AsConfig() && r.value.faults == Unwrap(faults.obj) &&
        r.value.raw == RawOf(Unwrap(arrays)) && r.value.time == time.obj &&
        r.value.noise == (if noise.Some? then Some(noise.value.obj) else None)
    {
      if !ArgumentsTyped(config, arrays, time, faults, noise) {
        return Err(TypeError);
      }
      var raw := RawOf(Unwrap(arrays));
      if !RowCounts(raw, |time.obj|) {
        return Err(ValueError);
      }
      var fs := Unwrap(faults.obj);
      assert FaultsTyped(fs) by {
        forall i | 0 <= i < |fs| ensures 1 <= fs[i].base.sensorType <= 8 {
          assert faults.obj[i] == Instance(fs[i]);
        }
      }
      var n := if noise.Some? then Some(noise.value.obj) else None;
      var d := new ScadaData.Store(config.obj.AsConfig(), n, fs, raw, time.obj);
      var init := d.Init();
      if init.Err? {
        return Err(init.error);
      }
      r := Ok(d);
    }

    /** `get_data()`: the readings selected from the raw data, the noise, then each mapped
        fault rewriting its column through the fault's in-place `apply`; the result is
        cached. It computes `GetDataSpec` and advances the noise generator accordingly. */
    method GetData(m: Transcendentals, z: nat -> nat -> real) returns (r: Result<Matrix>)
      requires Valid()
      modifies this, NoiseRepr()
      ensures Valid()
      ensures config == old(config) && noise == old(noise) && faults == old(faults)
      ensures raw == old(raw) && time == old(time) && faultCols == old(faultCols)
      ensures (NoiseStateOf(noise), r) ==
        GetDataSpec(m, config, raw, time, NoiseSpecOf(noise), old(NoiseStateOf(noise)),
                    faults[..|faultCols|], faultCols, z)
      ensures r.Ok? ==> cache == Some(Readings(r.value, NumColumns(config.sensors)))
      ensures r.Err? ==> cache == old(cache)
    {
      if !Shaped(config, raw, |time|) {
        return Err(IndexError);
      }
      var clean := ComputeReadings(config, raw, |time|);
      var rows := clean;
      if noise.Some? {
        var nr := noise.value.Apply(clean);
        if nr.Err? {
          return Err(nr.error);
        }
        rows := nr.value;
      }
      var cs := faultCols;
      var fs := faults[..|faultCols|];
      r := RunFaults(m, fs, cs, rows, time, z);
      if r.Err? {
        return;
      }
      rows := r.value;
      GetDataShape(m, config, raw, time, NoiseSpecOf(noise), old(NoiseStateOf(noise)), fs, cs, z);
      cache := Some(Readings(rows, NumColumns(config.sensors)));
      r := Ok(rows);
    }

    /** What a selector obtains from `get_data`, given the cache and the noise generator
        state s before the call: the cached readings as they are, with s unchanged; or
        the readings `get_data` computes from s, with the state it leaves. */
    ghost function Fetch(m: Transcendentals, z: nat -> nat -> real, oldCache: Option<Readings>,
                         s: U.NoiseState): (f: (U.NoiseState, Result<Readings>))
      reads this, NoiseRepr()
      requires Valid() && NoiseSpecOf(noise).Fits(s)
      requires oldCache.Some? ==> Rect(oldCache.value.rows, oldCache.value.width)
      ensures f.1.Ok? ==> Rect(f.1.value.rows, f.1.value.width)
    {
      if oldCache.Some? then (s, Ok(oldCache.value))
      else
        var fs := faults[..|faultCols|];
        var d := GetDataSpec(m, config, raw, time, NoiseSpecOf(noise), s, fs, faultCols, z);
        match d.1
        case Err(e) => (d.0, Err(e))
        case Ok(rows) =>
          GetDataShape(m, config, raw, time, NoiseSpecOf(noise), s, fs, faultCols, z);
          (d.0, Ok(Readings(rows, NumColumns(config.sensors))))
    }

    /** The readings `get_data` leaves in the cache: the cached ones when there are any;
        otherwise `get_data` runs, and its readings, when it succeeds, are cached. */
    method CachedReadings(m: Transcendentals, z: nat -> nat -> real) returns (r: Result<Readings>)
      requires Valid()
      modifies this, NoiseRepr()
      ensures Valid()
      ensures config == old(config) && noise == old(noise) && faults == old(faults)
      ensures raw == old(raw) && time == old(time) && faultCols == old(faultCols)
      ensures (NoiseStateOf(noise), r) == Fetch(m, z, old(cache), old(NoiseStateOf(noise)))
      ensures cache == if r.Ok? then Some(r.value) else old(cache)
    {
      if cache.Some? {
        return Ok(cache.value);
      }
      var d := GetData(m, z);
      if d.Err? {
        return Err(d.error);
      }
      r := Ok(cache.value);
    }

    /** A `get_data_<kind>(sensor_locations)` selector: the location check against the
        kind's own sensors, `get_data` when nothing is cached, then the columns of the
        requested sensors taken from the cached readings, in the requested order. A failed
        location check changes nothing. */
    method GetDataOf(k: SensorKind, locations: Option<Obj<seq<string>>>, m: Transcendentals,
                     z: nat -> nat -> real) returns (r: Result<Matrix>)
      requires Valid()
      modifies this, NoiseRepr()
      ensures Valid()
      ensures config == old(config) && noise == old(noise) && faults == old(faults)
      ensures raw == old(raw) && time == old(time) && faultCols == old(faultCols)
      ensures var ids := Locations(config.sensors.Of(k), config.sensors.Of(k), locations);
        ids.Err? ==> r == Err(ids.error) && cache == old(cache) &&
                     NoiseStateOf(noise) == old(NoiseStateOf(noise))
      ensures var ids := Locations(config.sensors.Of(k), config.sensors.Of(k), locations);
        var f := Fetch(m, z, old(cache), old(NoiseStateOf(noise)));
        ids.Ok? ==>
          && NoiseStateOf(noise) == f.0
          && cache == (if f.1.Ok? then Some(f.1.value) else old(cache))
          && r == match f.1
               case Err(e) => Err(e)
               case Ok(rd) => SelectFrom(config.sensors, k, config.sensors.Of(k), locations, rd)
    {
      var own := config.sensors.Of(k);
      var ids := Locations(own, own, locations);
      if ids.Err? {
        r := Err(ids.error);
      } else {
        var rd := CachedReadings(m, z);
        r := match rd
          case Err(e) => Err(e)
          case Ok(readings) =>
            match ColumnsOf(config.sensors, k, ids.value)
            case Err(e) => Err(e)
            case Ok(cols) => Pick(readings, cols);
      }
    }

    /** `change_sensor_config(sensor_config)`: TypeError for an object that is not a
        sensor configuration; otherwise the configuration is replaced and `__init` rerun. */
    method ChangeSensorConfig(c: Obj<SensorConfig>) returns (r: Result<()>)
      requires Valid() && (c.Instance? ==> c.obj.Valid())
      modifies this
      ensures Valid()
      ensures noise == old(noise) && faults == old(faults) && raw == old(raw) && time == old(time)
      ensures c.Foreign? ==>
        r == Err(TypeError) && config == old(config) && faultCols == old(faultCols) &&
        cache == old(cache)
      ensures c.Instance? ==> config == c.obj.AsConfig() && Mapped(r, old(cache))
    {
      if c.Foreign? {
        return Err(TypeError);
      }
      config := c.obj.AsConfig();
      r := Init();
    }

    /** `change_sensor_noise(sensor_noise)`: TypeError for anything but a sensor noise
        (None included); otherwise the noise is replaced and `__init` rerun. */
    method ChangeSensorNoise(n: Obj<N.SensorNoise>) returns (r: Result<()>)
      requires Valid() && (n.Instance? ==> n.obj.Valid())
      modifies this
      ensures Valid()
      ensures config == old(config) && faults == old(faults) && raw == old(raw) && time == old(time)
      ensures n.Foreign? ==>
        r == Err(TypeError) && noise == old(noise) && faultCols == old(faultCols) &&
        cache == old(cache)
      ensures n.Instance? ==> noise == Some(n.obj) && Mapped(r, old(cache))
    {
      if n.Foreign? {
        return Err(TypeError);
      }
      noise := Some(n.obj);
      r := Init();
    }

    /** `change_sensor_faults(sensor_faults)`: TypeError when an element is not a sensor
        fault; otherwise the faults are replaced and `__init` rerun. */
    method ChangeSensorFaults(fs: seq<Obj<F.SensorFault>>) returns (r: Result<()>)
      requires Valid() && TypedObjects(fs)
      modifies this
      ensures Valid()
      ensures config == old(config) && noise == old(noise) && raw == old(raw) && time == old(time)
      ensures !AllInstances(fs) ==>
        r == Err(TypeError) && faults == old(faults) && faultCols == old(faultCols) &&
        cache == old(cache)
      ensures AllInstances(fs) ==> faults == Unwrap(fs) && Mapped(r, old(cache))
    {
      if !AllInstances(fs) {
        return Err(TypeError);
      }
      var ys := Unwrap(fs);
      assert FaultsTyped(ys) by {
        forall i | 0 <= i < |ys| ensures 1 <= ys[i].base.sensorType <= 8 {
          assert fs[i] == Instance(ys[i]);
        }
      }
      faults := ys;
      r := Init();
    }

    /** `join(other)`: TypeError for an object that is not SCADA data, ValueError for a
        different sensor configuration; otherwise every raw matrix and the time vector get
        the other's rows appended. The fault columns and the cache are left as they were,
        so cached readings keep the old row count. */
    method Join(other: Obj<ScadaData>) returns (r: Result<()>)
      requires Valid() && (other.Instance? ==> other.obj.Valid())
      modifies this
      ensures Valid()
      ensures config == old(config) && noise == old(noise) && faults == old(faults)
      ensures faultCols == old(faultCols) && cache == old(cache)
      ensures r.Ok? <==> other.Instance? && old(other.obj.config) == config
      ensures other.Foreign? ==> r == Err(TypeError)
      ensures other.Instance? && old(other.obj.config) != config ==> r == Err(ValueError)
      ensures r.Err? ==> raw == old(raw) && time == old(time)
      ensures r.Ok? ==>
        raw == JoinRaw(old(raw), old(other.obj.raw)) && time == old(time) + old(other.obj.time)
    {
      if other.Foreign? {
        return Err(TypeError);
      }
      if config != other.obj.config {
        return Err(ValueError);
      }
      var otherRaw, otherTime := other.obj.raw, other.obj.time;
      JoinStacksRows(raw, otherRaw, |time|, |otherTime|, Pressure);
      raw := JoinRaw(raw, otherRaw);
      time := time + otherTime;
      r := Ok(());
    }

    /** What `__eq__` compares. */
    function Snap(): Snapshot
      reads this
    {
      Snapshot(config, noise, faults, raw, time)
    }

    /** `self == other`, with the demand data compared against the other's: reading
        `other.sensor_config` from an object that is not SCADA data raises AttributeError;
        equal objects have the same configuration, raw data and times. */
    function Equals(other: Obj<ScadaData>): (r: Result<bool>)
      reads this, if other.Instance? then {other.obj} else {}
      ensures other.Foreign? ==> r == Err(AttributeError)
      ensures r == Ok(true) ==>
        other.Instance? && config == other.obj.config && raw == other.obj.raw &&
        time == other.obj.time && |faults| == |other.obj.faults|
    {
      if other.Foreign? then Err(AttributeError)
      else
        SnapshotEqualsMeansSame(Snap(), other.obj.Snap());
        SnapshotEquals(Snap(), other.obj.Snap())
    }
  }

  // ---------------------------------------------------------------------------------------
  // Equality

  /** The fields `__eq__` compares. */
  datatype Snapshot = Snapshot(config: Config, noise: Option<N.SensorNoise>,
                               faults: seq<F.SensorFault>, raw: Raw, time: seq<int>)

  /** `self.__sensor_noise == other.sensor_noise`: None equals None; a noise compared
      with None reads `None.uncertainty`, whichever side the None is on (Python tries the
      noise's `__eq__` when the left side is None). */
  function NoiseEquals(a: Option<N.SensorNoise>, b: Option<N.SensorNoise>): (r: Result<bool>)
    ensures a.None? && b.None? ==> r == Ok(true)
    ensures a.None? != b.None? ==> r == Err(AttributeError)
    ensures a.Some? && b.Some? && a.value.uncertainty.bounds != b.value.uncertainty.bounds ==>
      r == Ok(false)
  {
    if a.None? && b.None? then Ok(true)
    else if a.None? then b.value.Equals(Foreign)
    else a.value.Equals(if b.None? then Foreign else Instance(b.value))
  }

  /** `==` on two fault lists: lists of different lengths are unequal; otherwise the
      elements are compared in order and the first unequal pair, or the first error,
      decides. */
  function FaultsEqual(a: seq<F.SensorFault>, b: seq<F.SensorFault>): (r: Result<bool>)
    ensures |a| != |b| ==> r == Ok(false)
    ensures r == Ok(true) ==> forall i :: 0 <= i < |a| ==> F.FaultEquals(a[i], b[i]) == Ok(true)
    ensures r.Err? ==> exists i :: 0 <= i < |a| && F.FaultEquals(a[i], b[i]) == Err(r.error)
    decreases |a|
  {
    if |a| != |b| then Ok(false)
    else if a == [] then Ok(true)
    else
      match F.FaultEquals(a[0], b[0])
      case Err(e) => Err(e)
      case Ok(eq) => if eq then FaultsEqual(a[1..], b[1..]) else Ok(false)
  }

  /** Python's `x and y` on comparison outcomes: an error or False stops the chain. */
  function AndThen(x: Result<bool>, y: Result<bool>): Result<bool>
  {
    match x
    case Err(e) => Err(e)
    case Ok(b) => if b then y else Ok(false)
  }

  /** The raw arrays and times compared element-wise, the demand data of `a` against
      `demands`. */
  predicate SameData(a: Snapshot, b: Snapshot, demands: seq<seq<real>>)
  {
    a.raw.pressures == b.raw.pressures && a.raw.flows == b.raw.flows &&
    a.raw.demands == demands && a.raw.nodesQuality == b.raw.nodesQuality &&
    a.raw.linksQuality == b.raw.linksQuality && a.time == b.time &&
    a.raw.pumpsState == b.raw.pumpsState && a.raw.valvesState == b.raw.valvesState &&
    a.raw.tanksLevel == b.raw.tanksLevel
  }

  /** `__eq__` as written: the demand data is compared with its own copy. */
  function SnapshotEqualsAsWritten(a: Snapshot, b: Snapshot): (r: Result<bool>)
    ensures r == SnapshotEquals(a, b.(raw := b.raw.(demands := a.raw.demands)))
  {
    AndThen(Ok(a.config == b.config),
      AndThen(NoiseEquals(a.noise, b.noise),
        AndThen(FaultsEqual(a.faults, b.faults), Ok(SameData(a, b, a.raw.demands)))))
  }

  /** `__eq__` as evidently intended: the demand data compared with the other's. The
      comparisons run in order and stop at the first that fails: configuration, sensor
      noise (AttributeError when only one side has noise), faults, then the data. */
  function SnapshotEquals(a: Snapshot, b: Snapshot): (r: Result<bool>)
    ensures a.config != b.config ==> r == Ok(false)
    ensures a.config == b.config && a.noise.None? != b.noise.None? ==> r == Err(AttributeError)
    ensures (a.config == b.config && NoiseEquals(a.noise, b.noise) == Ok(true) &&
             |a.faults| != |b.faults|) ==> r == Ok(false)
    ensures r == Ok(true) <==>
      a.config == b.config && NoiseEquals(a.noise, b.noise) == Ok(true) &&
      FaultsEqual(a.faults, b.faults) == Ok(true) && SameData(a, b, b.raw.demands)
  {
    AndThen(Ok(a.config == b.config),
      AndThen(NoiseEquals(a.noise, b.noise),
        AndThen(FaultsEqual(a.faults, b.faults), Ok(SameData(a, b, b.raw.demands)))))
  }

  /** Equal fault lists have the same length and the same sensor reading events. */
  lemma {:induction false} FaultsEqualSound(a: seq<F.SensorFault>, b: seq<F.SensorFault>)
    requires FaultsEqual(a, b) == Ok(true)
    ensures |a| == |b| && forall i :: 0 <= i < |a| ==> a[i].base == b[i].base
    decreases |a|
  {
    if a != [] {
      FaultsEqualSound(a[1..], b[1..]);
      assert forall i :: 1 <= i < |a| ==> a[i] == a[1..][i - 1] && b[i] == b[1..][i - 1];
    }
  }

  /** Every fault list equals itself. */
  lemma {:induction false} FaultsEqualReflexive(a: seq<F.SensorFault>)
    ensures FaultsEqual(a, a) == Ok(true)
    decreases |a|
  {
    if a != [] {
      F.FaultEqualityCases(a[0].base, a[0].kind, a[0].kind, 0.0);
      FaultsEqualReflexive(a[1..]);
    }
  }

  /** Equal snapshots agree on the configuration, raw data, times and fault count. */
  lemma SnapshotEqualsMeansSame(a: Snapshot, b: Snapshot)
    ensures SnapshotEquals(a, b) == Ok(true) ==>
      a.config == b.config && a.raw == b.raw && a.time == b.time && |a.faults| == |b.faults|
  {
    if SnapshotEquals(a, b) == Ok(true) {
      FaultsEqualSound(a.faults, b.faults);
    }
  }

  /** Every snapshot equals itself, with or without noise. */
  lemma SnapshotEqualsReflexive(a: Snapshot)
    ensures SnapshotEquals(a, a) == Ok(true)
  {
    FaultsEqualReflexive(a.faults);
    if a.noise.Some? {
      var u := a.noise.value.uncertainty;
      U.EqualSameClass(u.bounds, u.variant, u.bounds, u.variant);
    }
  }

  /** As written, the demand data never takes part: two snapshots that differ only there
      compare as the first compares with itself, so an object equals a copy with other
      demands, which the intended comparison tells apart. */
  lemma DemandIgnoredAsWritten(a: Snapshot, demands: seq<seq<real>>)
    requires demands != a.raw.demands
    ensures SnapshotEqualsAsWritten(a, a.(raw := a.raw.(demands := demands))) == Ok(true)
    ensures SnapshotEquals(a, a.(raw := a.raw.(demands := demands))) == Ok(false)
  {
    SnapshotEqualsReflexive(a);
  }

  /** The noise comparison fails whenever exactly one side has a noise. */
  lemma NoiseAgainstNone(n: N.SensorNoise)
    ensures NoiseEquals(Some(n), None) == Err(AttributeError)
    ensures NoiseEquals(None, Some(n)) == Err(AttributeError)
    ensures NoiseEquals(None, None) == Ok(true)
  {
  }
}

=== FILE: scada_data_export.dfy ===
/** Exporting SCADA data: the description of every column of the readings array (the kind
    and the id of the sensor behind it), which inverts the id-to-column map of the sensor
    configuration, and the exporters' type guard. Writing the files is not modelled. */
module ScadaDataExports {
  import opened Common
  import opened SensorConfigs
  import opened ScadaDatas
  import U = Uncertainties

  /** The description `[sensor_type, item_id]` of one column; the kind stands for its key
      in `sensors_id_to_idx` ("pressure", "flow", …). */
  datatype ColumnDesc = ColumnDesc(kind: SensorKind, id: string)

  // ---------------------------------------------------------------------------------------
  // Blocks and columns

  /** A column lies in the block of at most one kind. */
  lemma SameBlock(s: Sensors, k: SensorKind, k': SensorKind, c: nat)
    requires BlockStart(s, k) <= c < BlockStart(s, k) + |s.Of(k)|
    requires BlockStart(s, k') <= c < BlockStart(s, k') + |s.Of(k')|
    ensures k == k'
  {
    BlocksTileTheRow(s, k, k');
    BlocksTileTheRow(s, k', k);
  }

  /** Two sensors sharing a column are the same sensor: `sensors_id_to_idx` is one-to-one
      across all kinds. */
  lemma SensorColumnsDistinct(s: Sensors, k: SensorKind, id: string, k': SensorKind, id': string)
    requires IndexOfSensor(s, k, id).Ok? && IndexOfSensor(s, k', id') == IndexOfSensor(s, k, id)
    ensures k == k' && id == id'
  {
    SameBlock(s, k, k', IndexOfSensor(s, k, id).value);
  }

  /** The blocks before position i cover the columns below their total width. */
  lemma {:induction false} BlockOfColumnIn(s: Sensors, i: nat, c: nat) returns (k: SensorKind)
    requires i <= |ReadingOrder| && c < Width(s, ReadingOrder[..i])
    ensures BlockStart(s, k) <= c < BlockStart(s, k) + |s.Of(k)|
  {
    WidthStep(s, ReadingOrder, i - 1);
    if c >= Width(s, ReadingOrder[..i - 1]) {
      k := ReadingOrder[i - 1];
      PositionOfEntry(i - 1);
    } else {
      k := BlockOfColumnIn(s, i - 1, c);
    }
  }

  /** Every column of the readings array lies in the block of some kind. */
  lemma BlockOfColumn(s: Sensors, c: nat) returns (k: SensorKind)
    requires c < NumColumns(s)
    ensures BlockStart(s, k) <= c < BlockStart(s, k) + |s.Of(k)|
  {
    assert ReadingOrder[..|ReadingOrder|] == ReadingOrder;
    k := BlockOfColumnIn(s, |ReadingOrder|, c);
  }

  // ---------------------------------------------------------------------------------------
  // Column descriptions

  /** What `create_column_desc` returns for a configuration: one entry per column; every
      described column is the column of the sensor it names; and the column of every
      sensor describes that sensor. */
  ghost predicate Describes(s: Sensors, desc: seq<Option<ColumnDesc>>)
  {
    |desc| == NumColumns(s) &&
    (forall c :: 0 <= c < |desc| && desc[c].Some? ==>
      IndexOfSensor(s, desc[c].value.kind, desc[c].value.id) == Ok(c)) &&
    (forall k, id :: id in s.Of(k) ==>
      IndexOfSensor(s, k, id).value < |desc| &&
      desc[IndexOfSensor(s, k, id).value] == Some(ColumnDesc(k, id)))
  }

  /** After the write of one sensor's description, the sensors already written keep theirs. */
  lemma ColumnOwner(s: Sensors, k: SensorKind, id: string)
    requires id in s.Of(k)
    ensures forall k', id' :: IndexOfSensor(s, k', id') == IndexOfSensor(s, k, id) ==>
      k' == k && id' == id
  {
    forall k', id' | IndexOfSensor(s, k', id') == IndexOfSensor(s, k, id)
      ensures k' == k && id' == id
    {
      SensorColumnsDistinct(s, k, id, k', id');
    }
  }

  /** Every described column is the column of the sensor it names. */
  ghost predicate DescribedRight(s: Sensors, desc: seq<Option<ColumnDesc>>)
  {
    forall c :: 0 <= c < |desc| && desc[c].Some? ==>
      IndexOfSensor(s, desc[c].value.kind, desc[c].value.id) == Ok(c)
  }

  /** The column of sensor `id` of kind k holds its description. */
  ghost predicate Written(s: Sensors, desc: seq<Option<ColumnDesc>>, k: SensorKind, id: string)
  {
    IndexOfSensor(s, k, id).Ok? && IndexOfSensor(s, k, id).value < |desc| &&
    desc[IndexOfSensor(s, k, id).value] == Some(ColumnDesc(k, id))
  }

  /** Every sensor of kind k listed in `ids` is described. */
  ghost predicate KindWritten(s: Sensors, desc: seq<Option<ColumnDesc>>, k: SensorKind,
                              ids: seq<string>)
  {
    forall id :: id in ids ==> Written(s, desc, k, id)
  }

  /** Every sensor described in `before` is still described in `after`. */
  ghost predicate Kept(s: Sensors, before: seq<Option<ColumnDesc>>, after: seq<Option<ColumnDesc>>)
  {
    forall k, id :: Written(s, before, k, id) ==> Written(s, after, k, id)
  }

  /** One write of the loop: the written sensor's column describes it, and no other
      sensor's description is overwritten. */
  lemma WriteStep(s: Sensors, d0: seq<Option<ColumnDesc>>, desc: seq<Option<ColumnDesc>>,
                  k: SensorKind, ids: seq<string>, j: nat)
    requires j < |ids| && ids == s.Of(k) && |desc| == NumColumns(s)
    requires DescribedRight(s, desc) && KindWritten(s, desc, k, ids[..j]) && Kept(s, d0, desc)
    ensures IndexOfSensor(s, k, ids[j]).Ok? && IndexOfSensor(s, k, ids[j]).value < |desc|
    ensures var desc' := desc[IndexOfSensor(s, k, ids[j]).value := Some(ColumnDesc(k, ids[j]))];
      DescribedRight(s, desc') && KindWritten(s, desc', k, ids[..j + 1]) && Kept(s, d0, desc')
  {
    var id := ids[j];
    assert id in s.Of(k);
    BlocksTileTheRow(s, k, k);
    var col := IndexOfSensor(s, k, id).value;
    var desc' := desc[col := Some(ColumnDesc(k, id))];
    ColumnOwner(s, k, id);
    WrittenKept(s, desc, k, id);
    assert Kept(s, desc, desc');
    assert ids[..j + 1] == ids[..j] + [id];
  }

  /** Writing one sensor's description keeps every other sensor's. */
  lemma WrittenKept(s: Sensors, desc: seq<Option<ColumnDesc>>, k: SensorKind, id: string)
    requires id in s.Of(k) && IndexOfSensor(s, k, id).value < |desc|
    ensures Kept(s, desc, desc[IndexOfSensor(s, k, id).value := Some(ColumnDesc(k, id))])
  {
    var col := IndexOfSensor(s, k, id).value;
    var desc' := desc[col := Some(ColumnDesc(k, id))];
    forall k', id' | Written(s, desc, k', id')
      ensures Written(s, desc', k', id')
    {
      if IndexOfSensor(s, k', id').value == col {
        SensorColumnsDistinct(s, k, id, k', id');
      }
    }
  }

  /** The inner loop of `create_column_desc`: the description of every sensor of kind k
      written into its column, the descriptions written before kept. The loop visits the
      sensor list of the kind rather than the keys of its map; a repeated id writes the
      same entry again. */
  method DescribeKind(s: Sensors, k: SensorKind, idToIdx: map<SensorKind, map<string, nat>>,
                      desc: array<Option<ColumnDesc>>)
    requires idToIdx == AllIdToIdx(s)
    requires desc.Length == NumColumns(s) && DescribedRight(s, desc[..])
    modifies desc
    ensures DescribedRight(s, desc[..])
    ensures KindWritten(s, desc[..], k, s.Of(k))
    ensures Kept(s, old(desc[..]), desc[..])
  {
    var ids := s.Of(k);
    for j := 0 to |ids|
      invariant DescribedRight(s, desc[..])
      invariant KindWritten(s, desc[..], k, ids[..j])
      invariant Kept(s, old(desc[..]), desc[..])
    {
      var id := ids[j];
      IndexOfSensorIsCached(s, k, id);
      var col := idToIdx[k][id];
      ghost var before := desc[..];
      WriteStep(s, old(desc[..]), before, k, ids, j);
      desc[col] := Some(ColumnDesc(k, id));
      assert desc[..] == before[col := Some(ColumnDesc(k, id))];
    }
    assert ids[..|ids|] == ids;
  }

  /** `create_column_desc` for a configuration: a list of None, one per column, then the
      descriptions of every kind's sensors, kind by kind in block order. */
  method ColumnDescOf(s: Sensors) returns (r: seq<Option<ColumnDesc>>)
    ensures Describes(s, r)
  {
    var n := NumColumns(s);
    var desc := new Option<ColumnDesc>[n](_ => None);
    var idToIdx := AllIdToIdx(s);
    for p := 0 to |ReadingOrder|
      invariant desc.Length == n
      invariant DescribedRight(s, desc[..])
      invariant forall k, id :: Position(k) < p && id in s.Of(k) ==> Written(s, desc[..], k, id)
    {
      PositionOfEntry(p);
      DescribeKind(s, ReadingOrder[p], idToIdx, desc);
    }
    r := desc[..];
  }

  /** The description is determined by the configuration alone. */
  lemma DescriptionIsUnique(s: Sensors, a: seq<Option<ColumnDesc>>, b: seq<Option<ColumnDesc>>)
    requires Describes(s, a) && Describes(s, b)
    ensures a == b
  {
    forall c | 0 <= c < |a|
      ensures a[c] == b[c]
    {
      if a[c].Some? {
        assert a[c].value.id in s.Of(a[c].value.kind);
      } else if b[c].Some? {
        assert b[c].value.id in s.Of(b[c].value.kind);
      }
    }
  }

  /** When no kind lists an id twice, no column is left None. */
  lemma DistinctIdsLeaveNoGap(s: Sensors, desc: seq<Option<ColumnDesc>>, c: nat)
    requires Describes(s, desc) && c < |desc|
    requires forall k, a, b :: 0 <= a < b < |s.Of(k)| ==> s.Of(k)[a] != s.Of(k)[b]
    ensures desc[c].Some?
  {
    var k := BlockOfColumn(s, c);
    var j := c - BlockStart(s, k);
    IndexOfDistinctId(s, k, j);
    assert s.Of(k)[j] in s.Of(k);
  }

  /** Conversely, the column of an id that its kind lists again further on is left None:
      only the last occurrence is described. */
  lemma RepeatedIdLeavesGap(s: Sensors, desc: seq<Option<ColumnDesc>>, k: SensorKind,
                            a: nat, b: nat)
    requires Describes(s, desc)
    requires a < b < |s.Of(k)| && s.Of(k)[a] == s.Of(k)[b]
    ensures BlockStart(s, k) + a < |desc| && desc[BlockStart(s, k) + a] == None
  {
    var c := BlockStart(s, k) + a;
    BlocksTileTheRow(s, k, k);
    assert c < |desc|;
    if desc[c].Some? {
      var d := desc[c].value;
      assert IndexOfSensor(s, d.kind, d.id) == Ok(c);
      EarlierOccurrenceUnused(s, k, a, b, d.kind, d.id);
      assert false;
    }
  }

  // ---------------------------------------------------------------------------------------
  // Spreadsheet description

  /** `f"Sensor {i}"`. */
  function SensorName(i: nat): string
  {
    "Sensor " + NatToString(i)
  }

  /** The sensor names "Sensor 1" … "Sensor n" of the spreadsheet, one per column. */
  function SensorNames(n: nat): (r: seq<string>)
    ensures |r| == n
    ensures forall i :: 0 <= i < n ==> r[i] == SensorName(i + 1)
  {
    seq(n, i requires 0 <= i < n => SensorName(i + 1))
  }

  /** Distinct digits are distinct characters. */
  lemma DigitInjective(a: nat, b: nat)
    requires a < 10 && b < 10 && Digit(a) == Digit(b)
    ensures a == b
  {
    var ds := ['0', '1', '2', '3', '4', '5', '6', '7', '8', '9'];
    assert Digit(a) == ds[a] && Digit(b) == ds[b];
  }

  /** Decimal rendering is one-to-one. */
  lemma {:induction false} NatToStringInjective(a: nat, b: nat)
    requires NatToString(a) == NatToString(b)
    ensures a == b
  {
    if a < 10 && b < 10 {
      DigitInjective(a, b);
    } else if a >= 10 && b >= 10 {
      var x, y := NatToString(a), NatToString(b);
      assert x[..|x| - 1] == NatToString(a / 10);
      assert y[..|y| - 1] == NatToString(b / 10);
      NatToStringInjective(a / 10, b / 10);
      DigitInjective(a % 10, b % 10);
    }
  }

  /** No two columns of the spreadsheet get the same name. */
  lemma SensorNamesDistinct(n: nat, i: nat, j: nat)
    requires i < j < n
    ensures SensorNames(n)[i] != SensorNames(n)[j]
  {
    var p := "Sensor ";
    if SensorName(i + 1) == SensorName(j + 1) {
      assert SensorName(i + 1)[|p|..] == NatToString(i + 1);
      assert SensorName(j + 1)[|p|..] == NatToString(j + 1);
      NatToStringInjective(i + 1, j + 1);
      assert false;
    }
  }

  /** One row of the spreadsheet's sensor description: name, type and location. */
  datatype SheetRow = SheetRow(name: string, kind: SensorKind, id: string)

  /** `np.concatenate((sensors_name, col_desc), axis=1)`: the names column next to the
      two-column description array. The description list only becomes a two-column array
      when every entry is a description and there is at least one; otherwise it is a
      one-dimensional object array, and the concatenation raises ValueError. */
  function SheetRows(desc: seq<Option<ColumnDesc>>): (r: Result<seq<SheetRow>>)
    ensures r.Ok? <==> |desc| > 0 && forall c :: 0 <= c < |desc| ==> desc[c].Some?
    ensures r.Err? ==> r.error == ValueError
    ensures r.Ok? ==> |r.value| == |desc| && forall c :: 0 <= c < |desc| ==>
      r.value[c] == SheetRow(SensorNames(|desc|)[c], desc[c].value.kind, desc[c].value.id)
  {
    if |desc| == 0 || exists c :: 0 <= c < |desc| && desc[c].None? then Err(ValueError)
    else
      Ok(seq(|desc|, c requires 0 <= c < |desc| =>
        SheetRow(SensorName(c + 1), desc[c].value.kind, desc[c].value.id)))
  }

  /** With at least one sensor and no id repeated within a kind, the spreadsheet
      description is built, and row c names column c's sensor; a repeated id makes it
      fail. */
  lemma SheetRowsOfDescription(s: Sensors, desc: seq<Option<ColumnDesc>>)
    requires Describes(s, desc)
    ensures (NumColumns(s) > 0 && forall k, a, b :: 0 <= a < b < |s.Of(k)| ==> s.Of(k)[a] != s.Of(k)[b]) ==>
      SheetRows(desc).Ok?
    ensures (exists k, a, b :: 0 <= a < b < |s.Of(k)| && s.Of(k)[a] == s.Of(k)[b]) ==>
      SheetRows(desc) == Err(ValueError)
    ensures SheetRows(desc).Ok? ==> forall k, id :: id in s.Of(k) ==>
      SheetRows(desc).value[IndexOfSensor(s, k, id).value].kind == k &&
      SheetRows(desc).value[IndexOfSensor(s, k, id).value].id == id
  {
    if NumColumns(s) > 0 && forall k, a, b :: 0 <= a < b < |s.Of(k)| ==> s.Of(k)[a] != s.Of(k)[b] {
      forall c | 0 <= c < |desc|
        ensures desc[c].Some?
      {
        DistinctIdsLeaveNoGap(s, desc, c);
      }
    }
    if exists k, a, b :: 0 <= a < b < |s.Of(k)| && s.Of(k)[a] == s.Of(k)[b] {
      var k, a, b :| 0 <= a < b < |s.Of(k)| && s.Of(k)[a] == s.Of(k)[b];
      RepeatedIdLeavesGap(s, desc, k, a, b);
    }
  }

  // ---------------------------------------------------------------------------------------
  // Exporters

  /** The three exporters: numpy (.npz), spreadsheet (.xlsx) and MATLAB (.mat). */
  datatype Format = Npz | Xlsx | Mat

  /** What an exporter hands to the file writer: the readings, their times, the column
      descriptions, and for the spreadsheet its description rows. */
  datatype Exported = Exported(readings: Matrix, time: seq<int>, desc: seq<Option<ColumnDesc>>,
                               sheet: seq<SheetRow>)

  /** An exporter and the path it writes to. */
  class ScadaDataExport {
    const fOut: string
    const format: Format

    constructor (fOut: string, format: Format)
      ensures this.fOut == fOut && this.format == format
    {
      this.fOut := fOut;
      this.format := format;
    }

    /** `create_column_desc(scada_data)`: calls `get_data` (which advances the noise and
        refreshes the cache), then describes the columns of the configuration. */
    method CreateColumnDesc(d: ScadaData, m: Transcendentals, z: nat -> nat -> real)
      returns (r: Result<seq<Option<ColumnDesc>>>)
      requires d.Valid()
      modifies d, d.NoiseRepr()
      ensures d.Valid()
      ensures d.config == old(d.config) && d.noise == old(d.noise) && d.faults == old(d.faults)
      ensures d.raw == old(d.raw) && d.time == old(d.time) && d.faultCols == old(d.faultCols)
      ensures var spec := GetDataSpec(m, d.config, d.raw, d.time, NoiseSpecOf(d.noise),
                                      old(NoiseStateOf(d.noise)), d.faults[..|d.faultCols|],
                                      d.faultCols, z);
        NoiseStateOf(d.noise) == spec.0 &&
        (spec.1.Err? ==> r == Err(spec.1.error) && d.cache == old(d.cache)) &&
        (spec.1.Ok? ==> r.Ok? && Describes(d.config.sensors, r.value) &&
                        d.cache == Some(Readings(spec.1.value, NumColumns(d.config.sensors))))
    {
      var readings := d.GetData(m, z);
      if readings.Err? {
        return Err(readings.error);
      }
      var desc := ColumnDescOf(d.config.sensors);
      r := Ok(desc);
    }

    /** `export(scada_data)`: TypeError for an argument that is not SCADA data, before
        anything else; then the readings from `get_data`, the times, and the column
        descriptions (from a second `get_data`); the spreadsheet exporter adds its
        description rows. */
    method Export(d: Obj<ScadaData>, m: Transcendentals, z: nat -> nat -> real)
      returns (r: Result<Exported>)
      requires d.Instance? ==> d.obj.Valid()
      modifies if d.Instance? then {d.obj} + d.obj.NoiseRepr() else {}
      ensures d.Foreign? ==> r == Err(TypeError)
      ensures d.Instance? ==> d.obj.Valid()
      ensures d.Instance? ==>
        d.obj.config == old(d.obj.config) && d.obj.noise == old(d.obj.noise) &&
        d.obj.faults == old(d.obj.faults) && d.obj.faultCols == old(d.obj.faultCols) &&
        d.obj.raw == old(d.obj.raw) && d.obj.time == old(d.obj.time)
      ensures d.Instance? ==>
        var first := GetDataSpec(m, d.obj.config, d.obj.raw, d.obj.time, NoiseSpecOf(d.obj.noise),
                                 old(NoiseStateOf(d.obj.noise)),
                                 d.obj.faults[..|d.obj.faultCols|], d.obj.faultCols, z);
        (first.1.Err? ==> r == Err(first.1.error)) &&
        (r.Ok? ==> r.value.readings == first.1.value)
      ensures d.Instance? ==>
        var first := GetDataSpec(m, d.obj.config, d.obj.raw, d.obj.time, NoiseSpecOf(d.obj.noise),
                                 old(NoiseStateOf(d.obj.noise)),
                                 d.obj.faults[..|d.obj.faultCols|], d.obj.faultCols, z);
        var second := GetDataSpec(m, d.obj.config, d.obj.raw, d.obj.time, NoiseSpecOf(d.obj.noise),
                                  first.0, d.obj.faults[..|d.obj.faultCols|], d.obj.faultCols, z);
        (first.1.Err? ==>
           NoiseStateOf(d.obj.noise) == first.0 && d.obj.cache == old(d.obj.cache)) &&
        (first.1.Ok? ==> NoiseStateOf(d.obj.noise) == second.0) &&
        (first.1.Ok? && second.1.Err? ==>
           r == Err(second.1.error) &&
           d.obj.cache == Some(Readings(first.1.value, NumColumns(d.obj.config.sensors)))) &&
        (first.1.Ok? && second.1.Ok? ==>
           d.obj.cache == Some(Readings(second.1.value, NumColumns(d.obj.config.sensors))))
      ensures r.Ok? ==>
        d.Instance? && r.value.time == d.obj.time && Describes(d.obj.config.sensors, r.value.desc)
      ensures r.Ok? && format == Xlsx ==> SheetRows(r.value.desc) == Ok(r.value.sheet)
      ensures r.Ok? && format != Xlsx ==> r.value.sheet == []
    {
      if d.Foreign? {
        return Err(TypeError);
      }
      var data := d.obj;
      var readings := data.GetData(m, z);
      if readings.Err? {
        return Err(readings.error);
      }
      var desc := CreateColumnDesc(data, m, z);
      if desc.Err? {
        return Err(desc.error);
      }
      var sheet := [];
      if format == Xlsx {
        var rows := SheetRows(desc.value);
        if rows.Err? {
          return Err(rows.error);
        }
        sheet := rows.value;
      }
      r := Ok(Exported(readings.value, data.time, desc.value, sheet));
    }
  }
}

=== FILE: sensor_config.dfy ===
/** Sensor placement: which network elements carry which kind of sensor, the layout of
    the readings array those sensors produce (eight blocks of columns in a fixed order),
    and the mapping from a sensor id to its column. */
module SensorConfigs {
  import opened Common

  /** The eight kinds of sensor. */
  datatype SensorKind =
    Pressure | Flow | Demand | NodeQuality | LinkQuality | ValveState | PumpState | TankLevel

  /** The `SENSOR_TYPE_*` codes. They follow a different order than the column blocks. */
  function TypeCode(k: SensorKind): (c: int)
    ensures 1 <= c <= 8
  {
    match k
    case Pressure => 1
    case NodeQuality => 2
    case Demand => 3
    case Flow => 4
    case LinkQuality => 5
    case ValveState => 6
    case PumpState => 7
    case TankLevel => 8
  }

  /** The kind a sensor type code denotes, if it denotes one. */
  function KindOfCode(c: int): (r: Option<SensorKind>)
    ensures r.Some? <==> 1 <= c <= 8
    ensures r.Some? ==> TypeCode(r.value) == c
  {
    if c == 1 then Some(Pressure)
    else if c == 2 then Some(NodeQuality)
    else if c == 3 then Some(Demand)
    else if c == 4 then Some(Flow)
    else if c == 5 then Some(LinkQuality)
    else if c == 6 then Some(ValveState)
    else if c == 7 then Some(PumpState)
    else if c == 8 then Some(TankLevel)
    else None
  }

  /** Codes and kinds are in one-to-one correspondence. */
  lemma TypeCodeRoundTrip(k: SensorKind)
    ensures KindOfCode(TypeCode(k)) == Some(k)
  {
  }

  /** The order of the column blocks in the readings array, which is also the order in
      which `get_index_of_reading` inspects its keyword arguments. */
  const ReadingOrder: seq<SensorKind> :=
    [Pressure, Flow, Demand, NodeQuality, LinkQuality, ValveState, PumpState, TankLevel]

  /** The position of a kind's block. */
  function Position(k: SensorKind): (p: nat)
    ensures p < |ReadingOrder| && ReadingOrder[p] == k
  {
    match k
    case Pressure => 0
    case Flow => 1
    case Demand => 2
    case NodeQuality => 3
    case LinkQuality => 4
    case ValveState => 5
    case PumpState => 6
    case TankLevel => 7
  }

  // ---------------------------------------------------------------------------------------
  // Network and placement

  /** The element ids of the network. */
  datatype Network = Network(nodes: seq<string>, links: seq<string>, valves: seq<string>,
                             pumps: seq<string>, tanks: seq<string>)

  /** The elements a sensor of kind k may be placed at. */
  function Domain(net: Network, k: SensorKind): seq<string>
  {
    match k
    case Pressure => net.nodes
    case Demand => net.nodes
    case NodeQuality => net.nodes
    case Flow => net.links
    case LinkQuality => net.links
    case ValveState => net.valves
    case PumpState => net.pumps
    case TankLevel => net.tanks
  }

  /** The sensor id lists, one per kind. */
  datatype Sensors = Sensors(pressure: seq<string>, flow: seq<string>, demand: seq<string>,
                             qualityNode: seq<string>, qualityLink: seq<string>,
                             valveState: seq<string>, pumpState: seq<string>,
                             tankLevel: seq<string>)
  {
    function Of(k: SensorKind): seq<string>
    {
      match k
      case Pressure => pressure
      case Flow => flow
      case Demand => demand
      case NodeQuality => qualityNode
      case LinkQuality => qualityLink
      case ValveState => valveState
      case PumpState => pumpState
      case TankLevel => tankLevel
    }

    /** The lists with the one of kind k replaced; the other seven are untouched. */
    function With(k: SensorKind, ids: seq<string>): (r: Sensors)
      ensures r.Of(k) == ids
      ensures forall k' :: k' != k ==> r.Of(k') == Of(k')
    {
      match k
      case Pressure => this.(pressure := ids)
      case Flow => this.(flow := ids)
      case Demand => this.(demand := ids)
      case NodeQuality => this.(qualityNode := ids)
      case LinkQuality => this.(qualityLink := ids)
      case ValveState => this.(valveState := ids)
      case PumpState => this.(pumpState := ids)
      case TankLevel => this.(tankLevel := ids)
    }
  }

  const NoSensors := Sensors([], [], [], [], [], [], [], [])

  /** Every item of `xs` occurs in `ys`. */
  predicate SubsetOf(xs: seq<string>, ys: seq<string>)
  {
    forall i :: 0 <= i < |xs| ==> xs[i] in ys
  }

  /** A sensor configuration: the network and the placement. */
  datatype Config = Config(net: Network, sensors: Sensors)

  /** What the constructor checks: the node and link lists are non-empty, valves and pumps
      are links, tanks are nodes, and every sensor sits at an element of its kind. */
  predicate WellPlaced(c: Config)
  {
    |c.net.nodes| > 0 && |c.net.links| > 0 &&
    SubsetOf(c.net.valves, c.net.links) && SubsetOf(c.net.pumps, c.net.links) &&
    SubsetOf(c.net.tanks, c.net.nodes) &&
    forall k :: SubsetOf(c.sensors.Of(k), Domain(c.net, k))
  }

  /** `SensorConfig(nodes, links, valves, pumps, tanks, *_sensors)`: ValueError for an
      empty node or link list, for a valve, pump or tank that is not an element of the
      network, and for a sensor placed at an element of the wrong kind. */
  function NewConfig(net: Network, s: Sensors): (r: Result<Config>)
    ensures r.Ok? <==> WellPlaced(Config(net, s))
    ensures r.Ok? ==> r.value == Config(net, s)
    ensures r.Err? ==> r.error == ValueError
  {
    if |net.nodes| == 0 || |net.links| == 0 then Err(ValueError)
    else if !SubsetOf(net.valves, net.links) || !SubsetOf(net.pumps, net.links) then Err(ValueError)
    else if !SubsetOf(net.tanks, net.nodes) then Err(ValueError)
    else if exists i :: 0 <= i < |ReadingOrder| &&
                        !SubsetOf(s.Of(ReadingOrder[i]), Domain(net, ReadingOrder[i])) then
      Err(ValueError)
    else
      assert forall k :: SubsetOf(s.Of(k), Domain(net, k)) by {
        forall k ensures SubsetOf(s.Of(k), Domain(net, k)) {
          assert ReadingOrder[Position(k)] == k;
        }
      }
      Ok(Config(net, s))
  }

  // ---------------------------------------------------------------------------------------
  // Column layout

  /** The number of columns the blocks of `ks` occupy. */
  function Width(s: Sensors, ks: seq<SensorKind>): nat
  {
    if ks == [] then 0 else Width(s, ks[..|ks| - 1]) + |s.Of(ks[|ks| - 1])|
  }

  /** The first column of kind k's block: the cumulative shift of `__compute_indices`. */
  function BlockStart(s: Sensors, k: SensorKind): nat
  {
    Width(s, ReadingOrder[..Position(k)])
  }

  /** The number of columns of the readings array. */
  function NumColumns(s: Sensors): nat
  {
    Width(s, ReadingOrder)
  }

  /** One more kind adds its block's width. */
  lemma WidthStep(s: Sensors, ks: seq<SensorKind>, i: nat)
    requires i < |ks|
    ensures Width(s, ks[..i + 1]) == Width(s, ks[..i]) + |s.Of(ks[i])|
  {
    assert ks[..i + 1][..i] == ks[..i];
  }

  /** Widths of prefixes grow with the prefix. */
  lemma {:induction false} WidthMonotone(s: Sensors, ks: seq<SensorKind>, i: nat, j: nat)
    requires i <= j <= |ks|
    ensures Width(s, ks[..i]) <= Width(s, ks[..j])
    decreases j - i
  {
    if i < j {
      assert ks[..j][..j - 1] == ks[..j - 1];
      WidthMonotone(s, ks, i, j - 1);
    }
  }

  /** The blocks are disjoint and tile the row: block k occupies
      [BlockStart(k), BlockStart(k) + |sensors of k|), a later block starts after it ends,
      and the last block ends at the row width. */
  lemma BlocksTileTheRow(s: Sensors, k: SensorKind, k': SensorKind)
    ensures BlockStart(s, k) + |s.Of(k)| <= NumColumns(s)
    ensures Position(k) < Position(k') ==> BlockStart(s, k) + |s.Of(k)| <= BlockStart(s, k')
    ensures k == TankLevel ==> BlockStart(s, k) + |s.Of(k)| == NumColumns(s)
  {
    var ro := ReadingOrder;
    var p := Position(k);
    WidthStep(s, ro, p);
    WidthMonotone(s, ro, p + 1, |ro|);
    assert ro[..|ro|] == ro;
    if p < Position(k') {
      WidthMonotone(s, ro, p + 1, Position(k'));
    }
  }

  // ---------------------------------------------------------------------------------------
  // Index computation

  /** `{id: i + offset for id, i in zip(ids, range(len(ids)))}`: a later occurrence of an
      id overwrites an earlier one. */
  function IdMap(ids: seq<string>, offset: nat): (m: map<string, nat>)
    ensures forall id :: id in m <==> id in ids
    ensures forall id :: id in m ==> offset <= m[id] < offset + |ids|
  {
    if ids == [] then map[]
    else
      var n := |ids| - 1;
      assert forall j :: 0 <= j < n ==> ids[..n][j] == ids[j];
      IdMap(ids[..n], offset)[ids[n] := offset + n]
  }

  /** Without duplicates, the j-th sensor of a list is mapped to offset + j. */
  lemma IdMapDistinct(ids: seq<string>, offset: nat, j: nat)
    requires j < |ids|
    requires forall a, b :: 0 <= a < b < |ids| ==> ids[a] != ids[b]
    ensures ids[j] in IdMap(ids, offset) && IdMap(ids, offset)[ids[j]] == offset + j
  {
    IdMapIsLastIndex(ids, offset, ids[j]);
  }

  /** `sensors_id_to_idx[kind]`: sensor id to its column in the readings array. */
  function SensorsIdToIdx(s: Sensors, k: SensorKind): (r: map<string, nat>)
    ensures forall id :: id in r <==> id in s.Of(k)
    ensures forall id :: id in r ==> BlockStart(s, k) <= r[id] < BlockStart(s, k) + |s.Of(k)|
    ensures forall id :: id in r ==> r[id] < NumColumns(s)
  {
    BlocksTileTheRow(s, k, k);
    IdMap(s.Of(k), BlockStart(s, k))
  }

  /** `[domain.index(id) for id in ids]`: the column of each sensor in the raw array of its
      kind; ValueError when an id is not in the domain. */
  function RawIndices(domain: seq<string>, ids: seq<string>): (r: Result<seq<nat>>)
    ensures r.Ok? <==> SubsetOf(ids, domain)
    ensures r.Ok? ==> |r.value| == |ids|
    ensures r.Ok? ==>
      forall j :: 0 <= j < |ids| ==> r.value[j] < |domain| && domain[r.value[j]] == ids[j]
    ensures r.Err? ==> r.error == ValueError
  {
    if ids == [] then Ok([])
    else
      match RawIndices(domain, ids[..|ids| - 1])
      case Err(e) => Err(e)
      case Ok(init) =>
        match IndexOf(domain, ids[|ids| - 1])
        case Err(e) => Err(e)
        case Ok(i) => Ok(init + [i])
  }

  /** Placement validation is exactly what makes `__compute_indices` succeed. */
  lemma WellPlacedIndicesExist(c: Config, k: SensorKind)
    requires WellPlaced(c)
    ensures RawIndices(Domain(c.net, k), c.sensors.Of(k)).Ok?
  {
  }

  // ---------------------------------------------------------------------------------------
  // Readings

  /** The raw simulation results, one matrix per kind (rows are time steps, columns are
      the elements of the kind's domain), in the parameter order of `compute_readings`. */
  datatype Raw = Raw(pressures: seq<seq<real>>, flows: seq<seq<real>>, demands: seq<seq<real>>,
                     nodesQuality: seq<seq<real>>, linksQuality: seq<seq<real>>,
                     pumpsState: seq<seq<real>>, valvesState: seq<seq<real>>,
                     tanksLevel: seq<seq<real>>)
  {
    function Of(k: SensorKind): seq<seq<real>>
    {
      match k
      case Pressure => pressures
      case Flow => flows
      case Demand => demands
      case NodeQuality => nodesQuality
      case LinkQuality => linksQuality
      case ValveState => valvesState
      case PumpState => pumpsState
      case TankLevel => tanksLevel
    }
  }

  /** Every raw column the sensors of kind k select exists in `row`; otherwise
      `raw[:, idx]` raises IndexError. Extra columns are never read. */
  predicate Covers(c: Config, k: SensorKind, row: seq<real>)
    requires WellPlaced(c)
  {
    WellPlacedIndicesExist(c, k);
    var idx := RawIndices(Domain(c.net, k), c.sensors.Of(k)).value;
    forall j :: 0 <= j < |idx| ==> idx[j] < |row|
  }

  /** Every raw matrix has a row t holding the columns its sensors select. */
  predicate RowShaped(c: Config, raw: Raw, t: nat)
    requires WellPlaced(c)
  {
    forall k :: t < |raw.Of(k)| && Covers(c, k, raw.Of(k)[t])
  }

  /** Every raw matrix has `rows` rows, each holding the columns its sensors select. */
  predicate Shaped(c: Config, raw: Raw, rows: nat)
    requires WellPlaced(c)
  {
    (forall k :: |raw.Of(k)| == rows) &&
    forall k, t :: 0 <= t < rows ==> Covers(c, k, raw.Of(k)[t])
  }

  /** `raw[t, idx]` for the sensors of kind k at time step t. */
  function Block(c: Config, raw: Raw, t: nat, k: SensorKind): (b: seq<real>)
    requires WellPlaced(c) && t < |raw.Of(k)| && Covers(c, k, raw.Of(k)[t])
    ensures |b| == |c.sensors.Of(k)|
  {
    var idx := RawIndices(Domain(c.net, k), c.sensors.Of(k)).value;
    seq(|idx|, j requires 0 <= j < |idx| => raw.Of(k)[t][idx[j]])
  }

  /** The blocks of a row, concatenated. */
  function Concat(bs: seq<seq<real>>): (r: seq<real>)
  {
    if bs == [] then [] else Concat(bs[..|bs| - 1]) + bs[|bs| - 1]
  }

  /** Blocks whose widths are those of the sensors of `ks` concatenate to Width(ks)
      entries, and the j-th entry of block p lands at Width(ks[..p]) + j. */
  lemma {:induction false} ConcatEntry(bs: seq<seq<real>>, s: Sensors, ks: seq<SensorKind>,
                                       p: nat, j: nat)
    requires |bs| == |ks| && forall i :: 0 <= i < |ks| ==> |bs[i]| == |s.Of(ks[i])|
    ensures |Concat(bs)| == Width(s, ks)
    ensures p < |ks| && j < |bs[p]| ==>
      Width(s, ks[..p]) + j < |Concat(bs)| && Concat(bs)[Width(s, ks[..p]) + j] == bs[p][j]
    decreases |ks|
  {
    if ks != [] {
      var n := |ks| - 1;
      var front, last := Concat(bs[..n]), bs[n];
      assert Concat(bs) == front + last;
      ConcatEntry(bs[..n], s, ks[..n], p, j);
      if p == n && j < |last| {
        assert ks[..p] == ks[..n];
        assert (front + last)[Width(s, ks[..p]) + j] == last[j];
      } else if p < n && j < |bs[p]| {
        assert ks[..n][..p] == ks[..p];
        assert (front + last)[Width(s, ks[..p]) + j] == front[Width(s, ks[..p]) + j];
      }
    }
  }

  /** The eight blocks of time step t in reading order. */
  function RowBlocks(c: Config, raw: Raw, t: nat): (bs: seq<seq<real>>)
    requires WellPlaced(c) && RowShaped(c, raw, t)
    ensures |bs| == |ReadingOrder|
    ensures forall i :: 0 <= i < |ReadingOrder| ==> bs[i] == Block(c, raw, t, ReadingOrder[i])
  {
    seq(|ReadingOrder|, i requires 0 <= i < |ReadingOrder| => Block(c, raw, t, ReadingOrder[i]))
  }

  /** Row t of the readings: `np.concatenate` of the eight blocks. */
  function ReadingsRow(c: Config, raw: Raw, t: nat): (row: seq<real>)
    requires WellPlaced(c) && RowShaped(c, raw, t)
    ensures |row| == NumColumns(c.sensors)
  {
    ConcatEntry(RowBlocks(c, raw, t), c.sensors, ReadingOrder, 0, 0);
    Concat(RowBlocks(c, raw, t))
  }

  /** `compute_readings`: row t is the concatenation of the eight blocks in reading order. */
  function ComputeReadings(c: Config, raw: Raw, rows: nat): (r: seq<seq<real>>)
    requires WellPlaced(c) && Shaped(c, raw, rows)
    ensures |r| == rows && forall t :: 0 <= t < rows ==> |r[t]| == NumColumns(c.sensors)
  {
    seq(rows, t requires 0 <= t < rows => ReadingsRow(c, raw, t))
  }

  /** The blocks of a row have the widths of their kinds' sensor lists. */
  lemma RowBlocksWidths(c: Config, raw: Raw, t: nat)
    requires WellPlaced(c) && RowShaped(c, raw, t)
    ensures var bs := RowBlocks(c, raw, t);
      forall i :: 0 <= i < |ReadingOrder| ==> |bs[i]| == |c.sensors.Of(ReadingOrder[i])|
  {
  }

  /** Blocks of the widths of the reading order: the j-th entry of kind k's block sits
      at Width(kinds before k) + j of their concatenation. */
  lemma OrderedConcatEntry(s: Sensors, bs: seq<seq<real>>, k: SensorKind, j: nat)
    requires |bs| == |ReadingOrder|
    requires forall i :: 0 <= i < |ReadingOrder| ==> |bs[i]| == |s.Of(ReadingOrder[i])|
    requires j < |s.Of(k)|
    ensures var i := Width(s, ReadingOrder[..Position(k)]) + j;
      i < |Concat(bs)| && Concat(bs)[i] == bs[Position(k)][j]
  {
    ConcatEntry(bs, s, ReadingOrder, Position(k), j);
  }

  /** The j-th entry of kind k's block sits at column BlockStart(k) + j of the row. */
  lemma RowEntryInBlock(c: Config, raw: Raw, t: nat, k: SensorKind, j: nat)
    requires WellPlaced(c) && RowShaped(c, raw, t) && j < |c.sensors.Of(k)|
    ensures var bs := RowBlocks(c, raw, t);
      var i := Width(c.sensors, ReadingOrder[..Position(k)]) + j;
      i < |Concat(bs)| && Concat(bs)[i] == bs[Position(k)][j]
  {
    RowBlocksWidths(c, raw, t);
    OrderedConcatEntry(c.sensors, RowBlocks(c, raw, t), k, j);
  }

  /** Entry j of kind k's block is the raw reading of the j-th sensor of kind k. */
  lemma BlockEntryIsRaw(c: Config, raw: Raw, t: nat, k: SensorKind, j: nat)
    requires WellPlaced(c) && RowShaped(c, raw, t) && j < |c.sensors.Of(k)|
    ensures var idx := RawIndices(Domain(c.net, k), c.sensors.Of(k));
      idx.Ok? && j < |idx.value| && idx.value[j] < |raw.Of(k)[t]| &&
      RowBlocks(c, raw, t)[Position(k)][j] == raw.Of(k)[t][idx.value[j]]
  {
    assert RowBlocks(c, raw, t)[Position(k)] == Block(c, raw, t, k);
    assert Covers(c, k, raw.Of(k)[t]);
    WellPlacedIndicesExist(c, k);
  }

  /** Entry Width(kinds before k) + j of row t is the raw reading of the j-th sensor of
      kind k. */
  lemma ReadingsRowEntry(c: Config, raw: Raw, t: nat, k: SensorKind, j: nat)
    requires WellPlaced(c) && RowShaped(c, raw, t) && j < |c.sensors.Of(k)|
    ensures var row := ReadingsRow(c, raw, t);
      var idx := RawIndices(Domain(c.net, k), c.sensors.Of(k));
      var i := Width(c.sensors, ReadingOrder[..Position(k)]) + j;
      idx.Ok? && j < |idx.value| && idx.value[j] < |raw.Of(k)[t]| && i < |row| &&
      row[i] == raw.Of(k)[t][idx.value[j]]
  {
    RowEntryInBlock(c, raw, t, k, j);
    BlockEntryIsRaw(c, raw, t, k, j);
  }

  /** Column BlockStart(k) + j of row t of the readings is raw[k][t][domain.index(id)] for
      the j-th sensor id of kind k. */
  predicate ColumnIsRawReading(c: Config, raw: Raw, rows: nat, k: SensorKind, j: nat, t: nat)
    requires WellPlaced(c) && Shaped(c, raw, rows)
  {
    var r := ComputeReadings(c, raw, rows);
    var idx := RawIndices(Domain(c.net, k), c.sensors.Of(k));
    var i := BlockStart(c.sensors, k) + j;
    t < |r| && t < |raw.Of(k)| && idx.Ok? && j < |idx.value| && idx.value[j] < |raw.Of(k)[t]| &&
    i < |r[t]| && r[t][i] == raw.Of(k)[t][idx.value[j]]
  }

  /** Row t of the readings is ReadingsRow(t), and kind k's block starts at the width of
      the kinds before it. */
  lemma ReadingsAt(c: Config, raw: Raw, rows: nat, k: SensorKind, t: nat)
    requires WellPlaced(c) && Shaped(c, raw, rows) && t < rows
    ensures RowShaped(c, raw, t)
    ensures var r := ComputeReadings(c, raw, rows);
      t < |r| && r[t] == ReadingsRow(c, raw, t)
    ensures BlockStart(c.sensors, k) == Width(c.sensors, ReadingOrder[..Position(k)])
  {
  }

  /** The column of the j-th sensor of kind k holds that sensor's raw reading. */
  lemma ReadingColumn(c: Config, raw: Raw, rows: nat, k: SensorKind, j: nat, t: nat)
    requires WellPlaced(c) && Shaped(c, raw, rows) && t < rows && j < |c.sensors.Of(k)|
    ensures BlockStart(c.sensors, k) + j < NumColumns(c.sensors)
    ensures ColumnIsRawReading(c, raw, rows, k, j, t)
  {
    ReadingsAt(c, raw, rows, k, t);
    ReadingsRowEntry(c, raw, t, k, j);
    BlocksTileTheRow(c.sensors, k, k);
    assert ComputeReadings(c, raw, rows)[t] == ReadingsRow(c, raw, t);
  }

  /** A query of `get_index_of_reading`: the keyword arguments that are not None. */
  type Query = map<SensorKind, string>

  /** The first given keyword among `ks` decides; KeyError when its id has no sensor of
      that kind, ValueError when no keyword is given. */
  function LookupFirst(s: Sensors, q: Query, ks: seq<SensorKind>): (r: Result<nat>)
    ensures r.Err? ==> r.error == KeyError || r.error == ValueError
  {
    if ks == [] then Err(ValueError)
    else if ks[0] in q then
      var m := SensorsIdToIdx(s, ks[0]);
      if q[ks[0]] in m then Ok(m[q[ks[0]]]) else Err(KeyError)
    else LookupFirst(s, q, ks[1..])
  }

  /** ValueError comes exactly from giving none of the keywords. */
  lemma {:induction false} LookupNoneGiven(s: Sensors, q: Query, ks: seq<SensorKind>)
    ensures LookupFirst(s, q, ks) == Err(ValueError) <==> forall i :: 0 <= i < |ks| ==> ks[i] !in q
  {
    if ks != [] && ks[0] !in q {
      LookupNoneGiven(s, q, ks[1..]);
      assert forall i :: 1 <= i < |ks| ==> ks[i] == ks[1..][i - 1];
    }
  }

  /** `get_index_of_reading(**q)`. */
  function GetIndexOfReading(s: Sensors, q: Query): (r: Result<nat>)
    ensures r.Err? ==> r.error == KeyError || r.error == ValueError
  {
    LookupFirst(s, q, ReadingOrder)
  }

  /** "No sensor given" (ValueError) exactly when every keyword is None. */
  lemma NoSensorGiven(s: Sensors, q: Query)
    ensures GetIndexOfReading(s, q) == Err(ValueError) <==> q == map[]
  {
    LookupNoneGiven(s, q, ReadingOrder);
    if q != map[] {
      var k :| k in q;
      assert ReadingOrder[Position(k)] == k;
    }
  }

  /** For a single keyword: the index is defined exactly for the sensors of that kind,
      lies in the kind's block, and names a column whose sensor is that id (the last one
      listed if the id is listed twice). */
  lemma IndexOfReadingSingle(s: Sensors, k: SensorKind, id: string)
    ensures GetIndexOfReading(s, map[k := id]).Ok? <==> id in s.Of(k)
    ensures GetIndexOfReading(s, map[k := id]).Err? ==>
      GetIndexOfReading(s, map[k := id]).error == KeyError
    ensures GetIndexOfReading(s, map[k := id]).Ok? ==>
      var i := GetIndexOfReading(s, map[k := id]).value;
      BlockStart(s, k) <= i < BlockStart(s, k) + |s.Of(k)| &&
      s.Of(k)[i - BlockStart(s, k)] == id &&
      forall j :: i - BlockStart(s, k) < j < |s.Of(k)| ==> s.Of(k)[j] != id
    ensures id in s.Of(k) ==> GetIndexOfReading(s, map[k := id]) == Ok(SensorsIdToIdx(s, k)[id])
  {
    SingleKeywordLookup(s, k, id);
    if id in s.Of(k) {
      IdToIdxEntry(s, k, id);
    }
  }

  /** The column of a sensor id: inside its kind's block, at the id's last occurrence. */
  lemma IdToIdxEntry(s: Sensors, k: SensorKind, id: string)
    requires id in s.Of(k)
    ensures id in SensorsIdToIdx(s, k)
    ensures var i := SensorsIdToIdx(s, k)[id];
      BlockStart(s, k) <= i < BlockStart(s, k) + |s.Of(k)| &&
      s.Of(k)[i - BlockStart(s, k)] == id &&
      forall j :: i - BlockStart(s, k) < j < |s.Of(k)| ==> s.Of(k)[j] != id
  {
    IdMapIsLastIndex(s.Of(k), BlockStart(s, k), id);
    forall j | LastIndex(s.Of(k), id).value < j < |s.Of(k)|
      ensures s.Of(k)[j] != id
    {
      LastIndexIsLast(s.Of(k), id, j);
    }
  }

  /** A query with one keyword reads the id-to-column map of that keyword's kind. */
  lemma SingleKeywordLookup(s: Sensors, k: SensorKind, id: string)
    ensures GetIndexOfReading(s, map[k := id]) ==
      if id in SensorsIdToIdx(s, k) then Ok(SensorsIdToIdx(s, k)[id]) else Err(KeyError)
  {
    var q := map[k := id];
    var ro := ReadingOrder;
    var p := Position(k);
    forall i | 0 <= i < p ensures ro[i] !in q {
      PositionOfEntry(i);
    }
    LookupSkips(s, q, ro, p);
    assert ro[p..][0] == k;
  }

  /** The position of the last occurrence of an id in a list of ids. */
  function LastIndex(ids: seq<string>, id: string): (r: Option<nat>)
    ensures r.Some? <==> id in ids
    ensures r.Some? ==> r.value < |ids| && ids[r.value] == id
  {
    if ids == [] then None
    else if ids[|ids| - 1] == id then Some(|ids| - 1)
    else LastIndex(ids[..|ids| - 1], id)
  }

  /** No occurrence follows the last one. */
  lemma {:induction false} LastIndexIsLast(ids: seq<string>, id: string, j: nat)
    requires LastIndex(ids, id).Some? && LastIndex(ids, id).value < j < |ids|
    ensures ids[j] != id
  {
    var n := |ids| - 1;
    if ids[n] != id {
      if j < n {
        LastIndexIsLast(ids[..n], id, j);
      }
    }
  }

  /** Without duplicates, the last occurrence of the j-th id is j. */
  lemma LastIndexDistinct(ids: seq<string>, j: nat)
    requires j < |ids|
    requires forall a, b :: 0 <= a < b < |ids| ==> ids[a] != ids[b]
    ensures LastIndex(ids, ids[j]) == Some(j)
  {
  }

  /** The id-to-column map of `__init` sends an id to the column of its last occurrence. */
  lemma {:induction false} IdMapIsLastIndex(ids: seq<string>, offset: nat, id: string)
    ensures id in IdMap(ids, offset) <==> LastIndex(ids, id).Some?
    ensures id in IdMap(ids, offset) ==> IdMap(ids, offset)[id] == offset + LastIndex(ids, id).value
  {
    if ids != [] {
      IdMapIsLastIndex(ids[..|ids| - 1], offset, id);
    }
  }

  /** The one-keyword query `get_index_of_reading(<kind>=id)`: KeyError for an id that is
      not a sensor of the kind, otherwise the column in the kind's block of the id's last
      occurrence in the kind's list. */
  function IndexOfSensor(s: Sensors, k: SensorKind, id: string): (r: Result<nat>)
    ensures r.Ok? <==> id in s.Of(k)
    ensures r.Err? ==> r.error == KeyError
    ensures r.Ok? ==> (BlockStart(s, k) <= r.value < BlockStart(s, k) + |s.Of(k)| &&
      s.Of(k)[r.value - BlockStart(s, k)] == id)
  {
    match LastIndex(s.Of(k), id)
    case None => Err(KeyError)
    case Some(j) => Ok(BlockStart(s, k) + j)
  }

  /** The lookup agrees with the cached id-to-column map of the kind. */
  lemma IndexOfSensorIsCached(s: Sensors, k: SensorKind, id: string)
    ensures IndexOfSensor(s, k, id).Ok? <==> id in SensorsIdToIdx(s, k)
    ensures IndexOfSensor(s, k, id).Ok? ==> IndexOfSensor(s, k, id).value == SensorsIdToIdx(s, k)[id]
  {
    IdMapIsLastIndex(s.Of(k), BlockStart(s, k), id);
  }

  /** With distinct ids, the lookup of the j-th sensor of kind k is column BlockStart(k) + j. */
  lemma IndexOfDistinctId(s: Sensors, k: SensorKind, j: nat)
    requires j < |s.Of(k)|
    requires forall a, b :: 0 <= a < b < |s.Of(k)| ==> s.Of(k)[a] != s.Of(k)[b]
    ensures IndexOfSensor(s, k, s.Of(k)[j]) == Ok(BlockStart(s, k) + j)
  {
    LastIndexDistinct(s.Of(k), j);
  }

  /** The lookup finds the last occurrence of an id, so the column of an earlier
      occurrence of a repeated id is the column of no sensor at all. */
  lemma EarlierOccurrenceUnused(s: Sensors, k: SensorKind, a: nat, b: nat, k': SensorKind,
                                id: string)
    requires a < b < |s.Of(k)| && s.Of(k)[a] == s.Of(k)[b]
    ensures IndexOfSensor(s, k', id) != Ok(BlockStart(s, k) + a)
  {
    var c := BlockStart(s, k) + a;
    if IndexOfSensor(s, k', id) == Ok(c) {
      BlocksTileTheRow(s, k, k');
      BlocksTileTheRow(s, k', k);
      assert k' == k;
      LastIndexIsLast(s.Of(k), id, b);
    }
  }

  /** The keyword query with one keyword given is that lookup. */
  lemma SingleKeywordQuery(s: Sensors, k: SensorKind, id: string)
    ensures GetIndexOfReading(s, map[k := id]) == IndexOfSensor(s, k, id)
  {
    IndexOfReadingSingle(s, k, id);
    IndexOfSensorIsCached(s, k, id);
  }

  /** Each kind occupies exactly one position of the reading order. */
  lemma PositionOfEntry(i: nat)
    requires i < |ReadingOrder|
    ensures Position(ReadingOrder[i]) == i
  {
  }

  /** Keywords that are not given are skipped. */
  lemma {:induction false} LookupSkips(s: Sensors, q: Query, ks: seq<SensorKind>, i: nat)
    requires i <= |ks| && forall i' :: 0 <= i' < i ==> ks[i'] !in q
    ensures LookupFirst(s, q, ks) == LookupFirst(s, q, ks[i..])
  {
    if i > 0 {
      LookupSkips(s, q, ks[1..], i - 1);
      assert ks[1..][i - 1..] == ks[i..];
    }
  }

  /** With distinct ids, the j-th sensor of kind k is found at column BlockStart(k) + j. */
  lemma IndexOfDistinctSensor(s: Sensors, k: SensorKind, j: nat)
    requires j < |s.Of(k)|
    requires forall a, b :: 0 <= a < b < |s.Of(k)| ==> s.Of(k)[a] != s.Of(k)[b]
    ensures GetIndexOfReading(s, map[k := s.Of(k)[j]]) == Ok(BlockStart(s, k) + j)
  {
    SingleKeywordQuery(s, k, s.Of(k)[j]);
    IndexOfDistinctId(s, k, j);
  }

  /** The column `get_index_of_reading` names for a sensor holds that sensor's raw reading
      (ids of the kind being distinct). */
  lemma IndexedColumnHoldsRawReading(c: Config, raw: Raw, rows: nat, k: SensorKind, j: nat,
                                     t: nat)
    requires WellPlaced(c) && Shaped(c, raw, rows) && t < rows && j < |c.sensors.Of(k)|
    requires forall a, b :: 0 <= a < b < |c.sensors.Of(k)| ==>
      c.sensors.Of(k)[a] != c.sensors.Of(k)[b]
    ensures GetIndexOfReading(c.sensors, map[k := c.sensors.Of(k)[j]]).Ok?
    ensures var i := GetIndexOfReading(c.sensors, map[k := c.sensors.Of(k)[j]]).value;
      i < NumColumns(c.sensors) &&
      ComputeReadings(c, raw, rows)[t][i] ==
        raw.Of(k)[t][RawIndices(Domain(c.net, k), c.sensors.Of(k)).value[j]]
  {
    var readings := ComputeReadings(c, raw, rows);
    var col := BlockStart(c.sensors, k) + j;
    IndexOfDistinctSensor(c.sensors, k, j);
    ReadingColumn(c, raw, rows, k, j, t);
    assert readings[t][col] == raw.Of(k)[t][RawIndices(Domain(c.net, k), c.sensors.Of(k)).value[j]];
  }

  // ---------------------------------------------------------------------------------------
  // The mutable configuration object

  /** A `SensorConfig` instance: the network lists are fixed, the eight sensor lists can be
      replaced through their setters, and every setter recomputes the cached indices. */
  class SensorConfig {
    const net: Network
    var sensors: Sensors
    /** `__sensors_id_to_idx`, one map per kind. */
    var idToIdx: map<SensorKind, map<string, nat>>

    function AsConfig(): Config
      reads this
    {
      Config(net, sensors)
    }

    ghost predicate Valid()
      reads this
    {
      WellPlaced(AsConfig()) && forall k :: k in idToIdx && idToIdx[k] == SensorsIdToIdx(sensors, k)
    }

    /** The constructor after its checks (`NewConfig`) have passed. */
    constructor (c: Config)
      requires WellPlaced(c)
      ensures Valid() && AsConfig() == c
    {
      net := c.net;
      sensors := c.sensors;
      idToIdx := AllIdToIdx(c.sensors);
    }

    /** The setter of the sensor list of kind k: ValueError (and nothing changes) when an
        id is not an element of the kind; otherwise the list is replaced and the indices
        recomputed. */
    method SetSensors(k: SensorKind, ids: seq<string>) returns (r: Result<()>)
      requires Valid()
      modifies this
      ensures Valid()
      ensures r.Ok? <==> SubsetOf(ids, Domain(net, k))
      ensures r.Err? ==> r.error == ValueError && sensors == old(sensors)
      ensures r.Ok? ==> sensors == old(sensors).With(k, ids)
    {
      if !SubsetOf(ids, Domain(net, k)) {
        return Err(ValueError);
      }
      sensors := sensors.With(k, ids);
      idToIdx := AllIdToIdx(sensors);
      r := Ok(());
    }

    /** `get_index_of_reading`, answered from the cached maps. */
    function IndexOfReading(q: Query): (r: Result<nat>)
      requires Valid()
      reads this
      ensures r == GetIndexOfReading(sensors, q)
    {
      CacheAgrees(sensors, idToIdx, q, ReadingOrder);
      FirstFromCache(idToIdx, q, ReadingOrder)
    }

    /** `config == other`: TypeError for an object that is not a sensor configuration;
        otherwise all thirteen lists are compared. */
    function Equals(other: Obj<SensorConfig>): (r: Result<bool>)
      reads this, if other.Instance? then {other.obj} else {}
      ensures r.Err? <==> other.Foreign?
      ensures r == Ok(true) <==> other.Instance? && AsConfig() == other.obj.AsConfig()
    {
      if other.Foreign? then Err(TypeError) else Ok(AsConfig() == other.obj.AsConfig())
    }
  }

  function AllIdToIdx(s: Sensors): (m: map<SensorKind, map<string, nat>>)
    ensures forall k :: k in m && m[k] == SensorsIdToIdx(s, k)
  {
    EveryKindHasABlock();
    map k | k in ReadingOrder :: SensorsIdToIdx(s, k)
  }

  lemma EveryKindHasABlock()
    ensures forall k :: k in ReadingOrder
  {
    forall k ensures k in ReadingOrder {
      assert ReadingOrder[Position(k)] == k;
    }
  }

  /** The cached form of `LookupFirst`. */
  function FirstFromCache(cache: map<SensorKind, map<string, nat>>, q: Query,
                          ks: seq<SensorKind>): Result<nat>
    requires forall i :: 0 <= i < |ks| ==> ks[i] in cache
  {
    if ks == [] then Err(ValueError)
    else if ks[0] in q then
      if q[ks[0]] in cache[ks[0]] then Ok(cache[ks[0]][q[ks[0]]]) else Err(KeyError)
    else FirstFromCache(cache, q, ks[1..])
  }

  /** Answering from the cache is answering from the lists. */
  lemma {:induction false} CacheAgrees(s: Sensors, cache: map<SensorKind, map<string, nat>>,
                                       q: Query, ks: seq<SensorKind>)
    requires forall k :: k in cache && cache[k] == SensorsIdToIdx(s, k)
    ensures FirstFromCache(cache, q, ks) == LookupFirst(s, q, ks)
  {
    if ks != [] && ks[0] !in q {
      CacheAgrees(s, cache, q, ks[1..]);
    }
  }
}

=== FILE: sensor_faults.dfy ===
/** Sensor faults: a time multiplier that ramps a fault in after its start time and out
    after its end time, and five ways of corrupting a reading with that multiplier. A fault
    rewrites one column of readings in place, row by row. */
module SensorFaults {
  import opened Common
  import opened SensorReadingEvents

  /** The five fault classes and their parameters. */
  datatype FaultKind =
    | Constant(shift: real)
    | Drift(coef: real)
    | GaussianFault(std: real)
    | Percentage(coef: real)
    | StuckZero

  /** A validated sensor fault. */
  datatype SensorFault = SensorFault(base: SensorReadingEvent, kind: FaultKind)

  /** The constructor parameter of each class, as the caller passed it. The drift
      coefficient is typed `real` here, whereas the source accepts any object and only
      fails in `apply` when it is not a number. */
  datatype FaultParam =
    | ConstantParam(shift: Value)
    | DriftParam(driftCoef: real)
    | GaussianParam(std: Value)
    | PercentageParam(percentage: Value)
    | StuckZeroParam

  /** The class's own check, which runs before the base class checks: ValueError for a
      constant shift that is not a float, and for a Gaussian standard deviation or a
      percentage coefficient that is not a float greater than 0. Drift is not checked. */
  function CheckParam(p: FaultParam): (r: Result<FaultKind>)
    ensures r.Err? ==> r.error == ValueError
    ensures p.ConstantParam? ==> (r.Ok? <==> p.shift.Float?)
    ensures p.GaussianParam? ==> (r.Ok? <==> p.std.Float? && p.std.f > 0.0)
    ensures p.PercentageParam? ==> (r.Ok? <==> p.percentage.Float? && p.percentage.f > 0.0)
    ensures p.DriftParam? || p.StuckZeroParam? ==> r.Ok?
  {
    match p
    case ConstantParam(v) => if v.Float? then Ok(Constant(v.f)) else Err(ValueError)
    case DriftParam(c) => Ok(Drift(c))
    case GaussianParam(v) => if v.Float? && v.f > 0.0 then Ok(GaussianFault(v.f)) else Err(ValueError)
    case PercentageParam(v) =>
      if v.Float? && v.f > 0.0 then Ok(Percentage(v.f)) else Err(ValueError)
    case StuckZeroParam => Ok(StuckZero)
  }

  /** A fault constructor: its own parameter check, then the sensor id and type checks. */
  function NewSensorFault(p: FaultParam, event: Event, sensorId: Value, sensorType: Value)
    : (r: Result<SensorFault>)
    ensures CheckParam(p).Err? ==> r == Err(ValueError)
    ensures r.Ok? <==> CheckParam(p).Ok? && NewSensorReadingEvent(event, sensorId, sensorType).Ok?
    ensures r.Ok? ==> r.value.kind == CheckParam(p).value
    ensures r.Ok? ==> r.value.base == NewSensorReadingEvent(event, sensorId, sensorType).value
  {
    match CheckParam(p)
    case Err(e) => Err(e)
    case Ok(kind) =>
      match NewSensorReadingEvent(event, sensorId, sensorType)
      case Err(e) => Err(e)
      case Ok(base) => Ok(SensorFault(base, kind))
  }

  /** The constructors accept exactly positive standard deviations and coefficients. */
  lemma ParameterChecks(std: real, coef: real)
    ensures CheckParam(GaussianParam(Float(std))).Ok? <==> std > 0.0
    ensures CheckParam(PercentageParam(Float(coef))).Ok? <==> coef > 0.0
    ensures CheckParam(GaussianParam(Int(1))) == Err(ValueError)
    ensures CheckParam(ConstantParam(Int(1))) == Err(ValueError)
  {
  }

  /** `compute_multiplier(t)`: b1 - b2 with b1 = 1 - exp(-(t - start)) from the start time
      on and b2 = 1 - exp(-(t - end)) from the end time on. Comparing with an end time of
      None raises TypeError. */
  function Multiplier(m: Transcendentals, e: Event, t: int): (r: Result<real>)
    ensures r.Ok? <==> e.end.Some?
    ensures r.Err? ==> r.error == TypeError
  {
    var b1 := if t >= e.start then 1.0 - m.exp(-((t - e.start) as real)) else 0.0;
    if e.end.None? then Err(TypeError)
    else
      var b2 := if t >= e.end.value then 1.0 - m.exp(-((t - e.end.value) as real)) else 0.0;
      Ok(b1 - b2)
  }

  /** Before the start time, and at the start time itself, the multiplier is 0. */
  lemma MultiplierZeroUntilStart(m: Transcendentals, e: Event, t: int)
    requires Sound(m) && e.end.Some? && e.start <= e.end.value
    requires t < e.start || t == e.start < e.end.value
    ensures Multiplier(m, e, t) == Ok(0.0)
  {
  }

  /** Within a well-ordered window the multiplier lies in [0, 1]. */
  lemma MultiplierInUnitRange(m: Transcendentals, e: Event, t: int)
    requires Sound(m) && e.end.Some? && e.start <= e.end.value
    ensures 0.0 <= Multiplier(m, e, t).value <= 1.0
  {
    if t >= e.end.value {
      assert -((t - e.start) as real) <= -((t - e.end.value) as real);
      assert -((t - e.end.value) as real) <= 0.0;
    } else if t >= e.start {
      assert -((t - e.start) as real) <= 0.0;
    }
  }

  /** The reading a fault of this class reports at full strength: shifted by the
      constant, drifted by coef per time unit since the start, shifted by std times the
      normal draw, scaled by 1 + coef, or stuck at zero. */
  function FullFault(kind: FaultKind, start: int, reading: real, t: int, z: real): real
  {
    match kind
    case Constant(shift) => reading + shift
    case Drift(coef) => reading + coef * ((t - start) as real)
    case GaussianFault(std) => reading + std * z
    case Percentage(coef) => reading * (1.0 + coef)
    case StuckZero => 0.0
  }

  /** `apply_sensor_fault(b, reading, t)`; `z` is the standard normal draw the Gaussian
      fault scales by its standard deviation. The faulty reading lies on the line from
      the reading (multiplier 0) to the full-strength fault (multiplier 1), at fraction
      b of the way. */
  function ApplySensorFault(kind: FaultKind, start: int, b: real, reading: real, t: int, z: real)
    : (r: real)
    ensures r == reading + b * (FullFault(kind, start, reading, t, z) - reading)
    ensures b == 0.0 ==> r == reading
    ensures b == 1.0 ==> r == FullFault(kind, start, reading, t, z)
  {
    match kind
    case Constant(shift) => reading + b * shift
    case Drift(coef) => reading + b * (coef * ((t - start) as real))
    case GaussianFault(std) => reading + b * (std * z)
    case Percentage(coef) => reading + b * coef * reading
    case StuckZero => reading + b * (-1.0 * reading)
  }

  /** With multiplier 0 every fault leaves the reading unchanged; with multiplier 1 a
      stuck-at-zero fault yields 0, a percentage fault reading * (1 + coef), a constant
      fault reading + shift, and a drift coef * (t - start) more. */
  lemma FaultAtMultiplierBounds(kind: FaultKind, start: int, reading: real, t: int, z: real)
    ensures ApplySensorFault(kind, start, 0.0, reading, t, z) == reading
    ensures kind.StuckZero? ==> ApplySensorFault(kind, start, 1.0, reading, t, z) == 0.0
    ensures kind.Percentage? ==>
      ApplySensorFault(kind, start, 1.0, reading, t, z) == reading * (1.0 + kind.coef)
    ensures kind.Constant? ==> ApplySensorFault(kind, start, 1.0, reading, t, z) == reading + kind.shift
    ensures kind.Drift? ==>
      ApplySensorFault(kind, start, 1.0, reading, t, z) == reading + kind.coef * ((t - start) as real)
  {
  }

  /** The column after `apply`: row i rewritten with the multiplier at time i. */
  function FaultColumn(m: Transcendentals, f: SensorFault, xs: seq<real>, times: seq<int>,
                       z: nat -> real): (ys: seq<real>)
    requires f.base.event.end.Some? && |xs| <= |times|
    ensures |ys| == |xs|
  {
    seq(|xs|, i requires 0 <= i < |xs| =>
      ApplySensorFault(f.kind, f.base.event.start, Multiplier(m, f.base.event, times[i]).value,
                       xs[i], times[i], z(i)))
  }

  /** Rows before the fault starts are left as they were. */
  lemma FaultSparesEarlyRows(m: Transcendentals, f: SensorFault, xs: seq<real>, times: seq<int>,
                             z: nat -> real, i: nat)
    requires Sound(m) && f.base.event.end.Some? && f.base.event.start <= f.base.event.end.value
    requires |xs| <= |times| && i < |xs| && times[i] <= f.base.event.start
    requires times[i] < f.base.event.start || f.base.event.start < f.base.event.end.value
    ensures FaultColumn(m, f, xs, times, z)[i] == xs[i]
  {
    MultiplierZeroUntilStart(m, f.base.event, times[i]);
    FaultAtMultiplierBounds(f.kind, f.base.event.start, xs[i], times[i], z(i));
  }

  /** `apply(readings, times)`: rewrites every row in place and returns the same array;
      an event without an end time fails on the first row, before anything is written. */
  method Apply(m: Transcendentals, f: SensorFault, readings: array<real>, times: seq<int>,
               z: nat -> real) returns (r: Result<array<real>>)
    requires readings.Length <= |times|
    modifies readings
    ensures r.Ok? <==> f.base.event.end.Some? || readings.Length == 0
    ensures r.Ok? ==> r.value == readings
    ensures r.Ok? && f.base.event.end.Some? ==>
      readings[..] == FaultColumn(m, f, old(readings[..]), times, z)
    ensures r.Err? ==> r.error == TypeError && readings[..] == old(readings[..])
  {
    ghost var xs := readings[..];
    for i := 0 to readings.Length
      invariant readings[i..] == xs[i..]
      invariant i > 0 ==> f.base.event.end.Some?
      invariant f.base.event.end.Some? ==> readings[..i] == FaultColumn(m, f, xs, times, z)[..i]
    {
      var b := Multiplier(m, f.base.event, times[i]);
      if b.Err? {
        assert readings[..] == readings[i..];
        return Err(b.error);
      }
      readings[i] := ApplySensorFault(f.kind, f.base.event.start, b.value, readings[i], times[i], z(i));
    }
    assert readings[..] == readings[..readings.Length];
    r := Ok(readings);
  }

  /** Calling a sensor reading event, `event(readings, times)`, is `apply` on the same
      arguments: the same array rewritten the same way, and the same error. */
  method Call(m: Transcendentals, f: SensorFault, readings: array<real>, times: seq<int>,
              z: nat -> real) returns (r: Result<array<real>>)
    requires readings.Length <= |times|
    modifies readings
    ensures r.Ok? <==> f.base.event.end.Some? || readings.Length == 0
    ensures r.Ok? ==> r.value == readings
    ensures r.Ok? && f.base.event.end.Some? ==>
      readings[..] == FaultColumn(m, f, old(readings[..]), times, z)
    ensures r.Err? ==> r.error == TypeError && readings[..] == old(readings[..])
  {
    r := Apply(m, f, readings, times, z);
  }

  /** The name and value of a fault's parameter property, for the equality of two
      faults; a stuck-at-zero fault has none. */
  function OwnParam(kind: FaultKind): (r: Option<(string, real)>)
    ensures r.None? <==> kind.StuckZero?
    ensures kind.Constant? ==> r == Some(("constant_shift", kind.shift))
    ensures kind.Drift? || kind.Percentage? ==> r == Some(("coef", kind.coef))
    ensures kind.GaussianFault? ==> r == Some(("std", kind.std))
  {
    match kind
    case Constant(shift) => Some(("constant_shift", shift))
    case Drift(coef) => Some(("coef", coef))
    case GaussianFault(std) => Some(("std", std))
    case Percentage(coef) => Some(("coef", coef))
    case StuckZero => None
  }

  /** `other.<name>` on a fault; AttributeError when its class has no such property. */
  function ParamOf(kind: FaultKind, name: string): (r: Result<real>)
    ensures r.Ok? <==> OwnParam(kind).Some? && OwnParam(kind).value.0 == name
    ensures r.Ok? ==> r.value == OwnParam(kind).value.1
    ensures r.Err? ==> r.error == AttributeError
  {
    match OwnParam(kind)
    case Some(p) => if p.0 == name then Ok(p.1) else Err(AttributeError)
    case None => Err(AttributeError)
  }

  /** `f == other` for two faults: the sensor reading event comparison, then the own
      parameter read from `other` (short-circuited when the events differ). */
  function FaultEquals(f: SensorFault, other: SensorFault): (r: Result<bool>)
    ensures f.base != other.base ==> r == Ok(false)
    ensures r == Ok(true) ==> f.base == other.base
  {
    if f.base != other.base then Ok(false)
    else
      match OwnParam(f.kind)
      case None => Ok(true)
      case Some(p) =>
        match ParamOf(other.kind, p.0)
        case Err(e) => Err(e)
        case Ok(x) => Ok(p.1 == x)
  }

  /** Faults of the same class are equal exactly when their events and parameters are;
      a drift and a percentage fault with the same coefficient compare equal, and a
      constant fault compared with a drift fault raises AttributeError. */
  lemma FaultEqualityCases(b: SensorReadingEvent, k1: FaultKind, k2: FaultKind, c: real)
    requires k1.Constant? == k2.Constant? && k1.Drift? == k2.Drift?
    requires k1.GaussianFault? == k2.GaussianFault? && k1.Percentage? == k2.Percentage?
    ensures FaultEquals(SensorFault(b, k1), SensorFault(b, k2)) == Ok(k1 == k2)
    ensures FaultEquals(SensorFault(b, Drift(c)), SensorFault(b, Percentage(c))) == Ok(true)
    ensures FaultEquals(SensorFault(b, Constant(c)), SensorFault(b, Drift(c))) == Err(AttributeError)
  {
    assert "constant_shift" != "coef";
  }
}

=== FILE: sensor_noise.dfy ===
/** Sensor noise: a wrapper that applies one uncertainty to a whole matrix of sensor
    readings (rows are time steps, columns are sensors). */
module SensorNoises {
  import opened Common
  import opened Uncertainties

  class SensorNoise {
    const uncertainty: Uncertainty

    ghost predicate Valid()
      reads this, uncertainty
    {
      uncertainty.Valid()
    }

    constructor (u: Uncertainty)
      requires u.Valid()
      ensures uncertainty == u && Valid()
    {
      uncertainty := u;
    }

    /** The `uncertainty` property: a deep copy, so the caller cannot advance the stored
        generator's cursor. */
    method GetUncertainty() returns (u: Uncertainty)
      requires Valid()
      ensures fresh(u) && u.Valid()
      ensures u.bounds == uncertainty.bounds && u.variant == uncertainty.variant
      ensures u.State() == uncertainty.State()
    {
      u := new Uncertainty.Copy(uncertainty);
    }

    /** `apply(readings)`: `apply_batch` of the uncertainty over the rows; every row gets
        one noise value, and a bounded uncertainty fails on the first row. */
    method Apply(readings: seq<seq<real>>) returns (r: Result<seq<seq<real>>>)
      requires Valid()
      modifies uncertainty
      ensures Valid()
      ensures (uncertainty.State(), r) == RunRows(uncertainty.variant, uncertainty.rnd,
                                                  uncertainty.bounds, old(uncertainty.State()),
                                                  readings)
    {
      r := uncertainty.ApplyBatchRows(readings);
    }

    /** `noise == other`: the uncertainties compared by `Equal`; reading `other.uncertainty`
        from an object that is not a sensor noise raises AttributeError. */
    function Equals(other: Obj<SensorNoise>): (r: Result<bool>)
      ensures other.Foreign? ==> r == Err(AttributeError)
      ensures other.Instance? && uncertainty.bounds != other.obj.uncertainty.bounds ==>
        r == Ok(false)
    {
      if other.Foreign? then Err(AttributeError)
      else uncertainty.Equals(other.obj.uncertainty)
    }
  }

  /** `SensorNoise(uncertainty)`: TypeError unless the argument is an uncertainty. */
  method NewSensorNoise(u: Obj<Uncertainty>) returns (r: Result<SensorNoise>)
    requires u.Instance? ==> u.obj.Valid()
    ensures r.Err? <==> u.Foreign?
    ensures r.Err? ==> r.error == TypeError
    ensures r.Ok? ==> fresh(r.value) && r.value.uncertainty == u.obj && r.value.Valid()
  {
    if u.Foreign? {
      return Err(TypeError);
    }
    var n := new SensorNoise(u.obj);
    r := Ok(n);
  }

  /** Two sensor noises built from uncertainties of the same class are equal exactly when
      their bounds and parameters agree; the noise state never matters. */
  lemma EqualsIgnoresState(a: SensorNoise, b: SensorNoise)
    requires ClassOf(a.uncertainty.variant) == ClassOf(b.uncertainty.variant)
    ensures a.Equals(Instance(b)) == Ok(a.uncertainty.bounds == b.uncertainty.bounds &&
                                        a.uncertainty.variant == b.uncertainty.variant)
  {
    EqualSameClass(a.uncertainty.bounds, a.uncertainty.variant,
                   b.uncertainty.bounds, b.uncertainty.variant);
  }
}

=== FILE: sensor_reading_event.dfy ===
/** Events that act on sensor readings: the sensor they target (id and type code) and
    their time window. */
module SensorReadingEvents {
  import opened Common
  import SensorConfigs

  /** A validated sensor reading event. */
  datatype SensorReadingEvent = SensorReadingEvent(event: Event, sensorId: string, sensorType: int)

  /** `SensorReadingEvent(sensor_id, sensor_type)`: TypeError for a sensor id that is not a
      str or a type that is not an int (a bool counts as an int), ValueError for a type
      outside 1..8; the id check comes first. The type is kept as its integer value, so a
      `True` type code is stored as 1 where Python keeps the bool. */
  function NewSensorReadingEvent(event: Event, sensorId: Value, sensorType: Value)
    : (r: Result<SensorReadingEvent>)
    ensures r.Ok? <==> sensorId.Str? && IsInt(sensorType) && 1 <= IntOf(sensorType) <= 8
    ensures !sensorId.Str? ==> r == Err(TypeError)
    ensures sensorId.Str? && !IsInt(sensorType) ==> r == Err(TypeError)
    ensures sensorId.Str? && IsInt(sensorType) && !(1 <= IntOf(sensorType) <= 8) ==>
      r == Err(ValueError)
    ensures r.Ok? ==> r.value == SensorReadingEvent(event, sensorId.s, IntOf(sensorType))
  {
    if !sensorId.Str? then Err(TypeError)
    else if !IsInt(sensorType) then Err(TypeError)
    else if !(1 <= IntOf(sensorType) <= 8) then Err(ValueError)
    else Ok(SensorReadingEvent(event, sensorId.s, IntOf(sensorType)))
  }

  /** A validated event names one of the eight kinds of sensor. */
  lemma ValidatedTypeIsAKind(event: Event, sensorId: Value, sensorType: Value)
    requires NewSensorReadingEvent(event, sensorId, sensorType).Ok?
    ensures SensorConfigs.KindOfCode(NewSensorReadingEvent(event, sensorId, sensorType).value.sensorType).Some?
  {
  }

  /** `get_attributes()`: exactly the sensor id and the type code. */
  function Attributes(e: SensorReadingEvent): (m: map<string, Value>)
    ensures m.Keys == {"sensor_id", "sensor_type"}
    ensures m["sensor_id"] == Str(e.sensorId) && m["sensor_type"] == Int(e.sensorType)
  {
    map["sensor_id" := Str(e.sensorId), "sensor_type" := Int(e.sensorType)]
  }

  /** The attributes of a validated event rebuild it. */
  lemma AttributesRoundTrip(event: Event, sensorId: Value, sensorType: Value)
    requires NewSensorReadingEvent(event, sensorId, sensorType).Ok?
    ensures var e := NewSensorReadingEvent(event, sensorId, sensorType).value;
      NewSensorReadingEvent(event, Attributes(e)["sensor_id"], Attributes(e)["sensor_type"]) == Ok(e)
  {
  }

  /** `e == other`: TypeError when `other` is not a sensor reading event; otherwise the base
      class comparison (taken to compare the time windows) and the same id and type. */
  function Equals(e: SensorReadingEvent, other: Obj<SensorReadingEvent>): (r: Result<bool>)
    ensures r.Err? <==> other.Foreign?
    ensures r.Err? ==> r.error == TypeError
    ensures r == Ok(true) <==> other == Instance(e)
  {
    if other.Foreign? then Err(TypeError)
    else Ok(e.event == other.obj.event && e.sensorId == other.obj.sensorId
            && e.sensorType == other.obj.sensorType)
  }
}

=== FILE: system_event.dfy ===
/** System events: events that act on the hydraulic simulation. At every simulation step
    an event is applied while the current time lies in its window; outside the window its
    exit hook runs once, guarded by a flag that is never cleared. */
module SystemEvents {
  import opened Common

  /** What one step did: called `apply`, called `exit`, or nothing. */
  datatype StepAction = Applied(t: int) | Exited(t: int) | Idle

  /** `start_time <= cur_time < end_time` as a chained comparison: it stops at the first
      false part, so an end time of None is only compared with, and raises TypeError, when
      the current time has reached the start time. */
  function InWindow(e: Event, t: int): (r: Result<bool>)
    ensures r.Err? <==> e.start <= t && e.end.None?
    ensures r.Err? ==> r.error == TypeError
    ensures r.Ok? ==> (r.value <==> e.start <= t && e.end.Some? && t < e.end.value)
  {
    if !(e.start <= t) then Ok(false)
    else if e.end.None? then Err(TypeError)
    else Ok(t < e.end.value)
  }

  /** `step(cur_time)` on the exit flag: apply inside the window; outside it, exit when the
      flag is clear, then set it. Yields the action and the new flag. */
  function StepRule(e: Event, exitCalled: bool, t: int): (r: Result<(StepAction, bool)>)
    ensures r.Err? <==> InWindow(e, t).Err?
    ensures r.Err? ==> r.error == TypeError
    ensures r.Ok? ==> (r.value.0.Applied? <==> InWindow(e, t) == Ok(true))
    ensures r.Ok? ==> (r.value.0.Exited? <==> InWindow(e, t) == Ok(false) && !exitCalled)
    ensures r.Ok? && !r.value.0.Idle? ==> r.value.0.t == t
    ensures r.Ok? ==> (r.value.1 <==> exitCalled || r.value.0.Exited?)
  {
    match InWindow(e, t)
    case Err(x) => Err(x)
    case Ok(inside) =>
      if inside then Ok((Applied(t), exitCalled))
      else if !exitCalled then Ok((Exited(t), true))
      else Ok((Idle, exitCalled))
  }

  /** The steps of one event over a sequence of times, stopping at the first error. A run
      fails, with TypeError, exactly when one of its times reaches the start of a window
      without an end; otherwise it takes one action per time, applying the event exactly at
      the times inside the window. */
  function RunSteps(e: Event, exitCalled: bool, ts: seq<int>)
    : (r: Result<(seq<StepAction>, bool)>)
    ensures r.Ok? <==> forall i :: 0 <= i < |ts| ==> InWindow(e, ts[i]).Ok?
    ensures r.Err? ==> r.error == TypeError
    ensures r.Ok? ==> |r.value.0| == |ts|
    ensures r.Ok? ==> forall i :: 0 <= i < |ts| ==>
      (r.value.0[i].Applied? <==> InWindow(e, ts[i]) == Ok(true)) &&
      (!r.value.0[i].Idle? ==> r.value.0[i].t == ts[i])
    decreases |ts|
  {
    if ts == [] then Ok(([], exitCalled))
    else
      match StepRule(e, exitCalled, ts[0])
      case Err(x) => Err(x)
      case Ok(step) =>
        match RunSteps(e, step.1, ts[1..])
        case Err(x) => Err(x)
        case Ok(rest) => Ok(([step.0] + rest.0, rest.1))
  }

  /** The number of `exit` calls among some actions. */
  function Exits(acts: seq<StepAction>): nat
    decreases |acts|
  {
    if acts == [] then 0 else (if acts[0].Exited? then 1 else 0) + Exits(acts[1..])
  }

  /** Over any run, `exit` is called at most once, and never once the flag is set; the flag
      ends up set exactly when it was set before or an exit happened. */
  lemma {:induction false} ExitAtMostOnce(e: Event, exitCalled: bool, ts: seq<int>)
    requires RunSteps(e, exitCalled, ts).Ok?
    ensures var run := RunSteps(e, exitCalled, ts).value;
      Exits(run.0) + (if exitCalled then 1 else 0) <= 1 &&
      (run.1 <==> exitCalled || Exits(run.0) == 1)
    decreases |ts|
  {
    if ts != [] {
      var step := StepRule(e, exitCalled, ts[0]).value;
      ExitAtMostOnce(e, step.1, ts[1..]);
      var rest := RunSteps(e, step.1, ts[1..]).value;
      assert ([step.0] + rest.0)[1..] == rest.0;
    }
  }

  /** Every step of a run is applied exactly when its time lies in the window, whether or
      not the exit hook has already run; a step before the window opens may be the exit. */
  lemma {:induction false} AppliedExactlyInWindow(e: Event, exitCalled: bool, ts: seq<int>, i: nat)
    requires RunSteps(e, exitCalled, ts).Ok? && i < |ts|
    ensures |RunSteps(e, exitCalled, ts).value.0| == |ts|
    ensures RunSteps(e, exitCalled, ts).value.0[i].Applied? <==> InWindow(e, ts[i]) == Ok(true)
    decreases |ts|
  {
    var step := StepRule(e, exitCalled, ts[0]).value;
    var rest := RunSteps(e, step.1, ts[1..]).value;
    if i == 0 {
      if |ts| > 1 {
        AppliedExactlyInWindow(e, step.1, ts[1..], 0);
      }
    } else {
      AppliedExactlyInWindow(e, step.1, ts[1..], i - 1);
      assert ([step.0] + rest.0)[i] == rest.0[i - 1];
    }
  }

  /** A fresh event whose window has not opened yet exits on its first step, and an event
      whose flag is set applies on a step inside its window. */
  lemma EarlyExitAndLateApply(e: Event, t: int, u: int)
    requires t < e.start
    requires e.end.Some? && e.start <= u < e.end.value
    ensures StepRule(e, false, t) == Ok((Exited(t), true))
    ensures StepRule(e, true, u) == Ok((Applied(u), true))
  {
  }

  /** The state a system event keeps between steps; `A` is the simulator handle. */
  class SystemEvent<A> {
    const event: Event
    var api: Option<A>
    var exitCalled: bool

    /** `__init__`: no simulator handle yet and the exit flag clear. */
    constructor (e: Event)
      ensures event == e && api == None && !exitCalled
    {
      event := e;
      api := None;
      exitCalled := false;
    }

    /** `init(epanet_api)`: stores the handle and nothing else. */
    method Init(a: A)
      modifies this
      ensures api == Some(a) && exitCalled == old(exitCalled)
    {
      api := Some(a);
    }

    /** `step(cur_time)`: the action taken and the new exit flag follow `StepRule`; on a
        TypeError the flag is left as it was. */
    method Step(t: int) returns (r: Result<StepAction>)
      modifies this
      ensures api == old(api)
      ensures StepRule(event, old(exitCalled), t).Ok? ==>
        r == Ok(StepRule(event, old(exitCalled), t).value.0) &&
        exitCalled == StepRule(event, old(exitCalled), t).value.1
      ensures StepRule(event, old(exitCalled), t).Err? ==>
        r == Err(TypeError) && exitCalled == old(exitCalled)
    {
      if !(event.start <= t) || (event.end.Some? && t >= event.end.value) {
        if !exitCalled {
          r := Ok(Exited(t));
          exitCalled := true;
        } else {
          r := Ok(Idle);
        }
      } else if event.end.None? {
        r := Err(TypeError);
      } else {
        r := Ok(Applied(t));
      }
    }

    /** Calling the event is a step. */
    method Call(t: int) returns (r: Result<StepAction>)
      modifies this
      ensures api == old(api)
      ensures StepRule(event, old(exitCalled), t).Ok? ==>
        r == Ok(StepRule(event, old(exitCalled), t).value.0) &&
        exitCalled == StepRule(event, old(exitCalled), t).value.1
      ensures StepRule(event, old(exitCalled), t).Err? ==>
        r == Err(TypeError) && exitCalled == old(exitCalled)
    {
      r := Step(t);
    }
  }
}

=== FILE: uncertainties.dfy ===
/** Noise generators ("uncertainties") that perturb sensor readings: the shared clipping
    bounds, the stationary Gaussian and uniform variants, and the three "deep" variants whose
    noise is drawn from time-varying distributions. The buffered variants pre-generate
    `NSamples` noise values and consume one per call; the instance is a small state machine
    (buffer, cursor, generation) that regenerates its buffer when the cursor reaches the end.

    Randomness is an injected oracle (`Randomness`): numpy's draws and the deep-pattern
    helpers, which live in a module that is not part of this model, are functions of
    (generation, slot) whose only known properties are the ranges in `WellFormed`. */
module Uncertainties {
  import opened Common

  /** `n_samples`, the default size of every pre-generated noise buffer. */
  const NSamples: nat := 500

  function Min(a: real, b: real): real { if a <= b then a else b }
  function Max(a: real, b: real): real { if a >= b then a else b }

  // ---------------------------------------------------------------------------------------
  // Clipping

  /** The optional `min_value` / `max_value` every uncertainty carries. */
  datatype Bounds = Bounds(minValue: Option<real>, maxValue: Option<real>)

  const NoBounds := Bounds(None, None)

  /** `Uncertainty.clip` as written: `np.min` against `min_value`, then `np.max` against
      `max_value`, so `min_value` acts as a cap and `max_value` as a floor. */
  function ClipAsWritten(b: Bounds, x: real): (r: real)
    ensures b == NoBounds ==> r == x
    ensures b.maxValue.Some? ==> r >= b.maxValue.value
    ensures b.minValue.Some? && b.maxValue.None? ==> r <= b.minValue.value
    ensures r == x || Some(r) == b.minValue || Some(r) == b.maxValue
  {
    var capped := if b.minValue.Some? then Min(x, b.minValue.value) else x;
    if b.maxValue.Some? then Max(capped, b.maxValue.value) else capped
  }

  /** As written, with only `min_value` the result is min(x, min_value); with only
      `max_value` it is max(x, max_value); with both it is max(min(x, min_value), max_value). */
  lemma ClipAsWrittenCases(b: Bounds, x: real)
    ensures b.minValue.Some? && b.maxValue.None? ==> ClipAsWritten(b, x) == Min(x, b.minValue.value)
    ensures b.minValue.None? && b.maxValue.Some? ==> ClipAsWritten(b, x) == Max(x, b.maxValue.value)
    ensures b.minValue.Some? && b.maxValue.Some? ==>
      ClipAsWritten(b, x) == Max(Min(x, b.minValue.value), b.maxValue.value)
  {
  }

  /** The clipping as written is idempotent, for every combination of bounds. */
  lemma ClipAsWrittenIdempotent(b: Bounds, x: real)
    ensures ClipAsWritten(b, ClipAsWritten(b, x)) == ClipAsWritten(b, x)
  {
  }

  /** As written, whenever both bounds are set with `min_value < max_value` (the ordinary
      configuration) every input is mapped to `max_value`. */
  lemma ClipCollapsesOrdinaryRange(lo: real, hi: real, x: real)
    requires lo < hi
    ensures ClipAsWritten(Bounds(Some(lo), Some(hi)), x) == hi
  {
  }

  /** `Uncertainty.clip` with uncertainties.py:51-54 corrected, as the parameter
      documentation describes it: `min_value` is a lower bound and `max_value` an upper
      bound. Every `apply` of the model uses this clipping. */
  function Clip(b: Bounds, x: real): (r: real)
    ensures b.minValue.Some? ==>
      (r >= b.minValue.value || (b.maxValue.Some? && b.maxValue.value < b.minValue.value))
    ensures b.maxValue.Some? ==> r <= b.maxValue.value
    ensures ((b.minValue.None? || b.minValue.value <= x) &&
             (b.maxValue.None? || x <= b.maxValue.value)) ==> r == x
  {
    var floored := if b.minValue.Some? then Max(x, b.minValue.value) else x;
    if b.maxValue.Some? then Min(floored, b.maxValue.value) else floored
  }

  /** Clipping to ordered bounds keeps a value inside [min_value, max_value]. */
  lemma ClipInRange(lo: real, hi: real, x: real)
    requires lo <= hi
    ensures lo <= Clip(Bounds(Some(lo), Some(hi)), x) <= hi
  {
  }

  /** Clipping twice is clipping once, for every combination of bounds, crossed ones
      included. */
  lemma ClipIdempotent(b: Bounds, x: real)
    ensures Clip(b, Clip(b, x)) == Clip(b, x)
  {
  }

  /** With both bounds set in order, a value strictly between them passes the corrected
      clipping unchanged, while the clipping as written maps it to `max_value`. */
  lemma ClipAsWrittenDiffers(lo: real, hi: real, x: real)
    requires lo < x < hi
    ensures Clip(Bounds(Some(lo), Some(hi)), x) == x
    ensures ClipAsWritten(Bounds(Some(lo), Some(hi)), x) == hi != x
  {
  }

  /** Clipping a whole row of readings (the case of a two-dimensional `apply_batch`, where
      `data[t]` is a row): with no bound set the row is returned; with a bound set
      `np.min([row, bound])` is asked to build an array from an array and a scalar, which
      numpy refuses with ValueError. */
  function ClipRow(b: Bounds, row: seq<real>): (r: Result<seq<real>>)
    ensures r.Ok? <==> b == NoBounds
    ensures r.Ok? ==> r.value == row
    ensures r.Err? ==> r.error == ValueError
  {
    if b == NoBounds then Ok(row) else Err(ValueError)
  }

  // ---------------------------------------------------------------------------------------
  // Randomness

  /** One call of the deep-pattern helper `create_deep_random_pattern(n, min, max, init)`:
      the generation and call slot it belongs to, and the arguments it receives. */
  datatype PatternCall = PatternCall(generation: nat, slot: nat, n: nat, lo: Option<real>,
                                     hi: Option<real>, init: Option<real>)

  /** The random sources an uncertainty draws from. `unit(g, j)` is the j-th draw of
      `np.random.rand` / `np.random.uniform()` in generation g, `normal(g, j)` the j-th
      standard normal draw, `param(j)` a draw taken at construction time, `pattern` the
      deep-pattern helper and `gaussianPattern(g, n)` the helper
      `generate_deep_random_gaussian_noise(n)` called in generation g. */
  datatype Randomness = Randomness(
    unit: (nat, nat) -> real,
    normal: (nat, nat) -> real,
    param: nat -> real,
    pattern: PatternCall -> seq<real>,
    gaussianPattern: (nat, nat) -> seq<real>)

  /** What the model assumes of the random sources: uniform draws lie in [0, 1) and the
      pattern helpers return as many values as they are asked for. */
  ghost predicate WellFormed(rnd: Randomness)
  {
    (forall g: nat, j: nat :: 0.0 <= rnd.unit(g, j) < 1.0) &&
    (forall j: nat :: 0.0 <= rnd.param(j) < 1.0) &&
    (forall c: PatternCall :: |rnd.pattern(c)| == c.n) &&
    (forall g: nat, n: nat :: |rnd.gaussianPattern(g, n)| == n)
  }

  /** `np.random.uniform(low, high)` for a unit draw u: low + (high - low) * u. */
  function UniformDraw(low: real, high: real, u: real): (r: real)
    ensures u == 0.0 ==> r == low
    ensures u == 1.0 ==> r == high
    ensures low == high ==> r == low
  {
    low + (high - low) * u
  }

  lemma UniformDrawInRange(low: real, high: real, u: real)
    requires low <= high && 0.0 <= u < 1.0
    ensures low <= UniformDraw(low, high, u) <= high
  {
    var d := high - low;
    MulNonNegative(d, u);
    MulNonNegative(d, 1.0 - u);
    assert d * (1.0 - u) == d - d * u;
  }

  lemma MulNonNegative(a: real, b: real)
    requires a >= 0.0 && b >= 0.0
    ensures a * b >= 0.0
  {
  }

  // ---------------------------------------------------------------------------------------
  // Variants and buffer generation

  /** The five concrete uncertainties and their parameters. */
  datatype Variant =
    | Gaussian(mean: real, scale: real)
    | Uniform(low: real, high: real)
    | DeepUniform
    | DeepGaussian
    | Deep(minNoise: real, maxNoise: real)
  {
    /** Every variant except the uniform one pre-generates a buffer. */
    predicate Buffered() { !Uniform? }
  }

  function PointwiseMin(a: seq<real>, b: seq<real>): (r: seq<real>)
    requires |a| == |b|
    ensures |r| == |a| && forall t :: 0 <= t < |r| ==> r[t] <= a[t] && r[t] <= b[t]
  {
    seq(|a|, t requires 0 <= t < |a| => Min(a[t], b[t]))
  }

  function PointwiseMax(a: seq<real>, b: seq<real>): (r: seq<real>)
    requires |a| == |b|
    ensures |r| == |a| && forall t :: 0 <= t < |r| ==> r[t] >= a[t] && r[t] >= b[t]
  {
    seq(|a|, t requires 0 <= t < |a| => Max(a[t], b[t]))
  }

  /** The two bound sequences of `DeepUniformUncertainty.__create_uncertainties`: the
      element-wise minimum of the two patterns, then the element-wise maximum of that
      minimum and the second pattern. */
  function DeepUniformBounds(rnd: Randomness, g: nat): (r: (seq<real>, seq<real>))
    requires WellFormed(rnd)
    ensures |r.0| == NSamples && |r.1| == NSamples
    ensures forall t :: 0 <= t < NSamples ==> r.0[t] <= r.1[t]
  {
    var a := rnd.pattern(PatternCall(g, 0, NSamples, None, None, None));
    var b := rnd.pattern(PatternCall(g, 1, NSamples, None, None, None));
    var low := PointwiseMin(a, b);
    (low, PointwiseMax(low, b))
  }

  /** `__create_uncertainties` of generation g: the fresh buffer of `NSamples` noise
      values; `prev` is the last value of the previous buffer, which only the deep
      variant uses (as the pattern's initial value). */
  function Generate(v: Variant, rnd: Randomness, g: nat, prev: Option<real>): (s: seq<real>)
    requires v.Buffered() && WellFormed(rnd)
    ensures |s| == NSamples
  {
    match v
    case Gaussian(m, sd) => seq(NSamples, i requires 0 <= i < NSamples => m + sd * rnd.normal(g, i))
    case DeepUniform =>
      var bounds := DeepUniformBounds(rnd, g);
      seq(NSamples, t requires 0 <= t < NSamples =>
        UniformDraw(bounds.0[t], bounds.1[t], rnd.unit(g, t)))
    case DeepGaussian => rnd.gaussianPattern(g, NSamples)
    case Deep(lo, hi) => rnd.pattern(PatternCall(g, 0, NSamples, Some(lo), Some(hi), prev))
  }

  /** Every stored deep-uniform value is drawn from [low[t], high[t]], and low[t] <= high[t]. */
  lemma DeepUniformValuesInBounds(rnd: Randomness, g: nat, prev: Option<real>, t: nat)
    requires WellFormed(rnd) && t < NSamples
    ensures DeepUniformBounds(rnd, g).0[t] <= DeepUniformBounds(rnd, g).1[t]
    ensures DeepUniformBounds(rnd, g).0[t] <= Generate(DeepUniform, rnd, g, prev)[t]
                                          <= DeepUniformBounds(rnd, g).1[t]
  {
    var bounds := DeepUniformBounds(rnd, g);
    UniformDrawInRange(bounds.0[t], bounds.1[t], rnd.unit(g, t));
  }

  /** The deep variant continues its random walk: a regenerated buffer is the pattern
      started from the last value of the previous one, bounded by the noise bounds. */
  lemma DeepContinuation(lo: real, hi: real, rnd: Randomness, g: nat, last: real)
    requires WellFormed(rnd)
    ensures Generate(Deep(lo, hi), rnd, g, Some(last))
            == rnd.pattern(PatternCall(g, 0, NSamples, Some(lo), Some(hi), Some(last)))
  {
  }

  // ---------------------------------------------------------------------------------------
  // The buffer/cursor state machine

  /** The transient state of an uncertainty: the buffer, the cursor into it, and the number
      of buffers generated so far (for the uniform variant: the number of draws). */
  datatype NoiseState = NoiseState(buffer: seq<real>, idx: nat, generation: nat)

  /** States of a buffered variant are Filled(cursor) with cursor < NSamples; the uniform
      variant keeps no buffer. */
  predicate ValidState(v: Variant, s: NoiseState)
  {
    if v.Buffered() then |s.buffer| == NSamples && s.idx < NSamples
    else s.buffer == [] && s.idx == 0
  }

  /** The state right after construction: the first buffer is generated with no previous
      value (the deep variant's cursor is still None at that point). */
  function InitialState(v: Variant, rnd: Randomness): (s: NoiseState)
    requires WellFormed(rnd)
    ensures ValidState(v, s) && s.idx == 0 && s.generation == 0
  {
    if v.Buffered() then NoiseState(Generate(v, rnd, 0, None), 0, 0) else NoiseState([], 0, 0)
  }

  /** The noise value one call of `apply` adds, and the state it leaves: the buffered
      variants read `buffer[idx]`, advance the cursor and regenerate when it reaches the
      length; the uniform variant draws from U(low, high) afresh. */
  function NextNoise(v: Variant, rnd: Randomness, s: NoiseState): (r: (real, NoiseState))
    requires WellFormed(rnd) && ValidState(v, s)
    ensures ValidState(v, r.1)
  {
    if !v.Buffered() then
      (UniformDraw(v.low, v.high, rnd.unit(s.generation, 0)), s.(generation := s.generation + 1))
    else if s.idx + 1 >= |s.buffer| then
      (s.buffer[s.idx],
       NoiseState(Generate(v, rnd, s.generation + 1, Some(s.buffer[|s.buffer| - 1])), 0,
                  s.generation + 1))
    else
      (s.buffer[s.idx], s.(idx := s.idx + 1))
  }

  /** One call of `apply(x)`: the clipped perturbed value and the new state. */
  function ApplyStep(v: Variant, rnd: Randomness, b: Bounds, s: NoiseState, x: real)
    : (r: (real, NoiseState))
    requires WellFormed(rnd) && ValidState(v, s)
    ensures ValidState(v, r.1)
  {
    var (n, s') := NextNoise(v, rnd, s);
    (Clip(b, x + n), s')
  }

  /** `apply_batch` over a sequence: `apply` on each element in order, threading the state. */
  function RunBatch(v: Variant, rnd: Randomness, b: Bounds, s: NoiseState, xs: seq<real>)
    : (r: (NoiseState, seq<real>))
    requires WellFormed(rnd) && ValidState(v, s)
    ensures ValidState(v, r.0) && |r.1| == |xs|
  {
    if xs == [] then (s, [])
    else
      var (sp, ys) := RunBatch(v, rnd, b, s, xs[..|xs| - 1]);
      var (y, s') := ApplyStep(v, rnd, b, sp, xs[|xs| - 1]);
      (s', ys + [y])
  }

  /** Before the end of a buffer is reached, k calls consume exactly k slots and the i-th
      output is clip(xs[i] + buffer[idx + i]). */
  lemma {:induction false} RunWithinBuffer(v: Variant, rnd: Randomness, b: Bounds,
                                            s: NoiseState, xs: seq<real>)
    requires WellFormed(rnd) && v.Buffered() && ValidState(v, s)
    requires s.idx + |xs| < NSamples
    ensures RunBatch(v, rnd, b, s, xs).0 == s.(idx := s.idx + |xs|)
    ensures forall i :: 0 <= i < |xs| ==>
      RunBatch(v, rnd, b, s, xs).1[i] == Clip(b, xs[i] + s.buffer[s.idx + i])
  {
    if xs != [] {
      var n := |xs| - 1;
      var init := xs[..n];
      RunWithinBuffer(v, rnd, b, s, init);
      var (sp, ys) := RunBatch(v, rnd, b, s, init);
      assert sp == s.(idx := s.idx + n);
      var (y, s') := ApplyStep(v, rnd, b, sp, xs[n]);
      assert y == Clip(b, xs[n] + s.buffer[s.idx + n]) && s' == s.(idx := s.idx + n + 1);
      assert RunBatch(v, rnd, b, s, xs) == (s', ys + [y]);
      forall i | 0 <= i < |xs|
        ensures RunBatch(v, rnd, b, s, xs).1[i] == Clip(b, xs[i] + s.buffer[s.idx + i])
      {
        if i < n {
          assert init[i] == xs[i];
        }
      }
    }
  }

  /** The call that consumes the last slot of a fresh buffer regenerates it: generation
      + 1, cursor 0, the deep pattern continuing from the last value. */
  lemma LastSlotRegenerates(v: Variant, rnd: Randomness, b: Bounds, s: NoiseState,
                            xs: seq<real>)
    requires WellFormed(rnd) && v.Buffered() && ValidState(v, s) && s.idx == 0
    requires |xs| == NSamples
    ensures RunBatch(v, rnd, b, s, xs).0 ==
      NoiseState(Generate(v, rnd, s.generation + 1, Some(s.buffer[NSamples - 1])), 0,
                 s.generation + 1)
    ensures forall i :: 0 <= i < NSamples ==>
      RunBatch(v, rnd, b, s, xs).1[i] == Clip(b, xs[i] + s.buffer[i])
  {
    var n := NSamples - 1;
    var first := xs[..n];
    RunWithinBuffer(v, rnd, b, s, first);
    var (sp, ys) := RunBatch(v, rnd, b, s, first);
    assert sp == s.(idx := n);
    var (y, s') := ApplyStep(v, rnd, b, sp, xs[n]);
    assert y == Clip(b, xs[n] + s.buffer[n]);
    assert s' == NoiseState(Generate(v, rnd, s.generation + 1, Some(s.buffer[n])), 0,
                            s.generation + 1);
    assert RunBatch(v, rnd, b, s, xs) == (s', ys + [y]);
    forall i | 0 <= i < NSamples
      ensures RunBatch(v, rnd, b, s, xs).1[i] == Clip(b, xs[i] + s.buffer[i])
    {
      if i < n {
        assert first[i] == xs[i];
      }
    }
  }

  /** The buffer boundary is transparent: call NSamples + 1 reads slot 0 of the new buffer
      and leaves the cursor at 1. */
  lemma RegenerationBoundary(v: Variant, rnd: Randomness, b: Bounds, s: NoiseState,
                             xs: seq<real>)
    requires WellFormed(rnd) && v.Buffered() && ValidState(v, s) && s.idx == 0
    requires |xs| == NSamples + 1
    ensures RunBatch(v, rnd, b, s, xs).0.idx == 1
    ensures RunBatch(v, rnd, b, s, xs).1[NSamples] ==
      Clip(b, xs[NSamples] + Generate(v, rnd, s.generation + 1, Some(s.buffer[NSamples - 1]))[0])
  {
    LastSlotRegenerates(v, rnd, b, s, xs[..NSamples]);
  }

  /** A Gaussian uncertainty with mean 0 and scale 0 and no bounds passes every input
      through unchanged, across any number of buffer regenerations. */
  lemma {:induction false} ZeroGaussianIsIdentity(rnd: Randomness, s: NoiseState, xs: seq<real>)
    requires WellFormed(rnd) && ValidState(Gaussian(0.0, 0.0), s)
    requires forall i :: 0 <= i < |s.buffer| ==> s.buffer[i] == 0.0
    ensures RunBatch(Gaussian(0.0, 0.0), rnd, NoBounds, s, xs).1 == xs
    ensures forall i :: 0 <= i < NSamples ==>
      RunBatch(Gaussian(0.0, 0.0), rnd, NoBounds, s, xs).0.buffer[i] == 0.0
  {
    if xs != [] {
      ZeroGaussianIsIdentity(rnd, s, xs[..|xs| - 1]);
      assert xs[..|xs| - 1] + [xs[|xs| - 1]] == xs;
    }
  }

  /** `UniformUncertainty(low=0, high=0)` without bounds returns its input. */
  lemma ZeroWidthUniformIsIdentity(rnd: Randomness, s: NoiseState, x: real)
    requires WellFormed(rnd) && ValidState(Uniform(0.0, 0.0), s)
    ensures ApplyStep(Uniform(0.0, 0.0), rnd, NoBounds, s, x).0 == x
  {
  }

  /** With both (intended) bounds the output of the uniform variant lies in
      [x + low, x + high] before clipping. */
  lemma UniformNoiseInRange(low: real, high: real, rnd: Randomness, s: NoiseState)
    requires WellFormed(rnd) && low <= high && ValidState(Uniform(low, high), s)
    ensures low <= NextNoise(Uniform(low, high), rnd, s).0 <= high
  {
    UniformDrawInRange(low, high, rnd.unit(s.generation, 0));
  }

  // ---------------------------------------------------------------------------------------
  // Equality and attributes

  /** `other.<name>` for the parameter properties of a variant; AttributeError when the
      variant has no such property. */
  function Param(v: Variant, name: string): (r: Result<real>)
    ensures r.Err? ==> r.error == AttributeError
  {
    match v
    case Gaussian(m, sd) =>
      if name == "mean" then Ok(m) else if name == "scale" then Ok(sd) else Err(AttributeError)
    case Uniform(lo, hi) =>
      if name == "min" then Ok(lo) else if name == "max" then Ok(hi) else Err(AttributeError)
    case Deep(lo, hi) =>
      if name == "min_noise_value" then Ok(lo)
      else if name == "max_noise_value" then Ok(hi) else Err(AttributeError)
    case _ => Err(AttributeError)
  }

  /** The properties a variant's `__eq__` compares, in the order it compares them: every
      property `Param` can read, each once, with the value it reads. */
  function OwnParams(v: Variant): (r: seq<(string, real)>)
    ensures r == [] <==> v.DeepUniform? || v.DeepGaussian?
    ensures forall i :: 0 <= i < |r| ==> Param(v, r[i].0) == Ok(r[i].1)
    ensures forall i, j :: 0 <= i < j < |r| ==> r[i].0 != r[j].0
  {
    match v
    case Gaussian(m, sd) => [("mean", m), ("scale", sd)]
    case Uniform(lo, hi) => [("min", lo), ("max", hi)]
    case Deep(lo, hi) => [("min_noise_value", lo), ("max_noise_value", hi)]
    case _ => []
  }

  /** Conversely, every property `Param` can read from a variant is one `__eq__` compares. */
  lemma OwnParamsCoverParams(v: Variant, name: string)
    requires Param(v, name).Ok?
    ensures exists i :: 0 <= i < |OwnParams(v)| && OwnParams(v)[i] == (name, Param(v, name).value)
  {
    var ps := OwnParams(v);
    if ps[0].0 == name {
      assert ps[0] == (name, Param(v, name).value);
    } else {
      assert ps[1] == (name, Param(v, name).value);
    }
  }

  /** The short-circuiting `and` chain `self.p == other.p and ...`: True exactly when
      `other` has every property with the same value; an error only from reading a
      property `other` lacks. */
  function CompareParams(ps: seq<(string, real)>, other: Variant): (r: Result<bool>)
    ensures r == Ok(true) <==> forall i :: 0 <= i < |ps| ==> Param(other, ps[i].0) == Ok(ps[i].1)
    ensures r.Err? ==> r.error == AttributeError &&
                       exists i :: 0 <= i < |ps| && Param(other, ps[i].0).Err?
    decreases |ps|
  {
    if ps == [] then Ok(true)
    else
      match Param(other, ps[0].0)
      case Err(e) => Err(e)
      case Ok(x) => if ps[0].1 != x then Ok(false) else CompareParams(ps[1..], other)
  }

  /** `a == b` for two uncertainties: the bounds first (a mismatch answers False before any
      parameter is read), then the parameters of `a`'s own class read from `b`. Buffers,
      cursors and generations take no part. */
  function Equal(ba: Bounds, va: Variant, bb: Bounds, vb: Variant): (r: Result<bool>)
    ensures ba != bb ==> r == Ok(false)
    ensures r == Ok(true) ==> ba == bb
  {
    if ba != bb then Ok(false) else CompareParams(OwnParams(va), vb)
  }

  /** Equality is reflexive, and two uncertainties of the same class are equal exactly when
      their bounds and parameters are. */
  lemma EqualSameClass(ba: Bounds, va: Variant, bb: Bounds, vb: Variant)
    requires ClassOf(va) == ClassOf(vb)
    ensures Equal(ba, va, bb, vb) == Ok(ba == bb && va == vb)
  {
    if ba == bb {
      var ps := OwnParams(va);
      if ps != [] {
        assert ps[1..][1..] == [];
        match va
        case Gaussian(m, sd) =>
          assert "scale" != "mean";
          assert Param(vb, "mean") == Ok(vb.mean) && Param(vb, "scale") == Ok(vb.scale);
          assert CompareParams(ps[1..], vb) == Ok(sd == vb.scale);
          assert CompareParams(ps, vb) == (if m != vb.mean then Ok(false) else Ok(sd == vb.scale));
        case Uniform(lo, hi) =>
          assert "max" != "min";
          assert Param(vb, "min") == Ok(vb.low) && Param(vb, "max") == Ok(vb.high);
          assert CompareParams(ps[1..], vb) == Ok(hi == vb.high);
          assert CompareParams(ps, vb) == (if lo != vb.low then Ok(false) else Ok(hi == vb.high));
        case Deep(lo, hi) =>
          assert "max_noise_value" != "min_noise_value";
          assert Param(vb, "min_noise_value") == Ok(vb.minNoise);
          assert Param(vb, "max_noise_value") == Ok(vb.maxNoise);
          assert CompareParams(ps[1..], vb) == Ok(hi == vb.maxNoise);
          assert CompareParams(ps, vb)
            == (if lo != vb.minNoise then Ok(false) else Ok(hi == vb.maxNoise));
      }
    }
  }

  /** Comparing across classes: the two deep variants without parameters compare equal when
      their bounds agree, while a Gaussian compared with one of them raises AttributeError
      (it reads `other.mean`) and the reverse comparison answers True. */
  lemma EqualAcrossClasses(b: Bounds, m: real, sd: real)
    ensures Equal(b, DeepUniform, b, DeepGaussian) == Ok(true)
    ensures Equal(b, Gaussian(m, sd), b, DeepUniform) == Err(AttributeError)
    ensures Equal(b, DeepUniform, b, Gaussian(m, sd)) == Ok(true)
  {
  }

  /** Which class a set of keyword arguments is passed to. */
  datatype Class = GaussianClass | UniformClass | DeepUniformClass | DeepGaussianClass | DeepClass

  function ClassOf(v: Variant): Class
  {
    match v
    case Gaussian(_, _) => GaussianClass
    case Uniform(_, _) => UniformClass
    case DeepUniform => DeepUniformClass
    case DeepGaussian => DeepGaussianClass
    case Deep(_, _) => DeepClass
  }

  /** `get_attributes()` as written; `None` is Python's None. The uniform variant emits its
      lower bound under "min" and its upper bound under "low". */
  function Attributes(b: Bounds, v: Variant): (m: map<string, Option<real>>)
    ensures "min_value" in m && m["min_value"] == b.minValue
    ensures "max_value" in m && m["max_value"] == b.maxValue
  {
    var base := map["min_value" := b.minValue, "max_value" := b.maxValue];
    match v
    case Gaussian(mn, sd) => base["mean" := Some(mn)]["scale" := Some(sd)]
    case Uniform(lo, hi) => base["min" := Some(lo)]["low" := Some(hi)]
    case Deep(lo, hi) => base["min_noise_value" := Some(lo)]["max_noise_value" := Some(hi)]
    case _ => base
  }

  /** `get_attributes()` of the uniform variant with the keys its constructor accepts. */
  function AttributesIntended(b: Bounds, v: Variant): (m: map<string, Option<real>>)
    ensures v.Uniform? ==>
      ("low" in m && "high" in m && m["low"] == Some(v.low) && m["high"] == Some(v.high))
    ensures !v.Uniform? ==> m == Attributes(b, v)
  {
    if v.Uniform? then
      map["min_value" := b.minValue, "max_value" := b.maxValue, "low" := Some(v.low),
          "high" := Some(v.high)]
    else Attributes(b, v)
  }

  /** The keyword arguments each constructor accepts; any other keyword travels up to
      `object.__init__`, which raises TypeError. */
  function Keywords(c: Class): set<string>
  {
    match c
    case GaussianClass => {"min_value", "max_value", "mean", "scale"}
    case UniformClass => {"min_value", "max_value", "low", "high"}
    case DeepClass => {"min_value", "max_value", "min_noise_value", "max_noise_value"}
    case _ => {"min_value", "max_value"}
  }

  /** A keyword value, or the given default when the keyword is absent. */
  function Kw(m: map<string, Option<real>>, key: string, default: Option<real>): Option<real>
  {
    if key in m then m[key] else default
  }

  /** The Gaussian parameters `GaussianUncertainty(**m)` holds: a missing or None mean or
      scale is drawn from `np.random.rand()`. */
  function GaussianOf(m: map<string, Option<real>>, rnd: Randomness): (v: Variant)
    ensures v.Gaussian?
    ensures "mean" in m && m["mean"].Some? ==> v.mean == m["mean"].value
    ensures "scale" in m && m["scale"].Some? ==> v.scale == m["scale"].value
    ensures !("mean" in m && m["mean"].Some?) ==> v.mean == rnd.param(0)
    ensures !("scale" in m && m["scale"].Some?) ==> v.scale == rnd.param(1)
  {
    var mean := Kw(m, "mean", None);
    var scale := Kw(m, "scale", None);
    Gaussian(if mean.Some? then mean.value else rnd.param(0),
             if scale.Some? then scale.value else rnd.param(1))
  }

  /** Binding keyword arguments to a constructor, `Class(**m)`: TypeError for an unknown
      keyword; otherwise the bounds and parameters the new instance holds. The Gaussian
      constructor draws its first buffer with `np.random.normal`, which raises ValueError for
      a negative scale; the other parameters must be numbers. For `DeepUncertainty` this is
      the intended behaviour, with uncertainties.py:271-272 corrected: as written its
      construction raises AttributeError (`DeepConstructionFailsAsWritten`). */
  function Construct(c: Class, m: map<string, Option<real>>, rnd: Randomness)
    : (r: Result<(Bounds, Variant)>)
    requires forall k :: (k in m && k != "min_value" && k != "max_value" && k != "mean" &&
                          k != "scale") ==> m[k].Some?
    ensures (exists k :: k in m && k !in Keywords(c)) ==> r == Err(TypeError)
    ensures r.Err? <==> (exists k :: k in m && k !in Keywords(c)) ||
                        (c == GaussianClass && GaussianOf(m, rnd).scale < 0.0)
    ensures r.Err? ==> r.error in {TypeError, ValueError}
    ensures WellFormed(rnd) && c == GaussianClass && !("scale" in m && m["scale"].Some?) ==>
      r.Ok? || r == Err(TypeError)
    ensures r.Ok? ==> r.value.0 == Bounds(Kw(m, "min_value", None), Kw(m, "max_value", None))
    ensures r.Ok? ==> ClassOf(r.value.1) == c
  {
    if exists k :: k in m && k !in Keywords(c) then Err(TypeError)
    else
      var b := Bounds(Kw(m, "min_value", None), Kw(m, "max_value", None));
      match c
      case GaussianClass =>
        var v := GaussianOf(m, rnd);
        if v.scale < 0.0 then Err(ValueError) else Ok((b, v))
      case UniformClass =>
        Ok((b, Uniform(Kw(m, "low", Some(0.0)).value, Kw(m, "high", Some(1.0)).value)))
      case DeepUniformClass => Ok((b, DeepUniform))
      case DeepGaussianClass => Ok((b, DeepGaussian))
      case DeepClass =>
        Ok((b, Deep(Kw(m, "min_noise_value", Some(0.0)).value,
                    Kw(m, "max_noise_value", Some(1.0)).value)))
  }

  /** Rebuilding from `get_attributes()` yields an equal instance for every class except the
      uniform one (a Gaussian instance exists only with a non-negative scale). */
  lemma AttributesRoundTrip(b: Bounds, v: Variant, rnd: Randomness)
    requires !v.Uniform? && (v.Gaussian? ==> v.scale >= 0.0)
    ensures Construct(ClassOf(v), Attributes(b, v), rnd) == Ok((b, v))
    ensures Equal(b, v, b, v) == Ok(true)
  {
    var m := Attributes(b, v);
    assert forall k :: k in m ==> k in Keywords(ClassOf(v));
    EqualSameClass(b, v, b, v);
  }

  /** As written, `UniformUncertainty(**u.get_attributes())` raises TypeError: "min" is not
      a keyword of the constructor. */
  lemma UniformAttributesDoNotRoundTrip(b: Bounds, lo: real, hi: real, rnd: Randomness)
    ensures Construct(UniformClass, Attributes(b, Uniform(lo, hi)), rnd) == Err(TypeError)
  {
    var m := Attributes(b, Uniform(lo, hi));
    assert "min" in m && "min" !in Keywords(UniformClass);
  }

  /** With the intended keys the uniform variant round-trips as well. */
  lemma UniformAttributesIntendedRoundTrip(b: Bounds, lo: real, hi: real, rnd: Randomness)
    ensures Construct(UniformClass, AttributesIntended(b, Uniform(lo, hi)), rnd)
            == Ok((b, Uniform(lo, hi)))
  {
    var m := AttributesIntended(b, Uniform(lo, hi));
    assert forall k :: k in m ==> k in Keywords(UniformClass);
  }

  // ---------------------------------------------------------------------------------------
  // The deep variant's attribute lookup, as written

  /** Python's private-name mangling: `self.__x` inside class C means `self._C__x`. */
  function Mangle(cls: string, name: string): (r: string)
    ensures |r| == 1 + |cls| + |name|
    ensures r[0] == '_' && r[1..1 + |cls|] == cls && r[1 + |cls|..] == name
  {
    "_" + cls + name
  }

  /** The same private name mangled in two different classes gives two different
      attributes. */
  lemma MangleSeparatesClasses(c1: string, c2: string, name: string)
    requires c1 != c2
    ensures Mangle(c1, name) != Mangle(c2, name)
  {
    if |c1| == |c2| {
      assert Mangle(c1, name)[1..1 + |c1|] != Mangle(c2, name)[1..1 + |c2|];
    }
  }

  /** The instance attributes a `DeepUncertainty` has when `__create_uncertainties` first
      runs: the two set by `Uncertainty.__init__`, and the three set by its own constructor
      so far. */
  function DeepInstanceAttributes(): (r: set<string>)
    ensures Mangle("Uncertainty", "__min_value") in r && Mangle("Uncertainty", "__max_value") in r
    ensures Mangle("DeepUncertainty", "__min_value") !in r
    ensures Mangle("DeepUncertainty", "__max_value") !in r
  {
    {Mangle("Uncertainty", "__min_value"), Mangle("Uncertainty", "__max_value"),
     Mangle("DeepUncertainty", "__min_noise_value"), Mangle("DeepUncertainty", "__max_noise_value"),
     Mangle("DeepUncertainty", "__uncertainties_idx")}
  }

  /** `DeepUncertainty.__create_uncertainties` as written, on an instance with attributes
      `attrs`: it reads `self.__min_value` and `self.__max_value` inside `DeepUncertainty`,
      i.e. `self._DeepUncertainty__min_value` and `self._DeepUncertainty__max_value`, and
      raises AttributeError when either is missing. */
  function DeepGenerateAsWritten(attrs: set<string>, lo: real, hi: real, rnd: Randomness, g: nat,
                                 prev: Option<real>)
    : (r: Result<seq<real>>)
    requires WellFormed(rnd)
    ensures r.Ok? <==> Mangle("DeepUncertainty", "__min_value") in attrs &&
                       Mangle("DeepUncertainty", "__max_value") in attrs
    ensures r.Ok? ==> r.value == Generate(Deep(lo, hi), rnd, g, prev)
    ensures r.Err? ==> r.error == AttributeError
  {
    if Mangle("DeepUncertainty", "__min_value") !in attrs
       || Mangle("DeepUncertainty", "__max_value") !in attrs then
      Err(AttributeError)
    else Ok(Generate(Deep(lo, hi), rnd, g, prev))
  }

  /** So every construction of a `DeepUncertainty` raises AttributeError: the attributes
      it reads were set under the base class's mangled names. */
  lemma DeepConstructionFailsAsWritten(lo: real, hi: real, rnd: Randomness)
    requires WellFormed(rnd)
    ensures DeepGenerateAsWritten(DeepInstanceAttributes(), lo, hi, rnd, 0, None) == Err(AttributeError)
  {
  }

  // ---------------------------------------------------------------------------------------
  // The generator object

  /** An uncertainty instance: immutable bounds, class parameters and random source, and
      the transient buffer / cursor / generation that `apply` updates in place. */
  class Uncertainty {
    const bounds: Bounds
    const variant: Variant
    const rnd: Randomness
    var buffer: seq<real>
    var idx: nat
    var generation: nat

    function State(): NoiseState
      reads this
    {
      NoiseState(buffer, idx, generation)
    }

    ghost predicate Valid()
      reads this
    {
      WellFormed(rnd) && ValidState(variant, State())
    }

    /** The constructors of the five classes: parameters stored, first buffer generated. */
    constructor Gaussian(bounds: Bounds, mean: Option<real>, scale: Option<real>, rnd: Randomness)
      requires WellFormed(rnd)
      requires scale.None? || scale.value >= 0.0  // a negative scale is `Construct`'s ValueError
      ensures Valid() && this.bounds == bounds && this.rnd == rnd
      ensures variant == Variant.Gaussian(if mean.Some? then mean.value else rnd.param(0),
                                          if scale.Some? then scale.value else rnd.param(1))
      ensures State() == InitialState(variant, rnd)
    {
      this.bounds := bounds;
      this.rnd := rnd;
      variant := Variant.Gaussian(if mean.Some? then mean.value else rnd.param(0),
                                  if scale.Some? then scale.value else rnd.param(1));
      new;
      var s := InitialState(variant, rnd);
      buffer, idx, generation := s.buffer, s.idx, s.generation;
    }

    constructor Uniform(bounds: Bounds, low: real, high: real, rnd: Randomness)
      requires WellFormed(rnd)
      ensures Valid() && this.bounds == bounds && this.rnd == rnd
      ensures variant == Variant.Uniform(low, high) && State() == InitialState(variant, rnd)
    {
      this.bounds := bounds;
      this.rnd := rnd;
      variant := Variant.Uniform(low, high);
      buffer, idx, generation := [], 0, 0;
    }

    /** The deep variant with its pattern bounded by the noise bounds, which is what the
        as-written lookup of `self.__min_value` fails to reach (`DeepGenerateAsWritten`). */
    constructor Deep(bounds: Bounds, minNoise: real, maxNoise: real, rnd: Randomness)
      requires WellFormed(rnd)
      ensures Valid() && this.bounds == bounds && this.rnd == rnd
      ensures variant == Variant.Deep(minNoise, maxNoise) && State() == InitialState(variant, rnd)
    {
      this.bounds := bounds;
      this.rnd := rnd;
      variant := Variant.Deep(minNoise, maxNoise);
      new;
      var s := InitialState(variant, rnd);
      buffer, idx, generation := s.buffer, s.idx, s.generation;
    }

    /** `DeepUniformUncertainty` (deepGaussian == false) or `DeepGaussianUncertainty`. */
    constructor DeepNoParams(bounds: Bounds, deepGaussian: bool, rnd: Randomness)
      requires WellFormed(rnd)
      ensures Valid() && this.bounds == bounds && this.rnd == rnd
      ensures variant == (if deepGaussian then DeepGaussian else DeepUniform)
      ensures State() == InitialState(variant, rnd)
    {
      this.bounds := bounds;
      this.rnd := rnd;
      variant := if deepGaussian then DeepGaussian else DeepUniform;
      new;
      var s := InitialState(variant, rnd);
      buffer, idx, generation := s.buffer, s.idx, s.generation;
    }

    /** `u == other`: reads only the immutable bounds and parameters. */
    function Equals(other: Uncertainty): (r: Result<bool>)
      ensures bounds != other.bounds ==> r == Ok(false)
    {
      Equal(bounds, variant, other.bounds, other.variant)
    }

    /** The part of `apply` every variant shares: take the next noise value. */
    method Draw() returns (n: real)
      requires Valid()
      modifies this
      ensures Valid()
      ensures (n, State()) == NextNoise(variant, rnd, old(State()))
    {
      if !variant.Buffered() {
        n := UniformDraw(variant.low, variant.high, rnd.unit(generation, 0));
        generation := generation + 1;
      } else {
        n := buffer[idx];
        idx := idx + 1;
        if idx >= |buffer| {
          buffer := Generate(variant, rnd, generation + 1, Some(buffer[|buffer| - 1]));
          idx := 0;
          generation := generation + 1;
        }
      }
    }

    /** `apply(x)`: clip(x + noise), consuming one slot. */
    method Apply(x: real) returns (r: real)
      requires Valid()
      modifies this
      ensures Valid()
      ensures (r, State()) == ApplyStep(variant, rnd, bounds, old(State()), x)
    {
      var n := Draw();
      r := Clip(bounds, x + n);
    }

    /** `apply_batch(data)`: `data[t] = apply(data[t])` for t = 0 .. n-1, in place. */
    method ApplyBatch(data: array<real>)
      requires Valid()
      modifies this, data
      ensures Valid()
      ensures (State(), data[..]) == RunBatch(variant, rnd, bounds, old(State()), old(data[..]))
    {
      ghost var s0 := State();
      ghost var xs := data[..];
      for t := 0 to data.Length
        invariant Valid()
        invariant data[t..] == xs[t..]
        invariant (State(), data[..t]) == RunBatch(variant, rnd, bounds, s0, xs[..t])
      {
        ghost var before := data[..t];
        assert data[t + 1..] == xs[t + 1..] by {
          assert data[t + 1..] == data[t..][1..] && xs[t + 1..] == xs[t..][1..];
        }
        var y := Apply(data[t]);
        data[t] := y;
        assert xs[..t + 1][..t] == xs[..t];
        assert data[..t + 1] == before + [y];
      }
      assert data[..] == data[..data.Length] && xs == xs[..data.Length];
    }

    /** `apply` on a row of a two-dimensional batch: the row plus one noise value, clipped
        as a row. The cursor advances even when the clipping raises. */
    method ApplyRow(row: seq<real>) returns (r: Result<seq<real>>)
      requires Valid()
      modifies this
      ensures Valid()
      ensures State() == NextNoise(variant, rnd, old(State())).1
      ensures r == ClipRow(bounds, Shift(row, NextNoise(variant, rnd, old(State())).0))
    {
      var n := Draw();
      r := ClipRow(bounds, Shift(row, n));
    }

    /** `apply_batch` on a two-dimensional array (rows are time steps): rows are perturbed
        in order and the first failing row's error propagates. */
    method ApplyBatchRows(rows: seq<seq<real>>) returns (r: Result<seq<seq<real>>>)
      requires Valid()
      modifies this
      ensures Valid()
      ensures (State(), r) == RunRows(variant, rnd, bounds, old(State()), rows)
    {
      ghost var s0 := State();
      var out: seq<seq<real>> := [];
      var t := 0;
      while t < |rows|
        invariant 0 <= t <= |rows| && Valid()
        invariant (State(), Ok(out)) == RunRows(variant, rnd, bounds, s0, rows[..t])
      {
        assert rows[..t + 1][..t] == rows[..t];
        var row := ApplyRow(rows[t]);
        if row.Err? {
          assert rows[..t + 1][t] == rows[t];
          RunRowsStopsAtError(variant, rnd, bounds, s0, rows, t + 1);
          return Err(row.error);
        }
        out := out + [row.value];
        t := t + 1;
      }
      assert rows[..t] == rows;
      r := Ok(out);
    }

    /** `copy.deepcopy(other)`: a fresh instance in the same state. */
    constructor Copy(other: Uncertainty)
      requires other.Valid()
      ensures Valid()
      ensures bounds == other.bounds && variant == other.variant && rnd == other.rnd
      ensures State() == other.State()
    {
      bounds, variant, rnd := other.bounds, other.variant, other.rnd;
      buffer, idx, generation := other.buffer, other.idx, other.generation;
    }
  }

  /** Every entry of a row plus one noise value (numpy broadcasting of `row += noise`). */
  function Shift(row: seq<real>, n: real): (r: seq<real>)
    ensures |r| == |row| && forall i :: 0 <= i < |row| ==> r[i] == row[i] + n
  {
    seq(|row|, i requires 0 <= i < |row| => row[i] + n)
  }

  /** `apply_batch` over rows: each row is shifted by its own noise value and clipped; the
      first error stops the batch (the state then includes the failing row's draw). */
  function RunRows(v: Variant, rnd: Randomness, b: Bounds, s: NoiseState, rows: seq<seq<real>>)
    : (r: (NoiseState, Result<seq<seq<real>>>))
    requires WellFormed(rnd) && ValidState(v, s)
    ensures ValidState(v, r.0)
    ensures r.1.Ok? ==> |r.1.value| == |rows|
  {
    if rows == [] then (s, Ok([]))
    else
      var (sp, done) := RunRows(v, rnd, b, s, rows[..|rows| - 1]);
      if done.Err? then (sp, done)
      else
        var (n, s') := NextNoise(v, rnd, sp);
        match ClipRow(b, Shift(rows[|rows| - 1], n))
        case Err(e) => (s', Err(e))
        case Ok(row) => (s', Ok(done.value + [row]))
  }

  /** Once a prefix has failed, longer prefixes fail the same way in the same state. */
  lemma {:induction false} RunRowsStopsAtError(v: Variant, rnd: Randomness, b: Bounds,
                                               s: NoiseState, rows: seq<seq<real>>, k: nat)
    requires WellFormed(rnd) && ValidState(v, s) && k <= |rows|
    requires RunRows(v, rnd, b, s, rows[..k]).1.Err?
    ensures RunRows(v, rnd, b, s, rows) == RunRows(v, rnd, b, s, rows[..k])
    decreases |rows| - k
  {
    if k < |rows| {
      assert rows[..k + 1][..k] == rows[..k];
      RunRowsStopsAtError(v, rnd, b, s, rows, k + 1);
    } else {
      assert rows[..k] == rows;
    }
  }

  /** The noise state after `t` draws starting from `s`. */
  function StateAfter(v: Variant, rnd: Randomness, s: NoiseState, t: nat): (r: NoiseState)
    requires WellFormed(rnd) && ValidState(v, s)
    ensures ValidState(v, r)
  {
    if t == 0 then s else NextNoise(v, rnd, StateAfter(v, rnd, s, t - 1)).1
  }

  /** Without bounds, one more row is shifted by the next noise value and appended. (The
      bounds are a parameter equal to `NoBounds` rather than the constant itself, which
      keeps the unfolding of `RunRows` small.) */
  lemma RunRowsAppendUnbounded(v: Variant, rnd: Randomness, b: Bounds, s: NoiseState,
                               rows: seq<seq<real>>)
    requires WellFormed(rnd) && ValidState(v, s) && rows != [] && b == NoBounds
    requires RunRows(v, rnd, b, s, rows[..|rows| - 1]).1.Ok?
    ensures var prev := RunRows(v, rnd, b, s, rows[..|rows| - 1]);
      var next := NextNoise(v, rnd, prev.0);
      RunRows(v, rnd, b, s, rows)
        == (next.1, Ok(prev.1.value + [Shift(rows[|rows| - 1], next.0)]))
  {
  }

  /** Without bounds a two-dimensional batch never fails, keeps its shape, row t is shifted
      by the noise value drawn after t earlier draws, and the batch leaves the state after
      one draw per row. */
  lemma {:induction false} RunRowsUnbounded(v: Variant, rnd: Randomness, s: NoiseState,
                                            rows: seq<seq<real>>)
    requires WellFormed(rnd) && ValidState(v, s)
    ensures RunRows(v, rnd, NoBounds, s, rows).1.Ok?
    ensures RunRows(v, rnd, NoBounds, s, rows).0 == StateAfter(v, rnd, s, |rows|)
    ensures forall t :: 0 <= t < |rows| ==> |RunRows(v, rnd, NoBounds, s, rows).1.value[t]| == |rows[t]|
    ensures forall t :: 0 <= t < |rows| ==>
      RunRows(v, rnd, NoBounds, s, rows).1.value[t]
        == Shift(rows[t], NextNoise(v, rnd, StateAfter(v, rnd, s, t)).0)
  {
    if rows != [] {
      var init, last := rows[..|rows| - 1], rows[|rows| - 1];
      RunRowsUnbounded(v, rnd, s, init);
      var prev := RunRows(v, rnd, NoBounds, s, init);
      var next := NextNoise(v, rnd, prev.0);
      var out := prev.1.value + [Shift(last, next.0)];
      RunRowsAppendUnbounded(v, rnd, NoBounds, s, rows);
      forall t | 0 <= t < |rows|
        ensures out[t] == Shift(rows[t], NextNoise(v, rnd, StateAfter(v, rnd, s, t)).0)
      {
        if t < |init| {
          assert init[t] == rows[t] && out[t] == prev.1.value[t];
        }
      }
    }
  }
}

=== FILE: utils.dfy ===
/** `to_seconds`: a duration given in days, hours and minutes, each optional, as a number
    of seconds. */
module Utils {
  import opened Common

  const SecondsPerDay := 24 * 60 * 60
  const SecondsPerHour := 60 * 60
  const SecondsPerMinute := 60

  /** One optional component: None (`PyNone`) contributes nothing; otherwise it must be an
      int (TypeError) and positive (ValueError), and contributes that many units. */
  function Component(v: Value, unit: nat): (r: Result<int>)
    ensures v.PyNone? ==> r == Ok(0)
    ensures !v.PyNone? && !IsInt(v) ==> r == Err(TypeError)
    ensures IsInt(v) && IntOf(v) <= 0 ==> r == Err(ValueError)
    ensures r.Ok? <==> v.PyNone? || (IsInt(v) && IntOf(v) > 0)
    ensures r.Ok? && !v.PyNone? ==> r.value == unit * IntOf(v)
  {
    if v.PyNone? then Ok(0)
    else if !IsInt(v) then Err(TypeError)
    else if IntOf(v) <= 0 then Err(ValueError)
    else Ok(unit * IntOf(v))
  }

  /** The seconds of `to_seconds(days, hours, minutes)`: the components checked in the
      order days, hours, minutes, the first one rejected deciding the error. */
  function ToSecondsSpec(days: Value, hours: Value, minutes: Value): (r: Result<int>)
    ensures Component(days, SecondsPerDay).Err? ==> r == Err(Component(days, SecondsPerDay).error)
    ensures Component(days, SecondsPerDay).Ok? && Component(hours, SecondsPerHour).Err? ==>
      r == Err(Component(hours, SecondsPerHour).error)
    ensures r.Ok? <==>
      && Component(days, SecondsPerDay).Ok?
      && Component(hours, SecondsPerHour).Ok?
      && Component(minutes, SecondsPerMinute).Ok?
  {
    match Component(days, SecondsPerDay)
    case Err(e) => Err(e)
    case Ok(d) =>
      match Component(hours, SecondsPerHour)
      case Err(e) => Err(e)
      case Ok(h) =>
        match Component(minutes, SecondsPerMinute)
        case Err(e) => Err(e)
        case Ok(m) => Ok(d + h + m)
  }

  /** `to_seconds(days=None, hours=None, minutes=None)`: `sec` starts at 0 and each given
      component, once checked, adds its seconds. */
  method ToSeconds(days: Value, hours: Value, minutes: Value) returns (r: Result<int>)
    ensures r == ToSecondsSpec(days, hours, minutes)
  {
    var sec := 0;
    if !days.PyNone? {
      if !IsInt(days) {
        return Err(TypeError);
      }
      if IntOf(days) <= 0 {
        return Err(ValueError);
      }
      sec := sec + SecondsPerDay * IntOf(days);
    }
    if !hours.PyNone? {
      if !IsInt(hours) {
        return Err(TypeError);
      }
      if IntOf(hours) <= 0 {
        return Err(ValueError);
      }
      sec := sec + SecondsPerHour * IntOf(hours);
    }
    if !minutes.PyNone? {
      if !IsInt(minutes) {
        return Err(TypeError);
      }
      if IntOf(minutes) <= 0 {
        return Err(ValueError);
      }
      sec := sec + SecondsPerMinute * IntOf(minutes);
    }
    return Ok(sec);
  }

  /** The seconds of whole components: 86400·days + 3600·hours + 60·minutes, an omitted
      component counting as 0. */
  lemma ToSecondsSum(d: int, h: int, m: int)
    requires d >= 0 && h >= 0 && m >= 0
    ensures var arg := (x: int) => if x == 0 then PyNone else Int(x);
      ToSecondsSpec(arg(d), arg(h), arg(m)) == Ok(86400 * d + 3600 * h + 60 * m)
  {
  }

  /** Without any argument the duration is 0 seconds. */
  lemma NoComponentsIsZero()
    ensures ToSecondsSpec(PyNone, PyNone, PyNone) == Ok(0)
  {
  }

  /** A successful call with at least one component given is a positive number of
      seconds; a successful call is never negative. */
  lemma ToSecondsPositive(days: Value, hours: Value, minutes: Value)
    requires ToSecondsSpec(days, hours, minutes).Ok?
    ensures ToSecondsSpec(days, hours, minutes).value >= 0
    ensures !(days.PyNone? && hours.PyNone? && minutes.PyNone?) ==>
      ToSecondsSpec(days, hours, minutes).value > 0
  {
  }

  /** The first rejected component decides the error, whatever the later ones are: a
      float number of days is a TypeError even when the hours are negative. */
  lemma FirstBadComponentDecides(hours: Value, minutes: Value)
    ensures ToSecondsSpec(Float(1.0), hours, minutes) == Err(TypeError)
    ensures ToSecondsSpec(Int(0), hours, minutes) == Err(ValueError)
    ensures ToSecondsSpec(PyNone, Int(-1), Float(1.0)) == Err(ValueError)
  {
  }
}
